=== FILE: README.md ===
# Attendance tracker and contact book, modelled in Dafny

This project models the core of two small Python console programs and proves
properties of the model.

**The attendance tracker** (`tracker.py`) does the following:

- It records check-in times per student for a date and normalises each time
  with `parse_time`.
- It appends every run to a human-readable text archive
  (`write_archive_section`). Optionally it also logs the run as CSV rows
  (`append_csv_rows`).
- It keeps a roster file of student names and edits it with add, remove and
  bulk-replace steps.
- It builds a date-wise report. The report's map from date to (name to time)
  comes from the CSV log (`read_from_csv`), or from the archive
  (`read_from_archive`) when the log is empty. `build_master` orders the dates
  and gathers the roster. `make_colored_pdf` lays out one table per date, with
  one row per roster member, marked present or absent.

**The contact book** (`contact_manager.py`) keeps `name`, `phone` and `email`
records in a CSV file. Its handlers add, search, update and delete records by
name, comparing names without regard to case.

Each handler and each step is a pure Dafny function from the state it loads to
the state it saves. What the user types becomes a parameter. Clocks
(`datetime.now`, `date.today`) become parameters too: a date and a
generated-at stamp.

Modules, one per file:

- `Wrappers`: `Option` and `Result`.
- `Text`: the Python string operations used. These are `strip`, `lower` and
  `title` (ASCII case mapping), `ljust`, `join` and `splitlines`, plus
  `re.split(r"\s{2,}")`, `str(int)` and `int(str)`.
- `Ordering`: Python's string order, `sorted(key=...)`, the deduplication of
  `dict.fromkeys` and `sorted(set)`.
- `Clock`: `parse_time`. It follows CPython's `strptime` for the layouts
  "%I:%M %p", "%H:%M" and "%I:%M%p", with ASCII digits only.
- `Archive`: dates, the items of a run, and the lines of an archive section.
- `ArchiveReader`: both readers.
- `ArchiveLines` and `ArchiveSections`: reading lines, sections and whole
  archives.
- `LogRoundTrip`: the CSV log.
- `Roster`: the roster file and the roster editor.
- `Recording`: the per-item checks of the recording flow and the class
  strength check.
- `Report`: `build_master` and the table rows of the report.
- `Contacts`: the contact book.

## Model

| member | source | states |
|---|---|---|
| Clock.ParseTime | attendance_tracker_Assignment_01_python/tracker.py:37-47 | a successful parse is always a canonical "hh:mm AM" / "hh:mm PM" text |
| Clock.ParseTimeComplete | attendance_tracker_Assignment_01_python/tracker.py:39-44 | every reading that one of the three layouts gives the stripped input is accepted and rendered as "%I:%M %p" of that hour and minute |
| Clock.ParseTimeSound | attendance_tracker_Assignment_01_python/tracker.py:39-44 | whatever is returned renders an hour below 24 and a minute below 60 that one of the layouts reads from the stripped input |
| Clock.ParseTimeIdempotent | attendance_tracker_Assignment_01_python/tracker.py:44 | normalising an already normalised time returns it unchanged |
| Clock.CanonicalIsFixedPoint | attendance_tracker_Assignment_01_python/tracker.py:44 | every canonical "hh:mm AM/PM" text parses to itself |
| Clock.RejectsOutOfRange | attendance_tracker_Assignment_01_python/tracker.py:40-47 | "H:M" with an hour above 23 or a minute above 59 (such as "25:99") raises the invalid-format error |
| Clock.BareLayout | attendance_tracker_Assignment_01_python/tracker.py:40 | with nothing after the minutes, only the 24-hour layout can match |
| Clock.To24 | attendance_tracker_Assignment_01_python/tracker.py:40 | a 12-hour reading with AM gives an hour before noon, and with PM an hour from noon on |
| Archive.IsoInjective | attendance_tracker_Assignment_01_python/tracker.py:69 | two dates have the same `isoformat` text exactly when they are equal |
| Archive.Iso | attendance_tracker_Assignment_01_python/tracker.py:69 | `isoformat` is "YYYY-MM-DD", whose digit groups denote the year, month and day |
| Archive.ByName | attendance_tracker_Assignment_01_python/tracker.py:76 | the items come out as a permutation of the dict, ordered by lower-cased name |
| Archive.AsMapOfPermutation | attendance_tracker_Assignment_01_python/tracker.py:76-77 | any reordering of a dict's items describes the same dict |
| Archive.SectionLayout | attendance_tracker_Assignment_01_python/tracker.py:66-82 | a section has ten lines plus one per item. It opens with the "=== Attendance for: date ===" header, and lines 5 onwards hold the items' rows in case-insensitive order. The footer's present count reads back as the number of items |
| Archive.SectionLines | attendance_tracker_Assignment_01_python/tracker.py:66-82 | a section is one line per item plus ten lines of header, preamble and footer |
| Archive.SectionTextLines | attendance_tracker_Assignment_01_python/tracker.py:84-85 | what one run appends ends with a line break, so the next run starts on a line of its own, and it splits back into the section's lines when no line holds a line break |
| Archive.RowLayoutsAgree | attendance_tracker_Assignment_01_python/tracker.py:77 | for names of at most 26 characters, the as-written row and the corrected row are the same text: the name padded to column 28, then the time |
| ArchiveReader.NextHeader | attendance_tracker_Assignment_01_python/tracker.py:317 | the header search finds the leftmost header at or after the start position, or reports none |
| ArchiveReader.Put | attendance_tracker_Assignment_01_python/tracker.py:336 | storing a name's time under a date replaces only that name's entry, and every other date is untouched |
| ArchiveReader.ClassifyLine | attendance_tracker_Assignment_01_python/tracker.py:323-336 | a line that yields an item gives a non-empty title-cased name and a stripped time that looks like a clock reading |
| ArchiveReader.ReadArchive | attendance_tracker_Assignment_01_python/tracker.py:312-337 | a date appears in the result only after some line stored an item under it, so every date holds at least one name |
| ArchiveReader.ReadRowStores | attendance_tracker_Assignment_01_python/tracker.py:303-309 | a row missing the date or the name changes nothing. Otherwise its stripped time is stored under its stripped date and title-cased name, the date's other names keep their time, and no other date changes |
| ArchiveReader.ReadCsv | attendance_tracker_Assignment_01_python/tracker.py:297-310 | a date appears in the result only after a row with a name stored an item under it, so every date holds at least one name |
| ArchiveReader.LogRows | attendance_tracker_Assignment_01_python/tracker.py:93-94 | one row per item, in case-insensitive name order, each carrying the stamp, the ISO date, the name and the time under the four column names |
| ArchiveLines.ClassifyRow | attendance_tracker_Assignment_01_python/tracker.py:330-336 | the data line of an archivable item reads back as exactly that item |
| ArchiveLines.LongNameDropped | attendance_tracker_Assignment_01_python/tracker.py:77 | with the as-written padding, a name of 27 or more characters leaves under two spaces before the time, so the reader drops the line |
| ArchiveLines.ReservedNameDropped | attendance_tracker_Assignment_01_python/tracker.py:328 | the data line of a name starting with "Generated at", "Student Name" or "Total" (such as "Totalova") holds no item for the reader, in either row layout |
| ArchiveLines.PreambleRead | attendance_tracker_Assignment_01_python/tracker.py:324-329 | the generated-at line, the blank line, the table head and the rule store nothing |
| ArchiveLines.FooterRead | attendance_tracker_Assignment_01_python/tracker.py:324-329 | the closing rule, the three "Total" lines and the blank line store nothing |
| ArchiveLines.ReadLinesRows | attendance_tracker_Assignment_01_python/tracker.py:330-336 | the data lines of distinct archivable items store exactly those items under the section's date |
| ArchiveLines.MergeStores | attendance_tracker_Assignment_01_python/tracker.py:336 | a run's items replace the same names' times under its date, and other names keep their time. A run with no items changes nothing |
| ArchiveLines.MergeFrame | attendance_tracker_Assignment_01_python/tracker.py:336 | reading a section changes no other date |
| ArchiveSections.ChunksOfSection | attendance_tracker_Assignment_01_python/tracker.py:317-322 | splitting at a header with a body free of '=' gives that section's date and body as the next chunk |
| ArchiveSections.ArchiveChunks | attendance_tracker_Assignment_01_python/tracker.py:317-322 | cutting a written archive at its headers gives one chunk per run, in order |
| ArchiveSections.BodyRead | attendance_tracker_Assignment_01_python/tracker.py:323-336 | a whole section body merges exactly the run's items into its date |
| ArchiveSections.SingleRunRoundTrip | attendance_tracker_Assignment_01_python/tracker.py:312-337 | one section read back gives the run's dict under its date, or nothing for a run with no items |
| ArchiveSections.ArchiveRoundTrip | attendance_tracker_Assignment_01_python/tracker.py:312-337 | reading back the archive that the runs appended gives every run's items under its date, with later runs overwriting earlier ones |
| ArchiveSections.LatestRunWins | attendance_tracker_Assignment_01_python/tracker.py:336 | after one more run, its items are what is stored for that date and those names. Every other date is as before |
| LogRoundTrip.ReadLogRow | attendance_tracker_Assignment_01_python/tracker.py:303-309 | a logged row of a loggable item stores exactly that item under the ISO date |
| LogRoundTrip.ReadLoggedRows | attendance_tracker_Assignment_01_python/tracker.py:93-94 | the rows of one run merge that run's items, whatever rows follow |
| LogRoundTrip.LogRoundTrip | attendance_tracker_Assignment_01_python/tracker.py:297-310 | reading back the CSV log gives every run's items under its date, with later runs overwriting earlier ones |
| LogRoundTrip.ArchivableIsLoggable | attendance_tracker_Assignment_01_python/tracker.py:304-306 | every item the archive carries, the log's reader keeps unchanged |
| LogRoundTrip.ReadersAgree | attendance_tracker_Assignment_01_python/tracker.py:415-417 | for archivable runs, the report sees the same map whether it reads the log or the archive |
| Ordering.SortBy | attendance_tracker_Assignment_01_python/tracker.py:108 | sorting by a key gives a permutation ordered by that key |
| Ordering.SortOfSorted | attendance_tracker_Assignment_01_python/tracker.py:131 | sorting an already sorted list leaves it unchanged |
| Ordering.Dedup | attendance_tracker_Assignment_01_python/tracker.py:108 | `dict.fromkeys` keeps every value exactly once and nothing else |
| Ordering.DedupOfDistinct | attendance_tracker_Assignment_01_python/tracker.py:108 | a list without repeats is its own `dict.fromkeys` |
| Ordering.SortedSet | attendance_tracker_Assignment_01_python/tracker.py:340 | sorting a set gives its members, each once, strictly ascending |
| Text.StripEmpty | attendance_tracker_Assignment_01_python/tracker.py:324 | `strip()` is empty exactly for strings of whitespace only |
| Text.ParseIntOfIntToString | attendance_tracker_Assignment_01_python/tracker.py:79-81 | an integer printed in decimal reads back as itself |
| Text.Lines | attendance_tracker_Assignment_01_python/tracker.py:323 | `splitlines` gives no more lines than characters, and no line holds a line boundary |
| Text.SplitRuns | attendance_tracker_Assignment_01_python/tracker.py:330 | `re.split(r"\s{2,}", s)` gives at least one piece, the first piece starts where the text starts, and no piece holds a run of two whitespace characters |
| Roster.LoadRoster | attendance_tracker_Assignment_01_python/tracker.py:99-108 | no file gives an empty roster. Otherwise the roster is well formed (distinct, in case-insensitive order, stripped, title-cased) and holds exactly the names of the file's non-blank lines |
| Roster.LineNamesMembers | attendance_tracker_Assignment_01_python/tracker.py:104-107 | the names collected are exactly the title-cased strips of the lines that are not blank |
| Roster.NormalizeGivesName | attendance_tracker_Assignment_01_python/tracker.py:124 | a non-blank input normalises to a valid roster name |
| Roster.NormalizeOfName | attendance_tracker_Assignment_01_python/tracker.py:124 | a roster name normalises to itself |
| Roster.Arrange | attendance_tracker_Assignment_01_python/tracker.py:108 | deduplicating and sorting gives a well-formed roster with the same names |
| Roster.ArrangeOfWellFormed | attendance_tracker_Assignment_01_python/tracker.py:108 | a well-formed roster arranges to itself |
| Roster.RosterRoundTrip | attendance_tracker_Assignment_01_python/tracker.py:110-111 | saving a well-formed roster and loading it back gives the same roster |
| Roster.SaveRoster | attendance_tracker_Assignment_01_python/tracker.py:110-111 | when no name is empty or holds a line break, the saved file's lines are exactly the names, in order |
| Roster.AddName | attendance_tracker_Assignment_01_python/tracker.py:123-132 | an empty name is ignored and a name already present is refused, in both cases with no change. Otherwise the roster gains exactly that name and is sorted |
| Roster.AddKeepsWellFormed | attendance_tracker_Assignment_01_python/tracker.py:127-131 | adding keeps the roster well formed and holds exactly the old names plus the new one |
| Roster.RemoveFirst | attendance_tracker_Assignment_01_python/tracker.py:136 | `list.remove` takes out the first occurrence only |
| Roster.RemoveName | attendance_tracker_Assignment_01_python/tracker.py:133-139 | a name not on the roster changes nothing. Otherwise the roster shrinks by one |
| Roster.RemoveKeepsWellFormed | attendance_tracker_Assignment_01_python/tracker.py:135-136 | removing keeps the roster well formed, without the name and with every other name |
| Roster.UntilBlank | attendance_tracker_Assignment_01_python/tracker.py:149-154 | the bulk input is the longest prefix of typed lines before the first blank one |
| Roster.UntilBlankStops | attendance_tracker_Assignment_01_python/tracker.py:150-153 | typing non-blank lines and then a blank line collects exactly those lines |
| Roster.ReplaceRoster | attendance_tracker_Assignment_01_python/tracker.py:147-155 | a bulk replace always yields a well-formed roster, holding exactly the title-cased strips of the non-blank lines typed before the first blank one |
| Roster.ReplaceAgreesWithLoad | attendance_tracker_Assignment_01_python/tracker.py:147-155 | typing a file's lines and then a blank line gives the roster that loading that file gives |
| Recording.AcceptName | attendance_tracker_Assignment_01_python/tracker.py:185-194 | a blank name and a name already recorded under any capitalisation are refused, and nothing else is. An accepted name is the title-cased strip |
| Recording.AcceptTime | attendance_tracker_Assignment_01_python/tracker.py:196-206 | a blank time is refused. Otherwise the time is accepted exactly when `parse_time` accepts it, and the stored time is canonical |
| Recording.RecordItem | attendance_tracker_Assignment_01_python/tracker.py:184-208 | an item is added exactly when both the name and the time are accepted, and earlier items are kept |
| Recording.RecordItemKeeps | attendance_tracker_Assignment_01_python/tracker.py:190-208 | recording keeps names distinct under any capitalisation, keeps every item loggable, and the new time is canonical |
| Recording.CanonicalArchivable | attendance_tracker_Assignment_01_python/tracker.py:334 | every time `parse_time` produces is one the archive reader keeps |
| Recording.ClassStrength | attendance_tracker_Assignment_01_python/tracker.py:221-231 | a non-integer and a strength below the present count are refused. Otherwise absent = total - present, and it is never negative |
| Recording.StrengthOfDecimal | attendance_tracker_Assignment_01_python/tracker.py:221-231 | a strength typed in decimal is accepted exactly when it is at least the present count, and then it is the total |
| Report.ReportData | attendance_tracker_Assignment_01_python/tracker.py:415-420 | the log's map is used when non-empty, else the archive's. There is no report when both are empty |
| Report.BuildMaster | attendance_tracker_Assignment_01_python/tracker.py:339-348 | dates ascend strictly and are exactly the map's dates. The roster is every recorded name plus the roster file's names, each once, in case-insensitive order |
| Report.ArrangeNames | attendance_tracker_Assignment_01_python/tracker.py:341-347 | the roster is the union of the two name sources, without repeats, sorted by lower-cased name |
| Report.RowFor | attendance_tracker_Assignment_01_python/tracker.py:375-383 | a member is Present exactly when the date's map holds the name. The time shown is the stored one, or "-" when absent or empty |
| Report.TableRows | attendance_tracker_Assignment_01_python/tracker.py:375-383 | the row loop gives one row per roster member, in roster order |
| Report.PresentCount | attendance_tracker_Assignment_01_python/tracker.py:375-383 | the number of Present rows is the number of roster members the date's map holds |
| Report.TableAt | attendance_tracker_Assignment_01_python/tracker.py:367-383 | the k-th table carries index k, the k-th date, that date's rows, and a page break exactly when k is a multiple of 3 |
| Report.MakeReport | attendance_tracker_Assignment_01_python/tracker.py:361-367 | the no-data notice appears exactly when there is no date or no roster member. Otherwise there is one table per date, in date order |
| Report.PageBreaks | attendance_tracker_Assignment_01_python/tracker.py:407-408 | a report over n dates has n / 3 page breaks |
| Report.EveryEntryShown | attendance_tracker_Assignment_01_python/tracker.py:373-379 | every name a date holds has a Present row in that date's table, showing its time or "-" |
| Contacts.AddContact | Contact_manager/contact_manager.py:91-108 | a blank name, and a name present under any capitalisation, both leave the list unchanged and unsaved. Otherwise exactly one stripped record is appended and earlier records are kept |
| Contacts.AddKeeps | Contact_manager/contact_manager.py:101-107 | adding keeps names unique under case and keeps every record stored stripped with a name |
| Contacts.AddThenSearch | Contact_manager/contact_manager.py:105-107 | after a successful add, searching for the name finds exactly the new record |
| Contacts.Matching | Contact_manager/contact_manager.py:147 | the filter holds exactly the records whose lower-cased name equals the lower-cased key |
| Contacts.MatchingAppend | Contact_manager/contact_manager.py:147 | the filter keeps list order: it distributes over concatenation |
| Contacts.Search | Contact_manager/contact_manager.py:141-147 | a blank key finds nothing. Otherwise the result is the matching filter for the stripped key: the records whose name equals it without regard to case, in list order and with repeats kept |
| Contacts.UniqueSearch | Contact_manager/contact_manager.py:147 | when names are unique under case, a search finds at most one record |
| Contacts.FirstMatch | Contact_manager/contact_manager.py:173-174 | the loop stops at the first matching record, and at none when no record matches |
| Contacts.Revise | Contact_manager/contact_manager.py:176-183 | the name never changes, and a field is replaced only by a non-empty answer |
| Contacts.UpdateContact | Contact_manager/contact_manager.py:163-193 | a blank key or no match leaves the list unchanged and unsaved. Otherwise only the first match is revised, every other record is unchanged, and no name ever changes |
| Contacts.UpdateKeeps | Contact_manager/contact_manager.py:172-186 | updating keeps names unique under case and every record stored stripped |
| Contacts.Without | Contact_manager/contact_manager.py:208 | the kept records are exactly those not matching. Kept plus matched make up the whole list |
| Contacts.WithoutAppend | Contact_manager/contact_manager.py:208 | deleting keeps the surviving records in their original order |
| Contacts.DeleteContact | Contact_manager/contact_manager.py:199-215 | a blank key or no match leaves the list unchanged and unsaved. Otherwise the saved list is the non-matching filter: every match is removed, and the other records stay in order with repeats kept, so the list shrinks |
| Contacts.MatchCount | Contact_manager/contact_manager.py:210-212 | the filter finds something exactly when some record matches, so the list shrinks exactly when a match exists |
| Contacts.DeleteThenSearch | Contact_manager/contact_manager.py:207-214 | after a delete that saved, searching for the name finds nothing |
| Contacts.DeleteKeeps | Contact_manager/contact_manager.py:207-214 | deleting keeps names unique under case and every record stored stripped |
| Contacts.LoadRow | Contact_manager/contact_manager.py:64-66 | a row is kept exactly when some raw value is a non-empty string, and it keeps its columns |
| Contacts.LoadRowValues | Contact_manager/contact_manager.py:66 | every kept value is stripped, and a value already stripped is kept unchanged |
| Contacts.LoadRecords | Contact_manager/contact_manager.py:57-70 | loading yields at most one record per row the reader gives: rows are dropped or kept, never split |
| Contacts.LoadAppend | Contact_manager/contact_manager.py:64-66 | loading keeps the order of the rows it keeps |
| Contacts.SaveRow | Contact_manager/contact_manager.py:79-80 | a saved row has exactly the name, phone and email columns, with "" for any the record lacks |
| Contacts.SaveLoadRoundTrip | Contact_manager/contact_manager.py:73-80 | a saved list loads back as the same records, in the same order, whenever every field is stripped and each record has some non-empty field (this includes records with a blank name loaded from a hand-edited row) |
| Contacts.ColumnWidths | Contact_manager/contact_manager.py:117-125 | an empty list gives no table. Otherwise each width is the maximum of the header's length and the column's field lengths |
| Contacts.Widest | Contact_manager/contact_manager.py:123-125 | the width bounds the header and every field, and equals one of them |
| Contacts.ColumnsAlign | Contact_manager/contact_manager.py:128-131 | with these widths, the header line and every record line have the same length |

## Left out

- Console I/O is replaced by parameters: `input`/`print`, the menus (`main_menu`, the contact menu) and the retry loops (`input_positive_int`, `ask_yes_no`). Each handler takes the user's answers, and its outcome says which message the program would print and whether it saves.
- File system access is not modelled: file existence, reading, writing and `mkdir`. A missing roster file is `None`. Archive and log texts are values. Error logging (`log_error`) and the exception handlers that print a message are not modelled.
- `datetime.now()` and `date.today()` are not modelled. The run's date and its generated-at stamp are parameters. Parsing the typed date of the recording flow (`%Y-%m-%d`, falling back to today) is left out, because the date is given.
- The `csv` module's quoting is not modelled: a written row is read back field for field. A CSV row is a map from column name to value. `DictReader`'s extra-field key (`restkey`) is not modelled.
- Contacts.ContactOf requires the three columns. A CSV file with a foreign header would make the program raise `KeyError` and log it; that path is not modelled.
- Case mapping covers ASCII letters only (`lower`, `title`). Python's full Unicode case tables are not modelled.
- Digits are ASCII only. Python's `\d` and `strptime`'s `%H`, `%I` and `%M` also match other Unicode decimal digits (so `parse_time("٩:30")` gives "09:30 AM"). `Clock.ParseTime`, the header pattern of `ArchiveReader.NextHeader` and the `\d{2}:\d{2}` time test of `ArchiveReader.ClassifyLine` reject them.
- Text.ParseInt reads an optional minus sign and decimal digits. Python's `int()` also accepts a leading `+`, underscores between digits and non-ASCII digits; these are not modelled.
- Ordering.SortBy: the contract states a permutation ordered by the key, not stability. The report's and roster's uses sort names that are distinct and title-cased, where ties do not decide the result.
- Ordering.Dedup: the contract states each value kept exactly once, not that the first occurrences keep their order. Every use sorts the result afterwards.
- Report.BuildMaster: Python's `sorted` over a set keeps set iteration order for names equal under `lower()`. That order is unspecified, so the model breaks such ties by code-point order.
- The report is not rendered. ReportLab output (title, styles, colours, shading rows, column widths, the generated-at line) is left out; the model keeps each table's heading index, date, rows and page break.
- The query flow (`find_sections_by_date`, `query_by_date_flow`, the export file) is not part of this model.
- Roster options 3 (view), 5 (save and exit) and 6 (cancel) are not modelled separately. Viewing and cancelling change nothing, and saving is `Roster.SaveRoster`.
- The contact book's JSON export and import (`export_to_json`, `import_from_json`) are not part of this model. The table printing (tab separators, the rule line) is modelled only as far as `Contacts.ColumnsAlign` states.
- ArchiveSections.ArchiveRoundTrip (and SingleRunRoundTrip, BodyRead, ArchiveLines.ReadLinesRows, ArchiveLines.ClassifyRow, LogRoundTrip.ReadersAgree) excludes names that start with "Generated at", "Student Name" or "Total". The program writes such a name's row, but `read_from_archive` skips every line starting with those words (tracker.py line 328), so the item is lost in either layout (`ArchiveLines.ReservedNameDropped`). The round trip is promised only for the other names.
- The round-trip lemmas (`ArchiveSections.ArchiveRoundTrip`, `LogRoundTrip.LogRoundTrip`, `Contacts.SaveLoadRoundTrip`) hold for items the file format can carry. For the archive this means names of one field, title-cased, with no double space and no line break, and a time that looks like a clock reading. The archive lemmas also ask that names, times and stamps hold no '='. That is a simplification of the proof that sections are cut only at their headers, not a limit of the format: `re.split` cuts only at the whole header text, which no title-cased name can contain, so a name such as "A=B" reads back in the program but is not covered by these lemmas. `Recording.CanonicalArchivable` shows every time `parse_time` produces is such a time.

## Findings

| source | as written | input that shows it | evidently intended | confidence | as-written member | corrected member |
|---|---|---|---|---|---|---|
| attendance_tracker_Assignment_01_python/tracker.py:77 | a data row is `nm.ljust(28) + time`, so a name of 27 or more characters is followed by fewer than two spaces. `read_from_archive` splits on runs of two or more spaces (line 330), sees a single field and drops the line | a 27-letter name such as "Abcdefghijklmnopqrstuvwxyza" with time "09:15 AM" | every recorded item reads back from the archive | not executed | ArchiveLines.LongNameDropped | ArchiveSections.ArchiveRoundTrip |

The corrected row is the `Separated` layout of `Archive.Row`: the name padded to
26 characters, then two spaces, then the time. It is the same text as the
as-written row for names of up to 26 characters (`Archive.RowLayoutsAgree`).
`ArchiveLines.ClassifyRow` and `ArchiveSections.ArchiveRoundTrip` prove that
with this layout every archivable item reads back, whatever the length of its
name.

=== FILE: archive.dfy ===
/** The attendance archive: the text section `write_archive_section` appends for
    one recording run, the row log `append_csv_rows` writes, and the two readers
    (`read_from_archive`, `read_from_csv`) that rebuild a map from date to
    (name to check-in time) from them. */
module Archive {
  import opened Wrappers
  import opened Text
  import opened Ordering

  // ---------------------------------------------------------------------------
  // Dates
  // ---------------------------------------------------------------------------

  /** A `datetime.date`. */
  datatype Date = Date(year: nat, month: nat, day: nat)

  predicate IsLeapYear(y: nat) {
    y % 4 == 0 && (y % 100 != 0 || y % 400 == 0)
  }

  function DaysInMonth(y: nat, m: nat): (n: nat)
    requires 1 <= m <= 12
    ensures 28 <= n <= 31
  {
    if m == 2 then (if IsLeapYear(y) then 29 else 28)
    else if m == 4 || m == 6 || m == 9 || m == 11 then 30
    else 31
  }

  /** The dates Python's `date` type can hold. */
  predicate ValidDate(d: Date) {
    1 <= d.year <= 9999 && 1 <= d.month <= 12 && 1 <= d.day <= DaysInMonth(d.year, d.month)
  }

  /** `date.isoformat()`: "YYYY-MM-DD". */
  function Iso(d: Date): (s: string)
    requires ValidDate(d)
    ensures |s| == 10 && s[4] == '-' && s[7] == '-'
    ensures AllDigits(s[..4]) && AllDigits(s[5..7]) && AllDigits(s[8..])
    ensures DigitsValue(s[..4]) == d.year && DigitsValue(s[5..7]) == d.month
    ensures DigitsValue(s[8..]) == d.day
  {
    var s := Pad4(d.year) + "-" + Pad2(d.month) + "-" + Pad2(d.day);
    assert s[..4] == Pad4(d.year) && s[5..7] == Pad2(d.month) && s[8..] == Pad2(d.day);
    s
  }

  /** Different dates have different ISO texts, so sections for one day share a key. */
  lemma IsoInjective(d: Date, e: Date)
    requires ValidDate(d) && ValidDate(e)
    ensures Iso(d) == Iso(e) <==> d == e
  {
    if Iso(d) == Iso(e) {
      assert d.year == DigitsValue(Iso(e)[..4]);
      assert d.month == DigitsValue(Iso(e)[5..7]);
      assert d.day == DigitsValue(Iso(e)[8..]);
    }
  }

  // ---------------------------------------------------------------------------
  // One recording run
  // ---------------------------------------------------------------------------

  /** One `attendance[name] = check_in` item. */
  datatype Entry = Entry(name: string, time: string)

  /** A Python dict's items in insertion order: no key twice. */
  predicate DistinctNames(att: seq<Entry>) {
    forall i, j :: 0 <= i < j < |att| ==> att[i].name != att[j].name
  }

  function NamesOf(att: seq<Entry>): set<string> {
    set i | 0 <= i < |att| :: att[i].name
  }

  /** The time stored under `n`. */
  function TimeOf(att: seq<Entry>, n: string): (t: string)
    requires n in NamesOf(att)
    ensures exists i :: 0 <= i < |att| && att[i] == Entry(n, t)
    decreases |att|
  {
    if att[0].name == n then att[0].time
    else
      assert n in NamesOf(att[1..]) by {
        var i :| 0 <= i < |att| && att[i].name == n;
        assert att[1..][i - 1] == att[i];
      }
      var t := TimeOf(att[1..], n);
      ghost var i :| 0 <= i < |att[1..]| && att[1..][i] == Entry(n, t);
      assert att[i + 1] == Entry(n, t);
      t
  }

  /** The dict the items make up. */
  function AsMap(att: seq<Entry>): (m: map<string, string>)
    ensures m.Keys == NamesOf(att)
  {
    map n | n in NamesOf(att) :: TimeOf(att, n)
  }

  /** With distinct names every item is what the dict stores under its name. */
  lemma AsMapItems(att: seq<Entry>)
    requires DistinctNames(att)
    ensures forall i :: 0 <= i < |att| ==> AsMap(att)[att[i].name] == att[i].time
  {
    forall i | 0 <= i < |att|
      ensures AsMap(att)[att[i].name] == att[i].time
    {
      assert att[i].name in NamesOf(att);
      var t := TimeOf(att, att[i].name);
      var j :| 0 <= j < |att| && att[j] == Entry(att[i].name, t);
      assert i == j;
    }
  }

  /** Reordering the items of a dict does not change the dict. */
  lemma AsMapOfPermutation(a: seq<Entry>, b: seq<Entry>)
    requires DistinctNames(a) && multiset(a) == multiset(b)
    ensures DistinctNames(b)
    ensures AsMap(a) == AsMap(b)
  {
    PermutationDistinct(a, b);
    PermutationNames(a, b);
    AsMapItems(a);
    AsMapItems(b);
    forall n | n in NamesOf(a)
      ensures AsMap(a)[n] == AsMap(b)[n]
    {
      var i :| 0 <= i < |a| && a[i].name == n;
      assert a[i] in multiset(b);
      var j :| 0 <= j < |b| && b[j] == a[i];
    }
  }

  lemma PermutationNames(a: seq<Entry>, b: seq<Entry>)
    requires multiset(a) == multiset(b)
    ensures NamesOf(a) == NamesOf(b)
  {
    forall n
      ensures n in NamesOf(a) <==> n in NamesOf(b)
    {
      if n in NamesOf(a) {
        var i :| 0 <= i < |a| && a[i].name == n;
        assert a[i] in multiset(b);
      }
      if n in NamesOf(b) {
        var i :| 0 <= i < |b| && b[i].name == n;
        assert b[i] in multiset(a);
      }
    }
  }

  lemma PermutationDistinct(a: seq<Entry>, b: seq<Entry>)
    requires DistinctNames(a) && multiset(a) == multiset(b)
    ensures DistinctNames(b)
  {
    forall i, j | 0 <= i < j < |b|
      ensures b[i].name != b[j].name
    {
      PermutationPair(a, b, i, j);
    }
  }

  lemma PermutationPair(a: seq<Entry>, b: seq<Entry>, i: nat, j: nat)
    requires DistinctNames(a) && multiset(a) == multiset(b)
    requires i < j < |b|
    ensures b[i].name != b[j].name
  {
    assert b[i] in multiset(a) && b[j] in multiset(a);
    var i' :| 0 <= i' < |a| && a[i'] == b[i];
    var j' :| 0 <= j' < |a| && a[j'] == b[j];
    if b[i].name == b[j].name {
      assert i' == j';
      TwiceCounted(b, i, j);
      DistinctCount(a, i');
      assert false;
    }
  }

  lemma TwiceCounted(b: seq<Entry>, i: nat, j: nat)
    requires i < j < |b| && b[i] == b[j]
    ensures multiset(b)[b[i]] >= 2
  {
    assert b == b[..i] + [b[i]] + b[i + 1..j] + [b[j]] + b[j + 1..];
  }

  /** An item of a dict occurs once. */
  lemma DistinctCount(a: seq<Entry>, i: nat)
    requires DistinctNames(a) && i < |a|
    ensures multiset(a)[a[i]] == 1
    decreases |a|
  {
    var last := |a| - 1;
    var init := a[..last];
    assert a == init + [a[last]];
    assert DistinctNames(init);
    assert a[last] !in init;
    if i < last {
      assert init[i] == a[i];
      DistinctCount(init, i);
      assert a[i] != a[last] by {
        assert a[i].name != a[last].name;
      }
    } else {
      assert multiset(init)[a[last]] == 0;
    }
  }

  // ---------------------------------------------------------------------------
  // The section writer
  // ---------------------------------------------------------------------------

  const ColumnWidth: nat := 28
  const HeaderPrefix: string := "=== Attendance for: "
  const HeaderSuffix: string := " ==="

  /** How a data row separates the name from the time. `AsWritten` is
      `nm.ljust(28) + time`; `Separated` pads the name to 26 and always adds
      two spaces, so the two columns stay apart for names of any length. */
  datatype Layout = AsWritten | Separated

  function NameKey(e: Entry): string {
    Lower(e.name)
  }

  /** `sorted(attendance.keys(), key=str.lower)` with each key's time. */
  function ByName(att: seq<Entry>): (r: seq<Entry>)
    ensures SortedBy(r, NameKey)
    ensures multiset(r) == multiset(att)
    ensures |r| == |att|
  {
    var r := SortBy(att, NameKey);
    assert |r| == |multiset(r)|;
    r
  }

  function Header(d: Date): (h: string)
    requires ValidDate(d)
    ensures |h| == 34
  {
    HeaderPrefix + Iso(d) + HeaderSuffix
  }

  function Row(layout: Layout, e: Entry): string {
    match layout
    case AsWritten => LJust(e.name, ColumnWidth) + e.time
    case Separated => LJust(e.name, ColumnWidth - 2) + "  " + e.time
  }

  function RowLines(layout: Layout, es: seq<Entry>): (ls: seq<string>)
    ensures |ls| == |es|
    ensures forall i :: 0 <= i < |es| ==> ls[i] == Row(layout, es[i])
  {
    seq(|es|, i requires 0 <= i < |es| => Row(layout, es[i]))
  }

  function Rule(): string {
    Repeat('-', ColumnWidth + 16)
  }

  function TableHead(): string {
    LJust("Student Name", ColumnWidth) + "Check-in Time"
  }

  /** The lines before the rows, after the header. */
  function Preamble(stamp: string): seq<string> {
    ["Generated at: " + stamp, "", TableHead(), Rule()]
  }

  /** The lines after the rows. */
  function Footer(present: nat, total: int, absent: int): seq<string> {
    [ Rule()
    , "Total Students Present: " + IntToString(present)
    , "Total Students (Class Strength): " + IntToString(total)
    , "Total Absent: " + IntToString(absent)
    , "" ]
  }

  /** The line list of `write_archive_section`. */
  function SectionLines(layout: Layout, d: Date, stamp: string, att: seq<Entry>, total: int, absent: int)
    : (lines: seq<string>)
    requires ValidDate(d)
    ensures |lines| == |att| + 10
  {
    [Header(d)] + Preamble(stamp) + RowLines(layout, ByName(att)) + Footer(|att|, total, absent)
  }

  /** `"\n".join(lines) + "\n"`: what one run appends to the archive. */
  function SectionText(layout: Layout, d: Date, stamp: string, att: seq<Entry>, total: int, absent: int)
    : string
    requires ValidDate(d)
  {
    Join(SectionLines(layout, d, stamp, att, total, absent), "\n") + "\n"
  }

  /** What one run appends ends with a line break, so the next run starts on a
      line of its own, and it splits back into the section's lines when none
      holds a line break. */
  lemma SectionTextLines(layout: Layout, d: Date, stamp: string, att: seq<Entry>, total: int, absent: int)
    requires ValidDate(d)
    ensures var txt := SectionText(layout, d, stamp, att, total, absent);
      |txt| > 0 && txt[|txt| - 1] == '\n'
    ensures var lines := SectionLines(layout, d, stamp, att, total, absent);
      (forall i :: 0 <= i < |lines| ==> NoBreak(lines[i])) ==>
        Lines(SectionText(layout, d, stamp, att, total, absent)) == lines
  {
    var lines := SectionLines(layout, d, stamp, att, total, absent);
    if forall i :: 0 <= i < |lines| ==> NoBreak(lines[i]) {
      LinesOfJoin(lines);
    }
  }

  /** The section opens with its header, then one data line per item in
      case-insensitive name order, and its footer counts the items. */
  lemma SectionLayout(layout: Layout, d: Date, stamp: string, att: seq<Entry>, total: int, absent: int)
    requires ValidDate(d)
    ensures var lines := SectionLines(layout, d, stamp, att, total, absent);
      && |lines| == |att| + 10
      && lines[0] == HeaderPrefix + Iso(d) + HeaderSuffix
      && (exists order: seq<Entry> ::
            && multiset(order) == multiset(att) && SortedBy(order, NameKey)
            && lines[5..5 + |att|] == RowLines(layout, order))
      && lines[6 + |att|][..24] == "Total Students Present: "
      && ParseInt(lines[6 + |att|][24..]) == Some(|att|)
  {
    var lines := SectionLines(layout, d, stamp, att, total, absent);
    var order := ByName(att);
    var pre := [Header(d)] + Preamble(stamp);
    var rows := RowLines(layout, order);
    assert lines == pre + rows + Footer(|att|, total, absent);
    assert lines[5..5 + |att|] == rows;
    var present := "Total Students Present: " + IntToString(|att|);
    assert lines[6 + |att|] == present;
    assert present[24..] == IntToString(|att|);
    ParseIntOfIntToString(|att|);
  }

  /** A data line pads a short name to column 28 in both layouts. */
  lemma RowLayoutsAgree(e: Entry)
    requires |e.name| <= ColumnWidth - 2
    ensures Row(AsWritten, e) == Row(Separated, e)
    ensures Row(AsWritten, e) == e.name + Repeat(' ', ColumnWidth - |e.name|) + e.time
  {
    var pad := ColumnWidth - 2 - |e.name|;
    assert Repeat(' ', pad) + "  " == Repeat(' ', pad + 2);
  }
}

=== FILE: archive_lines.dfy ===
/** Reading a section line by line: which lines `read_from_archive` turns
    into items (the data lines of archivable items, and none of the header,
    table head, rules or footer), and how a run's data lines merge into the
    map under the section's date. */
module ArchiveLines {
  import opened Wrappers
  import opened Text
  import opened Ordering
  import opened Archive
  import opened ArchiveReader

  // ---------------------------------------------------------------------------
  // What survives the text format
  // ---------------------------------------------------------------------------

  predicate Lacks(s: string, c: char) {
    forall i :: 0 <= i < |s| ==> s[i] != c
  }

  /** A name the section format carries: one field with no double whitespace,
      already in title case, and not mistaken for the section's furniture once
      the column gap follows it. Leaving out '=' is a simplification: it keeps
      the proof that sections are cut only at their headers short. */
  predicate ArchivableName(n: string) {
    && |n| >= 1 && IsStripped(n) && Title(n) == n
    && NoRun(n) && NoBreak(n) && Lacks(n, '=')
    && !IsReserved(n + "  ")
  }

  /** A time the reader keeps: one field that looks like a clock reading. */
  predicate ArchivableTime(t: string) {
    && |t| >= 1 && IsStripped(t) && NoRun(t) && NoBreak(t) && Lacks(t, '=')
    && (HasClockDigits(t) || HasMeridiem(t))
  }

  predicate ArchivableStamp(s: string) {
    NoBreak(s) && Lacks(s, '=')
  }

  /** The as-written row pads to column 28, so it needs a name of at most 26
      characters to leave two spaces before the time. */
  predicate Archivable(layout: Layout, e: Entry) {
    && ArchivableName(e.name) && ArchivableTime(e.time)
    && (layout == AsWritten ==> |e.name| <= ColumnWidth - 2)
  }

  predicate AllArchivable(layout: Layout, es: seq<Entry>) {
    forall i :: 0 <= i < |es| ==> Archivable(layout, es[i])
  }

  // ---------------------------------------------------------------------------
  // Data lines
  // ---------------------------------------------------------------------------

  lemma RepeatAppend(c: char, a: nat, b: nat)
    ensures Repeat(c, a) + Repeat(c, b) == Repeat(c, a + b)
  {
  }

  /** A data line is the name, a gap of at least two spaces, and the time. */
  lemma RowShape(layout: Layout, e: Entry) returns (gap: nat)
    requires layout == AsWritten ==> |e.name| <= ColumnWidth - 2
    ensures gap >= 2
    ensures Row(layout, e) == e.name + Repeat(' ', gap) + e.time
  {
    if layout == AsWritten {
      RowLayoutsAgree(e);
      gap := ColumnWidth - |e.name|;
    } else {
      var pad := if |e.name| >= ColumnWidth - 2 then 0 else ColumnWidth - 2 - |e.name|;
      assert LJust(e.name, ColumnWidth - 2) == e.name + Repeat(' ', pad);
      RepeatAppend(' ', pad, 2);
      assert Repeat(' ', 2) == "  ";
      gap := pad + 2;
    }
  }

  /** A prefix with no double whitespace that a name, a gap and a time start
      with is already a prefix of the name and two spaces. */
  lemma PrefixThroughGap(p: string, n: string, gap: nat, t: string)
    requires gap >= 2 && NoRun(p)
    requires p <= n + Repeat(' ', gap) + t
    ensures p <= n + "  "
  {
    var s := n + Repeat(' ', gap) + t;
    var u := n + "  ";
    assert s[..|n| + 2] == u;
    RunBlocksPrefix(p, s, |n|);
    assert p == s[..|p|] == u[..|p|];
  }

  /** A prefix reaching over two adjacent whitespace characters has a run. */
  lemma RunBlocksPrefix(p: string, s: string, k: nat)
    requires k + 1 < |s| && IsSpace(s[k]) && IsSpace(s[k + 1]) && p <= s
    ensures k + 1 < |p| ==> !NoRun(p)
  {
    if k + 1 < |p| {
      assert p[k] == s[k] && p[k + 1] == s[k + 1];
    }
  }

  lemma FurnitureWordsHaveNoRun()
    ensures NoRun("Generated at") && NoRun("Student Name") && NoRun("Total")
  {
  }

  /** The furniture prefixes have no double space, so a name followed by the
      gap starts like one only if the name and two spaces already do. */
  lemma ReservedThroughGap(n: string, gap: nat, t: string)
    requires gap >= 2
    ensures IsReserved(n + Repeat(' ', gap) + t) ==> IsReserved(n + "  ")
  {
    var s := n + Repeat(' ', gap) + t;
    FurnitureWordsHaveNoRun();
    if "Generated at" <= s {
      PrefixThroughGap("Generated at", n, gap, t);
    }
    if "Student Name" <= s {
      PrefixThroughGap("Student Name", n, gap, t);
    }
    if "Total" <= s {
      PrefixThroughGap("Total", n, gap, t);
    }
  }

  /** A name, a gap of two or more spaces and a time form a line `strip`
      leaves alone and the reader does not take for furniture. */
  lemma FieldsLine(n: string, gap: nat, t: string)
    requires ArchivableName(n) && ArchivableTime(t) && gap >= 2
    ensures var line := n + Repeat(' ', gap) + t;
      Strip(line) == line && line != "" && !IsRuleLine(line) && !IsReserved(line)
  {
    var line := n + Repeat(' ', gap) + t;
    assert line[0] == n[0] && line[|line| - 1] == t[|t| - 1];
    StripOfStripped(line);
    assert line[|n|] == ' ';
    ReservedThroughGap(n, gap, t);
  }

  /** Such a line splits into the name and the time, which the reader keeps. */
  lemma ClassifyFields(n: string, gap: nat, t: string)
    requires ArchivableName(n) && ArchivableTime(t) && gap >= 2
    ensures ClassifyLine(n + Repeat(' ', gap) + t) == Some(Entry(n, t))
  {
    var line := n + Repeat(' ', gap) + t;
    FieldsLine(n, gap, t);
    SplitRunsTwoFields(n, gap, t);
    assert ClassifyLine(line) == ClassifyParts([n, t]);
    ClassifyPair(n, t);
  }

  lemma ClassifyPair(n: string, t: string)
    requires ArchivableName(n) && ArchivableTime(t)
    ensures ClassifyParts([n, t]) == Some(Entry(n, t))
  {
    StripOfStripped(n);
    StripOfStripped(t);
  }

  /** An archivable item's data line reads back as that item. */
  lemma ClassifyRow(layout: Layout, e: Entry)
    requires Archivable(layout, e)
    ensures ClassifyLine(Row(layout, e)) == Some(e)
  {
    var gap := RowShape(layout, e);
    ClassifyFields(e.name, gap, e.time);
  }

  /** With the as-written padding a name of 27 or more characters leaves at
      most one space before the time, so the line is one field and the
      reader drops the item. */
  lemma LongNameDropped(e: Entry)
    requires ArchivableName(e.name) && ArchivableTime(e.time)
    requires |e.name| >= ColumnWidth - 1
    ensures ClassifyLine(Row(AsWritten, e)) == None
  {
    var line := Row(AsWritten, e);
    var sep := if |e.name| == ColumnWidth - 1 then " " else "";
    assert line == e.name + sep + e.time;
    NoRunAcross(e.name, sep, e.time);
    assert line[0] == e.name[0] && line[|line| - 1] == e.time[|e.time| - 1];
    StripOfStripped(line);
    SplitRunsNoRun(line);
  }

  /** Two fields without runs, joined by at most one space, have no run. */
  lemma NoRunAcross(a: string, sep: string, b: string)
    requires |a| > 0 && |b| > 0 && IsStripped(a) && IsStripped(b) && NoRun(a) && NoRun(b)
    requires sep == "" || sep == " "
    ensures NoRun(a + sep + b)
  {
    var s := a + sep + b;
    forall i | 0 <= i < |s| - 1
      ensures !(IsSpace(s[i]) && IsSpace(s[i + 1]))
    {
      if i + 1 < |a| {
        assert s[i] == a[i] && s[i + 1] == a[i + 1];
      } else if i + 1 == |a| {
        assert s[i] == a[|a| - 1];
      } else if i >= |a| + |sep| {
        assert s[i] == b[i - |a| - |sep|] && s[i + 1] == b[i + 1 - |a| - |sep|];
      } else {
        assert s[i + 1] == b[0];
      }
    }
  }

  // ---------------------------------------------------------------------------
  // The section's furniture
  // ---------------------------------------------------------------------------

  /** A line that starts with one of the furniture words holds no item,
      whatever follows the word. */
  lemma ClassifyPrefixed(p: string, line: string)
    requires p == "Generated at" || p == "Student Name" || p == "Total"
    requires p <= line
    ensures ClassifyLine(line) == None
  {
    StripKeepsPrefix(p, line);
  }

  /** The reader skips every stripped line that starts with "Generated at",
      "Student Name" or "Total", so the data line of a student whose name
      starts that way (such as "Totalova") is dropped, in either layout. */
  lemma ReservedNameDropped(layout: Layout, e: Entry, p: string)
    requires p == "Generated at" || p == "Student Name" || p == "Total"
    requires p <= e.name
    ensures ClassifyLine(Row(layout, e)) == None
  {
    var padded := LJust(e.name, if layout == AsWritten then ColumnWidth else ColumnWidth - 2);
    assert e.name <= padded;
    assert p <= Row(layout, e) by {
      assert Row(layout, e)[..|padded|] == padded;
    }
    ClassifyPrefixed(p, Row(layout, e));
  }

  lemma ClassifyBlank()
    ensures ClassifyLine("") == None
  {
    assert Strip("") == "";
  }

  lemma ClassifyRule()
    ensures ClassifyLine(Rule()) == None
  {
    StripOfStripped(Rule());
    assert IsRuleLine(Rule());
  }

  lemma ClassifyStamp(stamp: string)
    ensures ClassifyLine("Generated at: " + stamp) == None
  {
    ClassifyPrefixed("Generated at", "Generated at: " + stamp);
  }

  lemma ClassifyTableHead()
    ensures ClassifyLine(TableHead()) == None
  {
    ClassifyPrefixed("Student Name", TableHead());
  }

  lemma ClassifyTotal(caption: string, n: int)
    requires "Total" <= caption
    ensures ClassifyLine(caption + IntToString(n)) == None
  {
    ClassifyPrefixed("Total", caption + IntToString(n));
  }

  // ---------------------------------------------------------------------------
  // Folding lines
  // ---------------------------------------------------------------------------

  /** The reference the readers are held to: a run's items land under its
      date, over whatever that date already held; a run with no items leaves
      no trace (the defaultdict entry is only made by a store). */
  function Merge(acc: PerDate, d: string, att: seq<Entry>): PerDate {
    if |att| == 0 then acc else acc[d := Day(acc, d) + AsMap(att)]
  }

  /** Merging touches no other date. */
  lemma MergeFrame(acc: PerDate, d: string, att: seq<Entry>)
    ensures Merge(acc, d, att) - {d} == acc - {d}
  {
  }

  /** Under its date a merge holds the old names and the run's names; each
      of the run's items wins, every other name keeps its old time. A run
      with no items changes nothing. */
  lemma MergeStores(acc: PerDate, d: string, att: seq<Entry>)
    requires DistinctNames(att)
    ensures |att| == 0 ==> Merge(acc, d, att) == acc
    ensures |att| > 0 ==> (
      && d in Merge(acc, d, att)
      && Merge(acc, d, att)[d].Keys == Day(acc, d).Keys + NamesOf(att)
      && (forall i :: 0 <= i < |att| ==> Merge(acc, d, att)[d][att[i].name] == att[i].time)
      && (forall n :: n in Day(acc, d) && n !in NamesOf(att) ==> Merge(acc, d, att)[d][n] == Day(acc, d)[n]))
  {
    AsMapItems(att);
  }

  lemma {:induction false} ReadLinesAppend(acc: PerDate, d: string, a: seq<string>, b: seq<string>)
    ensures ReadLines(acc, d, a + b) == ReadLines(ReadLines(acc, d, a), d, b)
    decreases |a|
  {
    if |a| > 0 {
      assert (a + b)[0] == a[0] && (a + b)[1..] == a[1..] + b;
      ReadLinesAppend(Store(acc, d, ClassifyLine(a[0])), d, a[1..], b);
    } else {
      assert a + b == b;
    }
  }

  lemma ReadLinesSkipFirst(acc: PerDate, d: string, ls: seq<string>)
    requires |ls| > 0 && ClassifyLine(ls[0]) == None
    ensures ReadLines(acc, d, ls) == ReadLines(acc, d, ls[1..])
  {
  }

  /** Four lines none of which holds an item leave the map as it was. */
  lemma ReadLinesSkip4(acc: PerDate, d: string, ls: seq<string>)
    requires |ls| == 4
    requires ClassifyLine(ls[0]) == None && ClassifyLine(ls[1]) == None
    requires ClassifyLine(ls[2]) == None && ClassifyLine(ls[3]) == None
    ensures ReadLines(acc, d, ls) == acc
  {
    ReadLinesSkipFirst(acc, d, ls);
    ReadLinesSkipFirst(acc, d, ls[1..]);
    ReadLinesSkipFirst(acc, d, ls[2..]);
    ReadLinesSkipFirst(acc, d, ls[3..]);
  }

  /** Likewise five lines. */
  lemma ReadLinesSkip5(acc: PerDate, d: string, ls: seq<string>)
    requires |ls| == 5
    requires ClassifyLine(ls[0]) == None && ClassifyLine(ls[1]) == None
    requires ClassifyLine(ls[2]) == None && ClassifyLine(ls[3]) == None && ClassifyLine(ls[4]) == None
    ensures ReadLines(acc, d, ls) == acc
  {
    ReadLinesSkipFirst(acc, d, ls);
    ReadLinesSkip4(acc, d, ls[1..]);
  }

  /** No line between the header and the data lines holds an item. */
  lemma PreambleRead(acc: PerDate, d: string, stamp: string)
    ensures ReadLines(acc, d, Preamble(stamp)) == acc
  {
    ClassifyStamp(stamp);
    ClassifyBlank();
    ClassifyTableHead();
    ClassifyRule();
    ReadLinesSkip4(acc, d, Preamble(stamp));
  }

  /** No line after the data lines holds an item. */
  lemma FooterRead(acc: PerDate, d: string, present: nat, total: int, absent: int)
    ensures ReadLines(acc, d, Footer(present, total, absent)) == acc
  {
    FooterRuleSkipped(present, total, absent);
    FooterPresentSkipped(present, total, absent);
    FooterStrengthSkipped(present, total, absent);
    FooterAbsentSkipped(present, total, absent);
    FooterBlankSkipped(present, total, absent);
    ReadLinesSkip5(acc, d, Footer(present, total, absent));
  }

  // One lemma per footer line keeps each classification on its own.

  lemma FooterRuleSkipped(present: nat, total: int, absent: int)
    ensures ClassifyLine(Footer(present, total, absent)[0]) == None
  {
    ClassifyRule();
  }

  lemma FooterPresentSkipped(present: nat, total: int, absent: int)
    ensures ClassifyLine(Footer(present, total, absent)[1]) == None
  {
    ClassifyTotal("Total Students Present: ", present);
  }

  lemma FooterStrengthSkipped(present: nat, total: int, absent: int)
    ensures ClassifyLine(Footer(present, total, absent)[2]) == None
  {
    ClassifyTotal("Total Students (Class Strength): ", total);
  }

  lemma FooterAbsentSkipped(present: nat, total: int, absent: int)
    ensures ClassifyLine(Footer(present, total, absent)[3]) == None
  {
    ClassifyTotal("Total Absent: ", absent);
  }

  lemma FooterBlankSkipped(present: nat, total: int, absent: int)
    ensures ClassifyLine(Footer(present, total, absent)[4]) == None
  {
    ClassifyBlank();
  }

  lemma MapUpdateUnion(m: map<string, string>, k: string, v: string, a: map<string, string>)
    requires k !in a
    ensures m[k := v] + a == m + a[k := v]
  {
  }

  lemma NamesOfCons(es: seq<Entry>)
    requires |es| > 0
    ensures NamesOf(es) == NamesOf(es[1..]) + {es[0].name}
  {
    var rest := es[1..];
    forall n | n in NamesOf(es)
      ensures n in NamesOf(rest) + {es[0].name}
    {
      var i :| 0 <= i < |es| && es[i].name == n;
      if i > 0 {
        assert rest[i - 1] == es[i];
      }
    }
    forall n | n in NamesOf(rest)
      ensures n in NamesOf(es)
    {
      var i :| 0 <= i < |rest| && rest[i].name == n;
      assert es[i + 1] == rest[i];
    }
  }

  lemma HeadNameFresh(es: seq<Entry>)
    requires DistinctNames(es) && |es| > 0
    ensures es[0].name !in NamesOf(es[1..])
    ensures DistinctNames(es[1..])
  {
    var rest := es[1..];
    forall i | 0 <= i < |rest|
      ensures rest[i].name != es[0].name
    {
      assert es[i + 1] == rest[i];
    }
  }

  /** Peeling the first item off a dict's items. */
  lemma AsMapCons(es: seq<Entry>)
    requires DistinctNames(es) && |es| > 0
    ensures es[0].name !in AsMap(es[1..])
    ensures AsMap(es) == AsMap(es[1..])[es[0].name := es[0].time]
  {
    var whole := AsMap(es);
    var tail := AsMap(es[1..])[es[0].name := es[0].time];
    HeadNameFresh(es);
    NamesOfCons(es);
    assert whole.Keys == tail.Keys;
    forall n | n in whole
      ensures whole[n] == tail[n]
    {
      AsMapConsAt(es, n);
    }
  }

  lemma AsMapConsAt(es: seq<Entry>, n: string)
    requires DistinctNames(es) && |es| > 0
    requires n in NamesOf(es)
    ensures n == es[0].name ==> AsMap(es)[n] == es[0].time
    ensures n != es[0].name ==> n in NamesOf(es[1..]) && AsMap(es)[n] == AsMap(es[1..])[n]
  {
    var rest := es[1..];
    AsMapItems(es);
    HeadNameFresh(es);
    if n != es[0].name {
      var i :| 0 <= i < |es| && es[i].name == n;
      assert rest[i - 1] == es[i];
      AsMapItems(rest);
    }
  }

  /** Storing the first item and merging the rest is merging all of them. */
  lemma MergeCons(acc: PerDate, d: string, es: seq<Entry>)
    requires DistinctNames(es) && |es| > 0
    ensures Merge(Put(acc, d, es[0].name, es[0].time), d, es[1..]) == Merge(acc, d, es)
  {
    var rest := es[1..];
    AsMapCons(es);
    if |rest| == 0 {
      assert AsMap(rest) == map[];
      assert AsMap(es) == map[es[0].name := es[0].time];
      assert Day(acc, d) + AsMap(es) == Day(acc, d)[es[0].name := es[0].time];
    } else {
      MapUpdateUnion(Day(acc, d), es[0].name, es[0].time, AsMap(rest));
    }
  }

  lemma ReadLinesStep(acc: PerDate, d: string, ls: seq<string>, e: Entry)
    requires |ls| > 0 && ClassifyLine(ls[0]) == Some(e)
    ensures ReadLines(acc, d, ls) == ReadLines(Put(acc, d, e.name, e.time), d, ls[1..])
  {
  }

  lemma AllArchivableTail(layout: Layout, es: seq<Entry>)
    requires AllArchivable(layout, es) && |es| > 0
    ensures AllArchivable(layout, es[1..])
  {
    var rest := es[1..];
    forall i | 0 <= i < |rest|
      ensures Archivable(layout, rest[i])
    {
      assert rest[i] == es[i + 1];
    }
  }

  lemma RowLinesCons(layout: Layout, es: seq<Entry>)
    requires |es| > 0
    ensures RowLines(layout, es)[0] == Row(layout, es[0])
    ensures RowLines(layout, es)[1..] == RowLines(layout, es[1..])
  {
  }

  /** The data lines of archivable items store exactly those items under the date. */
  lemma {:induction false} ReadLinesRows(acc: PerDate, d: string, layout: Layout, es: seq<Entry>)
    requires AllArchivable(layout, es) && DistinctNames(es)
    ensures ReadLines(acc, d, RowLines(layout, es)) == Merge(acc, d, es)
    decreases |es|
  {
    if |es| > 0 {
      var ls := RowLines(layout, es);
      var rest := es[1..];
      RowLinesCons(layout, es);
      ClassifyRow(layout, es[0]);
      var next := Put(acc, d, es[0].name, es[0].time);
      ReadLinesStep(acc, d, ls, es[0]);
      HeadNameFresh(es);
      AllArchivableTail(layout, es);
      ReadLinesRows(next, d, layout, rest);
      MergeCons(acc, d, es);
    }
  }
}

=== FILE: archive_reader.dfy ===
/** The two readers the PDF report draws on: `read_from_archive` scans the
    archive text section by section and line by line, `read_from_csv` folds the
    logged rows. Both build a map from date text to (name to time) in which a
    later item for the same date and name replaces an earlier one. */
module ArchiveReader {
  import opened Wrappers
  import opened Text
  import opened Archive

  /** `defaultdict(dict)` once read: date text to (name to time). */
  type PerDate = map<string, map<string, string>>

  /** `per_date[d]` as the defaultdict would create it. */
  function Day(acc: PerDate, d: string): map<string, string> {
    if d in acc then acc[d] else map[]
  }

  /** `per_date[d][n] = t`. */
  function Put(acc: PerDate, d: string, n: string, t: string): (r: PerDate)
    ensures r.Keys == acc.Keys + {d}
    ensures r[d] == Day(acc, d)[n := t]
    ensures forall k :: k in acc && k != d ==> r[k] == acc[k]
  {
    acc[d := Day(acc, d)[n := t]]
  }

  // ---------------------------------------------------------------------------
  // Finding the section headers
  // ---------------------------------------------------------------------------

  const HeaderLength: nat := 34

  /** The text `=== Attendance for: (\d{4}-\d{2}-\d{2}) ===` matches. */
  predicate IsHeader(h: string) {
    && |h| == HeaderLength
    && h[..20] == HeaderPrefix
    && AllDigits(h[20..24]) && h[24] == '-' && AllDigits(h[25..27]) && h[27] == '-'
    && AllDigits(h[28..30])
    && h[30..] == HeaderSuffix
  }

  predicate HeaderAt(s: string, k: nat) {
    k + HeaderLength <= |s| && IsHeader(s[k..k + HeaderLength])
  }

  /** Where the regex engine, scanning from `from`, finds the next header
      (the length of `s` when there is none). */
  function NextHeader(s: string, from: nat): (k: nat)
    requires from <= |s|
    ensures from <= k <= |s|
    ensures k < |s| ==> HeaderAt(s, k)
    ensures forall j :: from <= j < k ==> !HeaderAt(s, j)
    decreases |s| - from
  {
    if from + HeaderLength > |s| then |s|
    else if HeaderAt(s, from) then from
    else NextHeader(s, from + 1)
  }

  /** The pieces `re.split` returns after the first: a captured date and the
      text up to the next header. */
  datatype Chunk = Chunk(date: string, body: string)

  /** The chunks of a text that starts with a header (or is empty). */
  function ChunksFrom(rest: string): (cs: seq<Chunk>)
    decreases |rest|
  {
    if |rest| < HeaderLength then []
    else
      var k := NextHeader(rest, HeaderLength);
      [Chunk(Strip(rest[20..30]), rest[HeaderLength..k])] + ChunksFrom(rest[k..])
  }

  /** `re.split(HEADER, txt)` less its first piece, as (date, text) pairs. */
  function Chunks(txt: string): seq<Chunk> {
    ChunksFrom(txt[NextHeader(txt, 0)..])
  }

  // ---------------------------------------------------------------------------
  // Classifying one line
  // ---------------------------------------------------------------------------

  /** `set(s) == set("-")`. */
  predicate IsRuleLine(s: string) {
    |s| > 0 && forall i :: 0 <= i < |s| ==> s[i] == '-'
  }

  /** Lines that start like the section's own furniture. */
  predicate IsReserved(s: string) {
    "Generated at" <= s || "Student Name" <= s || "Total" <= s
  }

  /** `re.search(r"\d{2}:\d{2}", t)`: some position starts two digits, a
      colon and two digits. */
  predicate HasClockDigits(t: string)
    decreases |t|
  {
    |t| >= 5 && ((IsDigit(t[0]) && IsDigit(t[1]) && t[2] == ':' && IsDigit(t[3]) && IsDigit(t[4]))
                 || HasClockDigits(t[1..]))
  }

  /** `re.search(r"AM|PM", t, re.IGNORECASE)`. */
  predicate HasMeridiem(t: string)
    decreases |t|
  {
    |t| >= 2 && (((LowerChar(t[0]) == 'a' || LowerChar(t[0]) == 'p') && LowerChar(t[1]) == 'm')
                 || HasMeridiem(t[1..]))
  }

  predicate LooksLikeTime(t: string) {
    HasClockDigits(t) || HasMeridiem(t) || t == ""
  }

  /** The item a data line of a section holds, if it is one. */
  function ClassifyLine(line: string): (r: Option<Entry>)
    ensures r.Some? ==> && r.value.name != "" && Title(r.value.name) == r.value.name
                        && IsStripped(r.value.time) && LooksLikeTime(r.value.time)
  {
    ClassifyText(Strip(line))
  }

  /** Blank lines, rules and lines that start like the furniture. */
  predicate IsFurniture(s: string) {
    s == "" || IsRuleLine(s) || IsReserved(s)
  }

  function ClassifyText(s: string): (r: Option<Entry>)
    ensures r.Some? ==> && r.value.name != "" && Title(r.value.name) == r.value.name
                        && IsStripped(r.value.time) && LooksLikeTime(r.value.time)
  {
    if IsFurniture(s) then None else ClassifyParts(SplitRuns(s))
  }

  /** The first field, title-cased, as the name and the last as the time. */
  function ClassifyParts(parts: seq<string>): (r: Option<Entry>)
    ensures r.Some? ==> && r.value.name != "" && Title(r.value.name) == r.value.name
                        && IsStripped(r.value.time) && LooksLikeTime(r.value.time)
  {
    if |parts| < 2 then None
    else
      var name := Title(Strip(parts[0]));
      var time := Strip(parts[|parts| - 1]);
      TitleIdempotent(Strip(parts[0]));
      if LooksLikeTime(time) && name != "" then Some(Entry(name, time)) else None
  }

  // ---------------------------------------------------------------------------
  // read_from_archive
  // ---------------------------------------------------------------------------

  function ReadLines(acc: PerDate, d: string, lines: seq<string>): (r: PerDate)
    ensures acc.Keys <= r.Keys
    decreases |lines|
  {
    if |lines| == 0 then acc
    else ReadLines(Store(acc, d, ClassifyLine(lines[0])), d, lines[1..])
  }

  /** What one line adds: its item, if it holds one, under the section's date. */
  function Store(acc: PerDate, d: string, o: Option<Entry>): PerDate {
    match o
    case None => acc
    case Some(e) => Put(acc, d, e.name, e.time)
  }

  function ReadChunks(acc: PerDate, cs: seq<Chunk>): (r: PerDate)
    ensures acc.Keys <= r.Keys
    decreases |cs|
  {
    if |cs| == 0 then acc
    else ReadChunks(ReadLines(acc, cs[0].date, Lines(cs[0].body)), cs[1..])
  }

  /** `read_from_archive` on the archive's text. A date appears only once an
      item has been stored under it, as with the defaultdict. */
  function ReadArchive(txt: string): (r: PerDate)
    ensures NoEmptyDate(r)
  {
    ReadChunksNoEmpty(map[], Chunks(txt));
    ReadChunks(map[], Chunks(txt))
  }

  /** Every date present holds at least one name. */
  predicate NoEmptyDate(m: PerDate) {
    forall d :: d in m ==> m[d] != map[]
  }

  lemma PutNoEmpty(acc: PerDate, d: string, n: string, t: string)
    requires NoEmptyDate(acc)
    ensures NoEmptyDate(Put(acc, d, n, t))
  {
    assert n in Put(acc, d, n, t)[d];
  }

  lemma {:induction false} ReadLinesNoEmpty(acc: PerDate, d: string, lines: seq<string>)
    requires NoEmptyDate(acc)
    ensures NoEmptyDate(ReadLines(acc, d, lines))
    decreases |lines|
  {
    if |lines| > 0 {
      var o := ClassifyLine(lines[0]);
      if o.Some? {
        PutNoEmpty(acc, d, o.value.name, o.value.time);
      }
      ReadLinesNoEmpty(Store(acc, d, o), d, lines[1..]);
    }
  }

  lemma {:induction false} ReadChunksNoEmpty(acc: PerDate, cs: seq<Chunk>)
    requires NoEmptyDate(acc)
    ensures NoEmptyDate(ReadChunks(acc, cs))
    decreases |cs|
  {
    if |cs| > 0 {
      ReadLinesNoEmpty(acc, cs[0].date, Lines(cs[0].body));
      ReadChunksNoEmpty(ReadLines(acc, cs[0].date, Lines(cs[0].body)), cs[1..]);
    }
  }

  // ---------------------------------------------------------------------------
  // read_from_csv
  // ---------------------------------------------------------------------------

  /** One `csv.DictReader` row; a missing column is an absent key. */
  type CsvRow = map<string, string>

  /** `r.get(key) or ""`. */
  function Field(r: CsvRow, key: string): string {
    if key in r then r[key] else ""
  }

  /** One row of `read_from_csv`: rows without a date or a name are skipped. */
  function ReadRow(acc: PerDate, r: CsvRow): PerDate {
    Keep(acc, Strip(Field(r, "date")), Title(Strip(Field(r, "student_name"))),
         Strip(Field(r, "check_in_time")))
  }

  /** A row missing the date or the name changes nothing; otherwise its
      stripped time is stored under the stripped date and the title-cased
      name, the date's other names keep their time, and no other date
      changes. */
  lemma ReadRowStores(acc: PerDate, r: CsvRow)
    ensures var m := ReadRow(acc, r);
      var dt := Strip(Field(r, "date"));
      var name := Title(Strip(Field(r, "student_name")));
      && (dt == "" || name == "" ==> m == acc)
      && (dt != "" && name != "" ==>
            && m.Keys == acc.Keys + {dt}
            && name in m[dt] && m[dt][name] == Strip(Field(r, "check_in_time"))
            && (forall n :: n in Day(acc, dt) && n != name ==> n in m[dt] && m[dt][n] == Day(acc, dt)[n]))
      && (forall k :: k in acc && k != dt ==> m[k] == acc[k])
  {
    var dt := Strip(Field(r, "date"));
    var name := Title(Strip(Field(r, "student_name")));
    KeepStores(acc, dt, name, Strip(Field(r, "check_in_time")));
  }

  lemma KeepStores(acc: PerDate, dt: string, name: string, time: string)
    ensures var m := Keep(acc, dt, name, time);
      && (dt == "" || name == "" ==> m == acc)
      && (dt != "" && name != "" ==>
            && m.Keys == acc.Keys + {dt}
            && name in m[dt] && m[dt][name] == time
            && (forall n :: n in Day(acc, dt) && n != name ==> n in m[dt] && m[dt][n] == Day(acc, dt)[n]))
      && (forall k :: k in acc && k != dt ==> m[k] == acc[k])
  {
  }

  function Keep(acc: PerDate, dt: string, name: string, time: string): PerDate {
    if dt == "" || name == "" then acc else Put(acc, dt, name, time)
  }

  function ReadRows(acc: PerDate, rows: seq<CsvRow>): PerDate
    decreases |rows|
  {
    if |rows| == 0 then acc else ReadRows(ReadRow(acc, rows[0]), rows[1..])
  }

  /** `read_from_csv` on the rows of the log. A date appears only once a row
      with a name has been stored under it. */
  function ReadCsv(rows: seq<CsvRow>): (r: PerDate)
    ensures NoEmptyDate(r)
  {
    ReadRowsNoEmpty(map[], rows);
    ReadRows(map[], rows)
  }

  lemma {:induction false} ReadRowsNoEmpty(acc: PerDate, rows: seq<CsvRow>)
    requires NoEmptyDate(acc)
    ensures NoEmptyDate(ReadRows(acc, rows))
    decreases |rows|
  {
    if |rows| > 0 {
      var r := rows[0];
      var dt := Strip(Field(r, "date"));
      var name := Title(Strip(Field(r, "student_name")));
      if dt != "" && name != "" {
        PutNoEmpty(acc, dt, name, Strip(Field(r, "check_in_time")));
      }
      ReadRowsNoEmpty(ReadRow(acc, r), rows[1..]);
    }
  }

  /** The row `append_csv_rows` writes for one item, as `DictReader` reads it
      back under the header row. */
  function LogRow(d: Date, stamp: string, e: Entry): CsvRow
    requires ValidDate(d)
  {
    map["generated_at" := stamp, "date" := Iso(d), "student_name" := e.name,
        "check_in_time" := e.time]
  }

  function LoggedRows(d: Date, stamp: string, es: seq<Entry>): (rows: seq<CsvRow>)
    requires ValidDate(d)
    ensures |rows| == |es|
  {
    seq(|es|, i requires 0 <= i < |es| => LogRow(d, stamp, es[i]))
  }

  /** The rows `append_csv_rows` writes for one run, in name order. */
  function LogRows(d: Date, stamp: string, att: seq<Entry>): (rows: seq<CsvRow>)
    requires ValidDate(d)
    ensures |rows| == |att|
    ensures forall i :: 0 <= i < |rows| ==>
      && rows[i].Keys == {"generated_at", "date", "student_name", "check_in_time"}
      && rows[i]["generated_at"] == stamp && rows[i]["date"] == Iso(d)
      && rows[i]["student_name"] == ByName(att)[i].name
      && rows[i]["check_in_time"] == ByName(att)[i].time
  {
    LoggedRows(d, stamp, ByName(att))
  }
}

=== FILE: archive_sections.dfy ===
/** Whole sections and whole archives: the text `write_archive_section`
    appends, run after run, is cut back into sections at the headers and each
    section's lines give back that run's items; the logged CSV rows give back
    the same map. */
module ArchiveSections {
  import opened Text
  import opened Archive
  import opened ArchiveReader
  import opened ArchiveLines

  // ---------------------------------------------------------------------------
  // Characters that cannot end a line or start a header
  // ---------------------------------------------------------------------------

  /** No line boundary and no '=' inside `s`. */
  predicate Plain(s: string) {
    NoBreak(s) && Lacks(s, '=')
  }

  predicate AllPlain(ls: seq<string>) {
    forall i :: 0 <= i < |ls| ==> Plain(ls[i])
  }

  lemma PlainAppend(a: string, b: string)
    requires Plain(a) && Plain(b)
    ensures Plain(a + b)
  {
    forall i | 0 <= i < |a + b|
      ensures !IsLineBreak((a + b)[i]) && (a + b)[i] != '='
    {
      if i < |a| {
        assert (a + b)[i] == a[i];
      } else {
        assert (a + b)[i] == b[i - |a|];
      }
    }
  }

  lemma AllPlainAppend(a: seq<string>, b: seq<string>)
    requires AllPlain(a) && AllPlain(b)
    ensures AllPlain(a + b)
  {
    forall i | 0 <= i < |a + b|
      ensures Plain((a + b)[i])
    {
      if i < |a| {
        assert (a + b)[i] == a[i];
      } else {
        assert (a + b)[i] == b[i - |a|];
      }
    }
  }

  lemma RepeatPlain(c: char, n: nat)
    requires !IsLineBreak(c) && c != '='
    ensures Plain(Repeat(c, n))
  {
  }

  lemma IntToStringPlain(n: int)
    ensures Plain(IntToString(n))
  {
    var s := IntToString(n);
    if n < 0 {
      var digits := NatToString(-n);
      assert s == "-" + digits;
      forall i | 0 <= i < |s|
        ensures !IsLineBreak(s[i]) && s[i] != '='
      {
        if i > 0 {
          assert s[i] == digits[i - 1];
        }
      }
    }
  }

  /** The line `caption + str(n)` of a literal caption. */
  lemma CaptionPlain(caption: string, n: int)
    requires Plain(caption)
    ensures Plain(caption + IntToString(n))
  {
    IntToStringPlain(n);
    PlainAppend(caption, IntToString(n));
  }

  lemma RowPlain(layout: Layout, e: Entry)
    requires Archivable(layout, e)
    ensures Plain(Row(layout, e))
  {
    var gap := RowShape(layout, e);
    RepeatPlain(' ', gap);
    PlainAppend(e.name, Repeat(' ', gap));
    PlainAppend(e.name + Repeat(' ', gap), e.time);
  }

  lemma RowLinesPlain(layout: Layout, es: seq<Entry>)
    requires AllArchivable(layout, es)
    ensures AllPlain(RowLines(layout, es))
  {
    forall i | 0 <= i < |es|
      ensures Plain(RowLines(layout, es)[i])
    {
      RowPlain(layout, es[i]);
    }
  }

  lemma PreamblePlain(stamp: string)
    requires ArchivableStamp(stamp)
    ensures AllPlain(Preamble(stamp))
  {
    var opening := "Generated at: ";
    assert Plain(opening);
    PlainAppend(opening, stamp);
    assert Plain("");
    TableHeadPlain();
    RepeatPlain('-', ColumnWidth + 16);
  }

  lemma TableHeadPlain()
    ensures Plain(TableHead())
  {
    assert Plain("Student Name");
    RepeatPlain(' ', ColumnWidth - 12);
    assert LJust("Student Name", ColumnWidth) == "Student Name" + Repeat(' ', ColumnWidth - 12);
    PlainAppend("Student Name", Repeat(' ', ColumnWidth - 12));
    assert Plain("Check-in Time");
    PlainAppend(LJust("Student Name", ColumnWidth), "Check-in Time");
  }

  lemma FooterPlain(present: nat, total: int, absent: int)
    ensures AllPlain(Footer(present, total, absent))
  {
    RepeatPlain('-', ColumnWidth + 16);
    FooterCaptionsPlain();
    CaptionPlain("Total Students Present: ", present);
    CaptionPlain("Total Students (Class Strength): ", total);
    CaptionPlain("Total Absent: ", absent);
    assert Plain("");
  }

  lemma FooterCaptionsPlain()
    ensures Plain("Total Students Present: ")
    ensures Plain("Total Students (Class Strength): ")
    ensures Plain("Total Absent: ")
  {
    PlainCaption("Total Students Present: ");
    PlainCaption("Total Students (Class Strength): ");
    PlainCaption("Total Absent: ");
  }

  /** Letters, digits, spaces and the few punctuation marks the captions use. */
  predicate CaptionChar(c: char) {
    IsLetter(c) || IsDigit(c) || c == ' ' || c == ':' || c == '(' || c == ')' || c == '-'
  }

  lemma PlainCaption(s: string)
    requires forall i :: 0 <= i < |s| ==> CaptionChar(s[i])
    ensures Plain(s)
  {
  }

  // ---------------------------------------------------------------------------
  // One section's text
  // ---------------------------------------------------------------------------

  /** The lines of a section after its header. */
  function BodyLines(layout: Layout, stamp: string, att: seq<Entry>, total: int, absent: int)
    : (ls: seq<string>)
    ensures |ls| == |att| + 9
  {
    Preamble(stamp) + RowLines(layout, ByName(att)) + Footer(|att|, total, absent)
  }

  /** What `re.split` hands the reader for a section: everything after the
      header, starting with the header line's own line break. */
  function Body(layout: Layout, stamp: string, att: seq<Entry>, total: int, absent: int): string {
    "\n" + Join(BodyLines(layout, stamp, att, total, absent), "\n") + "\n"
  }

  /** A section is its header followed by its body. */
  lemma SectionTextSplit(layout: Layout, d: Date, stamp: string, att: seq<Entry>, total: int, absent: int)
    requires ValidDate(d)
    ensures SectionText(layout, d, stamp, att, total, absent)
         == Header(d) + Body(layout, stamp, att, total, absent)
  {
    SectionLinesSplit(layout, d, stamp, att, total, absent);
    JoinCons(Header(d), BodyLines(layout, stamp, att, total, absent));
  }

  lemma SectionLinesSplit(layout: Layout, d: Date, stamp: string, att: seq<Entry>, total: int, absent: int)
    requires ValidDate(d)
    ensures SectionLines(layout, d, stamp, att, total, absent)
         == [Header(d)] + BodyLines(layout, stamp, att, total, absent)
  {
    ConsAssoc(Header(d), Preamble(stamp), RowLines(layout, ByName(att)), Footer(|att|, total, absent));
  }

  lemma ConsAssoc(h: string, p: seq<string>, r: seq<string>, f: seq<string>)
    ensures [h] + p + r + f == [h] + (p + r + f)
  {
  }

  lemma JoinCons(h: string, b: seq<string>)
    requires |b| >= 1
    ensures Join([h] + b, "\n") + "\n" == h + ("\n" + Join(b, "\n") + "\n")
  {
    JoinHead(h, b);
    ConcatAssoc(h, Join(b, "\n"));
  }

  lemma JoinHead(h: string, b: seq<string>)
    requires |b| >= 1
    ensures Join([h] + b, "\n") == h + "\n" + Join(b, "\n")
  {
    assert ([h] + b)[1..] == b;
  }

  lemma ConcatAssoc(h: string, j: string)
    ensures h + "\n" + j + "\n" == h + ("\n" + j + "\n")
  {
  }

  /** Every line of an archivable run's body is plain. */
  lemma BodyLinesPlain(layout: Layout, stamp: string, att: seq<Entry>, total: int, absent: int)
    requires ArchivableStamp(stamp) && AllArchivable(layout, att)
    ensures AllPlain(BodyLines(layout, stamp, att, total, absent))
  {
    PreamblePlain(stamp);
    ByNameArchivable(layout, att);
    RowLinesPlain(layout, ByName(att));
    FooterPlain(|att|, total, absent);
    AllPlainAppend(Preamble(stamp), RowLines(layout, ByName(att)));
    AllPlainAppend(Preamble(stamp) + RowLines(layout, ByName(att)), Footer(|att|, total, absent));
  }

  /** Sorting keeps every item, so it keeps them archivable. */
  lemma ByNameArchivable(layout: Layout, att: seq<Entry>)
    requires AllArchivable(layout, att)
    ensures AllArchivable(layout, ByName(att))
  {
    var order := ByName(att);
    forall i | 0 <= i < |order|
      ensures Archivable(layout, order[i])
    {
      assert order[i] in multiset(att);
      var j :| 0 <= j < |att| && att[j] == order[i];
    }
  }

  /** `splitlines` gives back an empty first line and then the body's lines. */
  lemma BodyLinesBack(layout: Layout, stamp: string, att: seq<Entry>, total: int, absent: int)
    requires ArchivableStamp(stamp) && AllArchivable(layout, att)
    ensures Lines(Body(layout, stamp, att, total, absent))
         == [""] + BodyLines(layout, stamp, att, total, absent)
  {
    BodyLinesPlain(layout, stamp, att, total, absent);
    LinesAfterBreak(BodyLines(layout, stamp, att, total, absent));
  }

  lemma LinesAfterBreak(b: seq<string>)
    requires |b| >= 1 && AllPlain(b)
    ensures Lines("\n" + Join(b, "\n") + "\n") == [""] + b
  {
    var rest := Join(b, "\n") + "\n";
    LinesAfterLeadingBreak(rest);
    assert "\n" + Join(b, "\n") + "\n" == "\n" + rest;
    LinesOfJoin(b);
  }

  lemma LinesAfterLeadingBreak(rest: string)
    ensures Lines("\n" + rest) == [""] + Lines(rest)
  {
    assert "\n" + rest == "" + "\n" + rest;
    LinesCons("", rest);
  }

  /** Joining lines that lack a character other than the separator's. */
  lemma {:induction false} JoinLacks(ls: seq<string>, c: char)
    requires c != '\n'
    requires forall i :: 0 <= i < |ls| ==> Lacks(ls[i], c)
    ensures Lacks(Join(ls, "\n"), c)
    decreases |ls|
  {
    if |ls| > 1 {
      JoinLacks(ls[1..], c);
      var tail := Join(ls[1..], "\n");
      var s := ls[0] + "\n" + tail;
      forall i | 0 <= i < |s|
        ensures s[i] != c
      {
        if i < |ls[0]| {
          assert s[i] == ls[0][i];
        } else if i > |ls[0]| {
          assert s[i] == tail[i - |ls[0]| - 1];
        }
      }
    }
  }

  /** A body has no '=', so no header can start inside it. */
  lemma BodyLacksEquals(layout: Layout, stamp: string, att: seq<Entry>, total: int, absent: int)
    requires ArchivableStamp(stamp) && AllArchivable(layout, att)
    ensures Lacks(Body(layout, stamp, att, total, absent), '=')
  {
    var b := BodyLines(layout, stamp, att, total, absent);
    BodyLinesPlain(layout, stamp, att, total, absent);
    JoinLacks(b, '=');
    var s := Body(layout, stamp, att, total, absent);
    var mid := Join(b, "\n");
    forall i | 0 <= i < |s|
      ensures s[i] != '='
    {
      if 0 < i < |s| - 1 {
        assert s[i] == mid[i - 1];
      }
    }
  }

  // ---------------------------------------------------------------------------
  // Reading one section back
  // ---------------------------------------------------------------------------

  /** Sorting by name neither adds nor drops a dict item. */
  lemma MergeByName(acc: PerDate, d: string, att: seq<Entry>)
    requires DistinctNames(att)
    ensures DistinctNames(ByName(att))
    ensures Merge(acc, d, ByName(att)) == Merge(acc, d, att)
  {
    AsMapOfPermutation(att, ByName(att));
  }

  /** The lines of a body, read under the section's date, store exactly the
      run's items over what the date already held. */
  lemma BodyRead(acc: PerDate, d: string, layout: Layout, stamp: string, att: seq<Entry>,
                 total: int, absent: int)
    requires AllArchivable(layout, att) && DistinctNames(att)
    ensures ReadLines(acc, d, [""] + BodyLines(layout, stamp, att, total, absent))
         == Merge(acc, d, att)
  {
    var merged := Merge(acc, d, ByName(att));
    PreambleRead(acc, d, stamp);
    ByNameArchivable(layout, att);
    MergeByName(acc, d, att);
    ReadLinesRows(acc, d, layout, ByName(att));
    FooterRead(merged, d, |att|, total, absent);
    ReadFramed(acc, merged, d, Preamble(stamp), RowLines(layout, ByName(att)), Footer(|att|, total, absent));
  }

  /** Lines that store nothing around lines that store `mid`. */
  lemma ReadFramed(acc: PerDate, mid: PerDate, d: string, pre: seq<string>, rows: seq<string>,
                   post: seq<string>)
    requires ReadLines(acc, d, pre) == acc
    requires ReadLines(acc, d, rows) == mid
    requires ReadLines(mid, d, post) == mid
    ensures ReadLines(acc, d, [""] + (pre + rows + post)) == mid
  {
    ReadLinesAppend(acc, d, [""], pre + rows + post);
    ClassifyBlank();
    ReadLinesSkipFirst(acc, d, [""]);
    ReadLinesAppend(acc, d, pre + rows, post);
    ReadLinesAppend(acc, d, pre, rows);
  }

  // ---------------------------------------------------------------------------
  // Cutting the archive at its headers
  // ---------------------------------------------------------------------------

  /** The header the writer emits is one the reader's pattern matches, and its
      captured date is the ISO date. */
  lemma HeaderShape(d: Date)
    requires ValidDate(d)
    ensures IsHeader(Header(d))
    ensures Strip(Header(d)[20..30]) == Iso(d)
  {
    var h := Header(d);
    var iso := Iso(d);
    assert h[..20] == HeaderPrefix && h[20..30] == iso && h[30..] == HeaderSuffix;
    assert h[20..24] == iso[..4] && h[25..27] == iso[5..7] && h[28..30] == iso[8..];
    assert IsDigit(iso[0]) && IsDigit(iso[9]);
    StripOfStripped(iso);
  }

  /** Every header starts with '='. */
  lemma HeaderStartsWithEquals(s: string, j: nat)
    ensures HeaderAt(s, j) ==> s[j] == '='
  {
    if HeaderAt(s, j) {
      assert s[j..j + HeaderLength][..20] == HeaderPrefix;
      assert s[j] == s[j..j + HeaderLength][0];
    }
  }

  /** The scan for the next header stops at `to` when nothing before it can
      start one and `to` is a header or the end of the text. */
  lemma NextHeaderAt(s: string, from: nat, to: nat)
    requires from <= to <= |s|
    requires forall j :: from <= j < to ==> s[j] != '='
    requires to == |s| || HeaderAt(s, to)
    ensures NextHeader(s, from) == to
  {
    var k := NextHeader(s, from);
    if k < |s| {
      HeaderStartsWithEquals(s, k);
    }
  }

  /** A header, a body without '=' and then the rest of the archive: the
      first chunk is that section's date and body. */
  lemma ChunksOfSection(h: string, body: string, more: string)
    requires IsHeader(h) && Lacks(body, '=')
    requires |more| == 0 || HeaderAt(more, 0)
    ensures ChunksFrom(h + body + more) == [Chunk(Strip(h[20..30]), body)] + ChunksFrom(more)
  {
    var t := h + body + more;
    var end := HeaderLength + |body|;
    SectionEnd(h, body, more);
    SectionSlices(h, body, more);
    ChunksFromStep(t);
  }

  lemma ChunksFromStep(t: string)
    requires |t| >= HeaderLength
    ensures var k := NextHeader(t, HeaderLength);
      ChunksFrom(t) == [Chunk(Strip(t[20..30]), t[HeaderLength..k])] + ChunksFrom(t[k..])
  {
  }

  /** The scan from the end of the header stops where the body ends. */
  lemma SectionEnd(h: string, body: string, more: string)
    requires |h| == HeaderLength && Lacks(body, '=')
    requires |more| == 0 || HeaderAt(more, 0)
    ensures NextHeader(h + body + more, HeaderLength) == HeaderLength + |body|
  {
    var t := h + body + more;
    var end := HeaderLength + |body|;
    BodyHasNoEquals(h, body, more);
    HeaderAfter(h + body, more);
    assert t == (h + body) + more;
    NextHeaderAt(t, HeaderLength, end);
  }

  lemma BodyHasNoEquals(h: string, body: string, more: string)
    requires |h| == HeaderLength && Lacks(body, '=')
    ensures forall j :: HeaderLength <= j < HeaderLength + |body| ==> (h + body + more)[j] != '='
  {
    var t := h + body + more;
    forall j | HeaderLength <= j < HeaderLength + |body|
      ensures t[j] != '='
    {
      assert t[j] == body[j - HeaderLength];
    }
  }

  /** A header at the start of `more` is one at its offset in `p + more`. */
  lemma HeaderAfter(p: string, more: string)
    ensures HeaderAt(more, 0) ==> HeaderAt(p + more, |p|)
  {
    if HeaderAt(more, 0) {
      assert (p + more)[|p|..|p| + HeaderLength] == more[0..HeaderLength];
    }
  }

  lemma SectionSlices(h: string, body: string, more: string)
    requires |h| == HeaderLength
    ensures var t := h + body + more;
      && t[HeaderLength..HeaderLength + |body|] == body
      && t[HeaderLength + |body|..] == more
      && t[20..30] == h[20..30]
  {
  }

  // ---------------------------------------------------------------------------
  // Runs and the archive
  // ---------------------------------------------------------------------------

  /** One recording run: its date, the stamp, the items recorded, and the
      class strength and absence count it reports. */
  datatype Run = Run(date: Date, stamp: string, att: seq<Entry>, total: int, absent: int)

  predicate ValidRuns(runs: seq<Run>) {
    forall i :: 0 <= i < |runs| ==> ValidDate(runs[i].date)
  }

  /** A run whose section the reader can read back in full. */
  predicate ArchivableRun(layout: Layout, r: Run) {
    && ValidDate(r.date) && ArchivableStamp(r.stamp)
    && AllArchivable(layout, r.att) && DistinctNames(r.att)
  }

  predicate AllArchivableRuns(layout: Layout, runs: seq<Run>) {
    forall i :: 0 <= i < |runs| ==> ArchivableRun(layout, runs[i])
  }

  function RunText(layout: Layout, r: Run): string
    requires ValidDate(r.date)
  {
    SectionText(layout, r.date, r.stamp, r.att, r.total, r.absent)
  }

  /** The archive after the runs, oldest first, starting from no file. */
  function ArchiveText(layout: Layout, runs: seq<Run>): string
    requires ValidRuns(runs)
    decreases |runs|
  {
    if |runs| == 0 then "" else RunText(layout, runs[0]) + ArchiveText(layout, runs[1..])
  }

  /** The reference: each run's items land under its date, later runs over
      earlier ones. */
  function RecordAll(acc: PerDate, runs: seq<Run>): PerDate
    requires ValidRuns(runs)
    decreases |runs|
  {
    if |runs| == 0 then acc
    else RecordAll(Merge(acc, Iso(runs[0].date), runs[0].att), runs[1..])
  }

  /** A run's text is its header, then its body. */
  lemma RunTextShape(layout: Layout, r: Run)
    requires ValidDate(r.date)
    ensures RunText(layout, r) == Header(r.date) + Body(layout, r.stamp, r.att, r.total, r.absent)
    ensures HeaderAt(RunText(layout, r), 0)
  {
    SectionTextSplit(layout, r.date, r.stamp, r.att, r.total, r.absent);
    HeaderShape(r.date);
    var t := RunText(layout, r);
    assert t[0..HeaderLength] == Header(r.date);
  }

  /** A non-empty archive starts with a header. */
  lemma ArchiveTextStarts(layout: Layout, runs: seq<Run>)
    requires ValidRuns(runs)
    ensures |ArchiveText(layout, runs)| == 0 || HeaderAt(ArchiveText(layout, runs), 0)
  {
    if |runs| > 0 {
      var first := RunText(layout, runs[0]);
      var t := ArchiveText(layout, runs);
      RunTextShape(layout, runs[0]);
      assert t[0..HeaderLength] == first[0..HeaderLength];
    }
  }

  /** The chunks `re.split` yields for the archive: each run's date and body. */
  function RunChunks(layout: Layout, runs: seq<Run>): (cs: seq<Chunk>)
    requires ValidRuns(runs)
    ensures |cs| == |runs|
    decreases |runs|
  {
    if |runs| == 0 then []
    else [Chunk(Iso(runs[0].date), Body(layout, runs[0].stamp, runs[0].att, runs[0].total, runs[0].absent))]
         + RunChunks(layout, runs[1..])
  }

  lemma ValidRunsTail(runs: seq<Run>)
    requires ValidRuns(runs) && |runs| > 0
    ensures ValidRuns(runs[1..])
  {
    forall i | 0 <= i < |runs[1..]|
      ensures ValidDate(runs[1..][i].date)
    {
      assert runs[1..][i] == runs[i + 1];
    }
  }

  lemma ArchivableRunsTail(layout: Layout, runs: seq<Run>)
    requires AllArchivableRuns(layout, runs) && |runs| > 0
    ensures AllArchivableRuns(layout, runs[1..])
  {
    forall i | 0 <= i < |runs[1..]|
      ensures ArchivableRun(layout, runs[1..][i])
    {
      assert runs[1..][i] == runs[i + 1];
    }
  }

  /** Cutting the archive at its headers gives one chunk per run, in order. */
  lemma {:induction false} ArchiveChunks(layout: Layout, runs: seq<Run>)
    requires AllArchivableRuns(layout, runs)
    ensures ChunksFrom(ArchiveText(layout, runs)) == RunChunks(layout, runs)
    decreases |runs|
  {
    if |runs| > 0 {
      var r := runs[0];
      var body := Body(layout, r.stamp, r.att, r.total, r.absent);
      var rest := ArchiveText(layout, runs[1..]);
      ArchivableRunsTail(layout, runs);
      RunTextShape(layout, r);
      HeaderShape(r.date);
      BodyLacksEquals(layout, r.stamp, r.att, r.total, r.absent);
      ArchiveTextStarts(layout, runs[1..]);
      ChunksOfSection(Header(r.date), body, rest);
      ArchiveChunks(layout, runs[1..]);
    }
  }

  /** One run's chunk, read, merges that run's items under its date. */
  lemma RunRead(acc: PerDate, layout: Layout, r: Run)
    requires ArchivableRun(layout, r)
    ensures ReadLines(acc, Iso(r.date), Lines(Body(layout, r.stamp, r.att, r.total, r.absent)))
         == Merge(acc, Iso(r.date), r.att)
  {
    BodyLinesBack(layout, r.stamp, r.att, r.total, r.absent);
    BodyRead(acc, Iso(r.date), layout, r.stamp, r.att, r.total, r.absent);
  }

  lemma {:induction false} ReadRunChunks(acc: PerDate, layout: Layout, runs: seq<Run>)
    requires AllArchivableRuns(layout, runs)
    ensures ReadChunks(acc, RunChunks(layout, runs)) == RecordAll(acc, runs)
    decreases |runs|
  {
    if |runs| > 0 {
      var cs := RunChunks(layout, runs);
      ArchivableRunsTail(layout, runs);
      RunRead(acc, layout, runs[0]);
      assert cs[1..] == RunChunks(layout, runs[1..]);
      ReadRunChunks(Merge(acc, Iso(runs[0].date), runs[0].att), layout, runs[1..]);
    }
  }

  /** `read_from_archive` on an archive written by archivable runs gives
      back every run's items, under its date, later runs overwriting earlier
      ones. */
  lemma ArchiveRoundTrip(layout: Layout, runs: seq<Run>)
    requires AllArchivableRuns(layout, runs)
    ensures ReadArchive(ArchiveText(layout, runs)) == RecordAll(map[], runs)
  {
    var t := ArchiveText(layout, runs);
    ArchiveTextStarts(layout, runs);
    NextHeaderAt(t, 0, 0);
    assert t[0..] == t;
    ArchiveChunks(layout, runs);
    ReadRunChunks(map[], layout, runs);
  }

  /** A single run read back on its own: nothing if it recorded no one,
      else its items under its date. */
  lemma SingleRunRoundTrip(layout: Layout, r: Run)
    requires ArchivableRun(layout, r)
    ensures ReadArchive(RunText(layout, r))
         == if |r.att| == 0 then map[] else map[Iso(r.date) := AsMap(r.att)]
  {
    var runs := [r];
    assert AllArchivableRuns(layout, runs);
    ArchiveTextSingle(layout, r);
    ArchiveRoundTrip(layout, runs);
    RecordSingle(r);
  }

  lemma ArchiveTextSingle(layout: Layout, r: Run)
    requires ValidDate(r.date)
    ensures ValidRuns([r]) && ArchiveText(layout, [r]) == RunText(layout, r)
  {
    assert [r][1..] == [];
    assert RunText(layout, r) + "" == RunText(layout, r);
  }

  lemma RecordSingle(r: Run)
    requires ValidDate(r.date)
    ensures ValidRuns([r])
    ensures RecordAll(map[], [r]) == if |r.att| == 0 then map[] else map[Iso(r.date) := AsMap(r.att)]
  {
    assert [r][1..] == [];
    var empty: PerDate := map[];
    assert Day(empty, Iso(r.date)) + AsMap(r.att) == AsMap(r.att);
  }

  /** Appending a run to the history merges it over everything before. */
  lemma {:induction false} RecordAllSnoc(acc: PerDate, runs: seq<Run>, r: Run)
    requires ValidRuns(runs) && ValidDate(r.date)
    ensures ValidRuns(runs + [r])
    ensures RecordAll(acc, runs + [r]) == Merge(RecordAll(acc, runs), Iso(r.date), r.att)
    decreases |runs|
  {
    ValidRunsSnoc(runs, r);
    if |runs| == 0 {
      assert runs + [r] == [r];
      RecordAllOne(acc, r);
    } else {
      var all := runs + [r];
      ValidRunsTail(runs);
      ValidRunsSnoc(runs[1..], r);
      assert all[0] == runs[0] && all[1..] == runs[1..] + [r];
      RecordAllSnoc(Merge(acc, Iso(runs[0].date), runs[0].att), runs[1..], r);
    }
  }

  lemma RecordAllOne(acc: PerDate, r: Run)
    requires ValidDate(r.date)
    ensures ValidRuns([r])
    ensures RecordAll(acc, [r]) == Merge(acc, Iso(r.date), r.att)
  {
    assert [r][1..] == [];
  }

  lemma ValidRunsSnoc(runs: seq<Run>, r: Run)
    requires ValidRuns(runs) && ValidDate(r.date)
    ensures ValidRuns(runs + [r])
  {
    var all := runs + [r];
    forall i | 0 <= i < |all|
      ensures ValidDate(all[i].date)
    {
      if i < |runs| {
        assert all[i] == runs[i];
      }
    }
  }

  /** The latest run decides: each of its items is what is recorded for that
      date and name, whatever earlier runs recorded; the other dates are as
      the earlier runs left them. */
  lemma LatestRunWins(acc: PerDate, runs: seq<Run>, r: Run)
    requires ValidRuns(runs) && ValidDate(r.date) && DistinctNames(r.att) && |r.att| > 0
    ensures ValidRuns(runs + [r])
    ensures var m := RecordAll(acc, runs + [r]);
      && Iso(r.date) in m
      && (forall i :: 0 <= i < |r.att| ==>
            r.att[i].name in m[Iso(r.date)] && m[Iso(r.date)][r.att[i].name] == r.att[i].time)
      && m - {Iso(r.date)} == RecordAll(acc, runs) - {Iso(r.date)}
  {
    RecordAllSnoc(acc, runs, r);
    MergeStores(RecordAll(acc, runs), Iso(r.date), r.att);
    MergeFrame(RecordAll(acc, runs), Iso(r.date), r.att);
  }
}

=== FILE: clock.dfy ===
/** Check-in time normalisation (`parse_time`): the input, stripped, is tried
    against the `strptime` layouts "%I:%M %p", "%H:%M" and "%I:%M%p" in turn and
    the first that matches the whole string is rendered as "%I:%M %p". */
module Clock {
  import opened Wrappers
  import opened Text

  datatype TimeError = InvalidTimeFormat

  // ---------------------------------------------------------------------------
  // The strptime fields (C locale)
  // ---------------------------------------------------------------------------

  /** `%I`: 1[0-2] | 0[1-9] | [1-9]. */
  predicate IsHour12Text(h: string) {
    && AllDigits(h)
    && ((|h| == 1 && h[0] != '0')
        || (|h| == 2 && ((h[0] == '0' && h[1] != '0') || (h[0] == '1' && h[1] <= '2'))))
  }

  /** `%H`: 2[0-3] | [0-1]\d | \d. */
  predicate IsHour24Text(h: string) {
    && AllDigits(h)
    && (|h| == 1 || (|h| == 2 && (h[0] <= '1' || (h[0] == '2' && h[1] <= '3'))))
  }

  /** `%M`: [0-5]\d | \d. */
  predicate IsMinuteText(m: string) {
    AllDigits(m) && (|m| == 1 || (|m| == 2 && m[0] <= '5'))
  }

  /** `%p`: "am" or "pm" in any letter case. */
  predicate IsMeridiem(p: string) {
    |p| == 2 && (LowerChar(p[0]) == 'a' || LowerChar(p[0]) == 'p') && LowerChar(p[1]) == 'm'
  }

  lemma Hour12Range(h: string)
    requires IsHour12Text(h)
    ensures 1 <= DigitsValue(h) <= 12
  {
    assert h[..|h| - 1][..0] == [];
    if |h| == 2 {
      assert h[..1][..0] == [];
      assert DigitsValue(h) == DigitValue(h[0]) * 10 + DigitValue(h[1]);
    }
  }

  lemma Hour24Range(h: string)
    requires IsHour24Text(h)
    ensures DigitsValue(h) <= 23
  {
    assert h[..|h| - 1][..0] == [];
    if |h| == 2 {
      assert h[..1][..0] == [];
      assert DigitsValue(h) == DigitValue(h[0]) * 10 + DigitValue(h[1]);
    }
  }

  lemma MinuteRange(m: string)
    requires IsMinuteText(m)
    ensures DigitsValue(m) <= 59
  {
    assert m[..|m| - 1][..0] == [];
    if |m| == 2 {
      assert m[..1][..0] == [];
      assert DigitsValue(m) == DigitValue(m[0]) * 10 + DigitValue(m[1]);
    }
  }

  /** The 24-hour reading of a 12-hour clock hour and its "am"/"pm" marker. */
  function To24(h12: nat, p: string): (hour: nat)
    requires 1 <= h12 <= 12 && IsMeridiem(p)
    ensures hour < 24
    ensures (hour < 12) == (LowerChar(p[0]) == 'a')
  {
    if LowerChar(p[0]) == 'a' then (if h12 == 12 then 0 else h12)
    else (if h12 == 12 then 12 else h12 + 12)
  }

  // ---------------------------------------------------------------------------
  // Canonical output
  // ---------------------------------------------------------------------------

  /** The shape "hh:mm AM" / "hh:mm PM" with hh in 01..12 and mm in 00..59. */
  predicate IsCanonical(t: string) {
    && |t| == 8
    && AllDigits(t[..2]) && 1 <= DigitsValue(t[..2]) <= 12
    && t[2] == ':'
    && AllDigits(t[3..5]) && DigitsValue(t[3..5]) <= 59
    && t[5] == ' '
    && (t[6..] == "AM" || t[6..] == "PM")
  }

  /** `strftime("%I:%M %p")` of a 24-hour clock reading. */
  function Render(hour: nat, minute: nat): (t: string)
    requires hour < 24 && minute < 60
    ensures IsCanonical(t)
  {
    var h12 := if hour % 12 == 0 then 12 else hour % 12;
    var t := Pad2(h12) + ":" + Pad2(minute) + " " + (if hour < 12 then "AM" else "PM");
    assert t[..2] == Pad2(h12) && t[3..5] == Pad2(minute);
    t
  }

  // ---------------------------------------------------------------------------
  // The scanner
  // ---------------------------------------------------------------------------

  /** Position of the first ':' (or the length when there is none). */
  function ColonIndex(s: string): (i: nat)
    ensures i <= |s|
    ensures forall k :: 0 <= k < i ==> s[k] != ':'
    ensures i < |s| ==> s[i] == ':'
    decreases |s|
  {
    if |s| == 0 || s[0] == ':' then 0 else 1 + ColonIndex(s[1..])
  }

  /** Length of the leading run of digits. */
  function DigitRun(s: string): (n: nat)
    ensures n <= |s|
    ensures forall k :: 0 <= k < n ==> IsDigit(s[k])
    ensures n < |s| ==> !IsDigit(s[n])
    decreases |s|
  {
    if |s| == 0 || !IsDigit(s[0]) then 0 else 1 + DigitRun(s[1..])
  }

  /** Length of the leading run of whitespace. */
  function SpaceRun(s: string): (n: nat)
    ensures n <= |s|
    ensures forall k :: 0 <= k < n ==> IsSpace(s[k])
    ensures n < |s| ==> !IsSpace(s[n])
    decreases |s|
  {
    if |s| == 0 || !IsSpace(s[0]) then 0 else 1 + SpaceRun(s[1..])
  }

  /** `parse_time`: normalise a check-in time or raise `ValueError`. */
  function ParseTime(raw: string): (r: Result<string, TimeError>)
    ensures r.Success? ==> IsCanonical(r.value)
  {
    ReadClock(Strip(raw))
  }

  /** Hour digits run up to the first ':', since no field contains one. */
  function ReadClock(s: string): (r: Result<string, TimeError>)
    ensures r.Success? ==> IsCanonical(r.value)
  {
    var c := ColonIndex(s);
    if c == |s| then Failure(InvalidTimeFormat) else ReadAfterHour(s[..c], s[c + 1..])
  }

  /** The minute is the digit run after the ':'; every layout follows it with
      something that is not a digit. */
  function ReadAfterHour(h: string, rest: string): (r: Result<string, TimeError>)
    ensures r.Success? ==> IsCanonical(r.value)
  {
    var k := DigitRun(rest);
    ReadLayout(h, rest[..k], rest[k..])
  }

  /** What follows the minute picks the layout: whitespace then a marker
      ("%I:%M %p"), nothing ("%H:%M"), or a marker directly ("%I:%M%p"). */
  function ReadLayout(h: string, m: string, tail: string): (r: Result<string, TimeError>)
    ensures r.Success? ==> IsCanonical(r.value)
  {
    var w := SpaceRun(tail);
    if !IsMinuteText(m) then Failure(InvalidTimeFormat)
    else
      MinuteRange(m);
      if IsHour12Text(h) && w >= 1 && IsMeridiem(tail[w..]) then
        Hour12Range(h);
        Success(Render(To24(DigitsValue(h), tail[w..]), DigitsValue(m)))
      else if IsHour24Text(h) && |tail| == 0 then
        Hour24Range(h);
        Success(Render(DigitsValue(h), DigitsValue(m)))
      else if IsHour12Text(h) && IsMeridiem(tail) then
        Hour12Range(h);
        Success(Render(To24(DigitsValue(h), tail), DigitsValue(m)))
      else Failure(InvalidTimeFormat)
  }

  // ---------------------------------------------------------------------------
  // The layouts as a grammar
  // ---------------------------------------------------------------------------

  /** "%I:%M %p": the format's space matches one or more whitespace characters. */
  ghost predicate SpacedLayout(s: string, hour: nat, minute: nat) {
    exists h, m, gap, p ::
      && s == h + ":" + m + gap + p
      && IsHour12Text(h) && IsMinuteText(m) && |gap| >= 1 && AllSpace(gap) && IsMeridiem(p)
      && 1 <= DigitsValue(h) <= 12
      && hour == To24(DigitsValue(h), p) && minute == DigitsValue(m)
  }

  /** "%H:%M". */
  ghost predicate DayLayout(s: string, hour: nat, minute: nat) {
    exists h, m ::
      && s == h + ":" + m
      && IsHour24Text(h) && IsMinuteText(m)
      && hour == DigitsValue(h) && minute == DigitsValue(m)
  }

  /** "%I:%M%p". */
  ghost predicate JoinedLayout(s: string, hour: nat, minute: nat) {
    exists h, m, p ::
      && s == h + ":" + m + p
      && IsHour12Text(h) && IsMinuteText(m) && IsMeridiem(p)
      && 1 <= DigitsValue(h) <= 12
      && hour == To24(DigitsValue(h), p) && minute == DigitsValue(m)
  }

  /** The stripped input `s` reads as `hour:minute` under one of the layouts. */
  ghost predicate Denotes(s: string, hour: nat, minute: nat) {
    SpacedLayout(s, hour, minute) || DayLayout(s, hour, minute) || JoinedLayout(s, hour, minute)
  }

  lemma {:induction false} ColonAfterDigits(h: string, rest: string)
    requires AllDigits(h)
    ensures ColonIndex(h + ":" + rest) == |h|
    ensures (h + ":" + rest)[..|h|] == h && (h + ":" + rest)[|h| + 1..] == rest
    decreases |h|
  {
    var s := h + ":" + rest;
    if |h| > 0 {
      assert s[0] == h[0];
      assert s[1..] == h[1..] + ":" + rest;
      ColonAfterDigits(h[1..], rest);
    }
    assert s[..|h|] == h;
    assert s[|h| + 1..] == rest;
  }

  lemma {:induction false} DigitsThenOther(m: string, tail: string)
    requires AllDigits(m)
    requires |tail| == 0 || !IsDigit(tail[0])
    ensures DigitRun(m + tail) == |m|
    decreases |m|
  {
    var s := m + tail;
    if |m| > 0 {
      assert s[0] == m[0];
      assert s[1..] == m[1..] + tail;
      DigitsThenOther(m[1..], tail);
    } else {
      assert s == tail;
    }
  }

  lemma {:induction false} SpacesThenOther(gap: string, p: string)
    requires AllSpace(gap)
    requires |p| == 0 || !IsSpace(p[0])
    ensures SpaceRun(gap + p) == |gap|
    decreases |gap|
  {
    var s := gap + p;
    if |gap| > 0 {
      assert s[0] == gap[0];
      assert s[1..] == gap[1..] + p;
      SpacesThenOther(gap[1..], p);
    } else {
      assert s == p;
    }
  }

  lemma TwoDigitValue(s: string)
    requires |s| == 2 && AllDigits(s)
    ensures DigitsValue(s) == DigitValue(s[0]) * 10 + DigitValue(s[1])
  {
    assert s[..1][..0] == [];
    assert s[..|s| - 1] == s[..1];
    assert DigitsValue(s[..1]) == DigitValue(s[0]);
  }

  /** The hour field ends at the first ':' when it is all digits. */
  lemma ReadClockAt(h: string, rest: string)
    requires AllDigits(h)
    ensures ReadClock(h + ":" + rest) == ReadAfterHour(h, rest)
  {
    ColonAfterDigits(h, rest);
  }

  /** The minute field ends where the digits do. */
  lemma ReadAfterHourAt(h: string, m: string, tail: string)
    requires AllDigits(m)
    requires |tail| == 0 || !IsDigit(tail[0])
    ensures ReadAfterHour(h, m + tail) == ReadLayout(h, m, tail)
  {
    DigitsThenOther(m, tail);
    assert (m + tail)[..|m|] == m && (m + tail)[|m|..] == tail;
  }

  lemma SpacedLayoutRead(h: string, m: string, gap: string, p: string)
    requires IsHour12Text(h) && IsMinuteText(m) && |gap| >= 1 && AllSpace(gap) && IsMeridiem(p)
    ensures 1 <= DigitsValue(h) <= 12 && DigitsValue(m) < 60
    ensures ReadLayout(h, m, gap + p) == Success(Render(To24(DigitsValue(h), p), DigitsValue(m)))
  {
    Hour12Range(h);
    MinuteRange(m);
    SpacesThenOther(gap, p);
    assert (gap + p)[|gap|..] == p;
  }

  lemma DayLayoutRead(h: string, m: string)
    requires IsHour24Text(h) && IsMinuteText(m)
    ensures DigitsValue(h) < 24 && DigitsValue(m) < 60
    ensures ReadLayout(h, m, "") == Success(Render(DigitsValue(h), DigitsValue(m)))
  {
    Hour24Range(h);
    MinuteRange(m);
  }

  lemma JoinedLayoutRead(h: string, m: string, p: string)
    requires IsHour12Text(h) && IsMinuteText(m) && IsMeridiem(p)
    ensures 1 <= DigitsValue(h) <= 12 && DigitsValue(m) < 60
    ensures ReadLayout(h, m, p) == Success(Render(To24(DigitsValue(h), p), DigitsValue(m)))
  {
    Hour12Range(h);
    MinuteRange(m);
    assert SpaceRun(p) == 0;
  }

  lemma SpacedRead(h: string, m: string, gap: string, p: string)
    requires IsHour12Text(h) && IsMinuteText(m) && |gap| >= 1 && AllSpace(gap) && IsMeridiem(p)
    ensures 1 <= DigitsValue(h) <= 12 && DigitsValue(m) < 60
    ensures ReadClock(h + ":" + m + gap + p)
      == Success(Render(To24(DigitsValue(h), p), DigitsValue(m)))
  {
    assert h + ":" + m + gap + p == h + ":" + (m + (gap + p));
    ReadClockAt(h, m + (gap + p));
    ReadAfterHourAt(h, m, gap + p);
    SpacedLayoutRead(h, m, gap, p);
  }

  lemma DayRead(h: string, m: string)
    requires IsHour24Text(h) && IsMinuteText(m)
    ensures DigitsValue(h) < 24 && DigitsValue(m) < 60
    ensures ReadClock(h + ":" + m) == Success(Render(DigitsValue(h), DigitsValue(m)))
  {
    ReadClockAt(h, m);
    assert m + "" == m;
    ReadAfterHourAt(h, m, "");
    DayLayoutRead(h, m);
  }

  lemma JoinedRead(h: string, m: string, p: string)
    requires IsHour12Text(h) && IsMinuteText(m) && IsMeridiem(p)
    ensures 1 <= DigitsValue(h) <= 12 && DigitsValue(m) < 60
    ensures ReadClock(h + ":" + m + p)
      == Success(Render(To24(DigitsValue(h), p), DigitsValue(m)))
  {
    assert h + ":" + m + p == h + ":" + (m + p);
    ReadClockAt(h, m + p);
    ReadAfterHourAt(h, m, p);
    JoinedLayoutRead(h, m, p);
  }

  /** Every reading the grammar gives is the one `parse_time` renders. */
  lemma ParseTimeComplete(raw: string, hour: nat, minute: nat)
    ensures Denotes(Strip(raw), hour, minute) ==>
      hour < 24 && minute < 60 && ParseTime(raw) == Success(Render(hour, minute))
  {
    var s := Strip(raw);
    if SpacedLayout(s, hour, minute) {
      SpacedComplete(s, hour, minute);
    } else if DayLayout(s, hour, minute) {
      DayComplete(s, hour, minute);
    } else if JoinedLayout(s, hour, minute) {
      JoinedComplete(s, hour, minute);
    }
  }

  lemma SpacedComplete(s: string, hour: nat, minute: nat)
    requires SpacedLayout(s, hour, minute)
    ensures hour < 24 && minute < 60
    ensures ReadClock(s) == Success(Render(hour, minute))
  {
    var h, m, gap, p :| && s == h + ":" + m + gap + p
      && IsHour12Text(h) && IsMinuteText(m) && |gap| >= 1 && AllSpace(gap) && IsMeridiem(p)
      && 1 <= DigitsValue(h) <= 12
      && hour == To24(DigitsValue(h), p) && minute == DigitsValue(m);
    SpacedRead(h, m, gap, p);
  }

  lemma DayComplete(s: string, hour: nat, minute: nat)
    requires DayLayout(s, hour, minute)
    ensures hour < 24 && minute < 60
    ensures ReadClock(s) == Success(Render(hour, minute))
  {
    var h, m :| && s == h + ":" + m
      && IsHour24Text(h) && IsMinuteText(m)
      && hour == DigitsValue(h) && minute == DigitsValue(m);
    DayRead(h, m);
  }

  lemma JoinedComplete(s: string, hour: nat, minute: nat)
    requires JoinedLayout(s, hour, minute)
    ensures hour < 24 && minute < 60
    ensures ReadClock(s) == Success(Render(hour, minute))
  {
    var h, m, p :| && s == h + ":" + m + p
      && IsHour12Text(h) && IsMinuteText(m) && IsMeridiem(p)
      && 1 <= DigitsValue(h) <= 12
      && hour == To24(DigitsValue(h), p) && minute == DigitsValue(m);
    JoinedRead(h, m, p);
  }

  lemma SpacedLayoutSound(h: string, m: string, tail: string, w: nat)
    requires IsHour12Text(h) && IsMinuteText(m)
    requires 1 <= w <= |tail| && AllSpace(tail[..w]) && IsMeridiem(tail[w..])
    ensures 1 <= DigitsValue(h) <= 12 && DigitsValue(m) < 60
    ensures Denotes(h + ":" + m + tail, To24(DigitsValue(h), tail[w..]), DigitsValue(m))
  {
    Hour12Range(h);
    MinuteRange(m);
    var p := tail[w..];
    var gap := tail[..w];
    assert tail == gap + p;
    assert h + ":" + m + tail == h + ":" + m + gap + p;
    assert SpacedLayout(h + ":" + m + tail, To24(DigitsValue(h), p), DigitsValue(m));
  }

  lemma DayLayoutSound(h: string, m: string)
    requires IsHour24Text(h) && IsMinuteText(m)
    ensures Denotes(h + ":" + m + "", DigitsValue(h), DigitsValue(m))
  {
    assert h + ":" + m + "" == h + ":" + m;
    assert DayLayout(h + ":" + m + "", DigitsValue(h), DigitsValue(m));
  }

  lemma JoinedLayoutSound(h: string, m: string, p: string)
    requires IsHour12Text(h) && IsMinuteText(m) && IsMeridiem(p)
    ensures 1 <= DigitsValue(h) <= 12
    ensures Denotes(h + ":" + m + p, To24(DigitsValue(h), p), DigitsValue(m))
  {
    Hour12Range(h);
    assert JoinedLayout(h + ":" + m + p, To24(DigitsValue(h), p), DigitsValue(m));
  }

  /** Each way `ReadLayout` succeeds is one of the three layouts. */
  lemma LayoutSound(h: string, m: string, tail: string, t: string)
    requires ReadLayout(h, m, tail) == Success(t)
    ensures exists hour: nat, minute: nat ::
      hour < 24 && minute < 60 && Denotes(h + ":" + m + tail, hour, minute) && t == Render(hour, minute)
  {
    var w := SpaceRun(tail);
    MinuteRange(m);
    if IsHour12Text(h) && w >= 1 && IsMeridiem(tail[w..]) {
      SpacedLayoutSound(h, m, tail, w);
      var hour := To24(DigitsValue(h), tail[w..]);
      assert t == Render(hour, DigitsValue(m));
    } else if IsHour24Text(h) && |tail| == 0 {
      Hour24Range(h);
      DayLayoutSound(h, m);
      assert tail == "";
      assert t == Render(DigitsValue(h), DigitsValue(m));
    } else {
      JoinedLayoutSound(h, m, tail);
      assert t == Render(To24(DigitsValue(h), tail), DigitsValue(m));
    }
  }

  lemma SplitAt(s: string, c: nat)
    requires c < |s|
    ensures s == s[..c] + [s[c]] + s[c + 1..]
  {
  }

  lemma ReadClockColon(s: string, t: string)
    requires ReadClock(s) == Success(t)
    ensures ColonIndex(s) < |s|
    ensures ReadAfterHour(s[..ColonIndex(s)], s[ColonIndex(s) + 1..]) == Success(t)
  {
  }

  lemma ReadAfterHourSplit(h: string, rest: string, t: string)
    requires ReadAfterHour(h, rest) == Success(t)
    ensures rest == rest[..DigitRun(rest)] + rest[DigitRun(rest)..]
    ensures ReadLayout(h, rest[..DigitRun(rest)], rest[DigitRun(rest)..]) == Success(t)
  {
  }

  /** The first ':' splits a successful reading into hour text and the rest. */
  lemma ReadClockSplit(s: string, t: string) returns (h: string, m: string, tail: string)
    requires ReadClock(s) == Success(t)
    ensures s == h + ":" + m + tail
    ensures ReadLayout(h, m, tail) == Success(t)
  {
    ReadClockColon(s, t);
    var c := ColonIndex(s);
    h := s[..c];
    var rest := s[c + 1..];
    ReadAfterHourSplit(h, rest, t);
    var k := DigitRun(rest);
    m := rest[..k];
    tail := rest[k..];
    SplitAt(s, c);
    assert [s[c]] == ":";
    assert s == h + ":" + (m + tail);
  }

  /** Whatever `parse_time` returns is the rendering of a reading the grammar
      gives to the stripped input. */
  lemma ParseTimeSound(raw: string, t: string)
    ensures ParseTime(raw) == Success(t) ==> exists hour: nat, minute: nat ::
      hour < 24 && minute < 60 && Denotes(Strip(raw), hour, minute) && t == Render(hour, minute)
  {
    if ParseTime(raw) == Success(t) {
      var h, m, tail := ReadClockSplit(Strip(raw), t);
      LayoutSound(h, m, tail, t);
    }
  }

  /** The fields of a canonical time satisfy the "%I:%M %p" layout. */
  lemma CanonicalFields(t: string)
    requires IsCanonical(t)
    ensures t == t[..2] + ":" + t[3..5] + " " + t[6..]
    ensures IsHour12Text(t[..2]) && IsMinuteText(t[3..5]) && IsMeridiem(t[6..])
    ensures AllSpace(" ")
  {
    var h := t[..2];
    var m := t[3..5];
    TwoDigitValue(h);
    TwoDigitValue(m);
    assert t == h + [t[2]] + m + [t[5]] + t[6..];
  }

  /** Rendering the reading of a canonical time gives the time back. */
  lemma RenderOfCanonical(t: string)
    requires IsCanonical(t)
    ensures IsHour12Text(t[..2]) && IsMeridiem(t[6..])
    ensures DigitsValue(t[3..5]) < 60
    ensures Render(To24(DigitsValue(t[..2]), t[6..]), DigitsValue(t[3..5])) == t
  {
    CanonicalFields(t);
    var h := t[..2];
    var m := t[3..5];
    var p := t[6..];
    Pad2OfDigits(h);
    Pad2OfDigits(m);
    var h12 := DigitsValue(h);
    var hour := To24(h12, p);
    assert (if hour % 12 == 0 then 12 else hour % 12) == h12;
    assert (if hour < 12 then "AM" else "PM") == p;
  }

  /** A canonical time reads back as itself: `parse_time` is idempotent on its
      own output. */
  lemma CanonicalIsFixedPoint(t: string)
    requires IsCanonical(t)
    ensures ParseTime(t) == Success(t)
  {
    StripOfStripped(t);
    CanonicalFields(t);
    SpacedRead(t[..2], t[3..5], " ", t[6..]);
    RenderOfCanonical(t);
  }

  /** `parse_time` applied to its own output returns the same string. */
  lemma ParseTimeIdempotent(raw: string)
    ensures ParseTime(raw).Success? ==> ParseTime(ParseTime(raw).value) == ParseTime(raw)
  {
    if ParseTime(raw).Success? {
      CanonicalIsFixedPoint(ParseTime(raw).value);
    }
  }

  /** With nothing after the minute only "%H:%M" can match. */
  lemma BareLayout(h: string, m: string)
    ensures ReadLayout(h, m, "").Success? <==> IsHour24Text(h) && IsMinuteText(m)
  {
  }

  /** An hour above 23 or a minute above 59 ("25:99") matches no layout, so `parse_time` raises. */
  lemma RejectsOutOfRange(h: string, m: string)
    requires |h| > 0 && |m| > 0 && AllDigits(h) && AllDigits(m)
    requires DigitsValue(h) > 23 || DigitsValue(m) > 59
    ensures ParseTime(h + ":" + m) == Failure(InvalidTimeFormat)
  {
    var s := h + ":" + m;
    StripOfStripped(s);
    ReadClockAt(h, m);
    assert m + "" == m;
    ReadAfterHourAt(h, m, "");
    BareLayout(h, m);
    if IsHour24Text(h) {
      Hour24Range(h);
    }
    if IsMinuteText(m) {
      MinuteRange(m);
    }
  }
}

=== FILE: contacts.dfy ===
/** The contact book: a list of name, phone and email records kept in a CSV
    file, with handlers to add, search, update and delete by name compared
    without regard to case. Each handler is a pure step from the list it
    loads to the list it saves, with the user's answers as parameters; the
    outcome says whether the step saves at all. */
module Contacts {
  import opened Wrappers
  import opened Text

  // ---------------------------------------------------------------------------
  // Records
  // ---------------------------------------------------------------------------

  datatype Contact = Contact(name: string, phone: string, email: string)

  /** `c["name"].lower() == key.lower()`. */
  predicate Matches(c: Contact, key: string) {
    Lower(c.name) == Lower(key)
  }

  /** Some record of `cs` carries the name `key` under some capitalisation. */
  predicate Known(cs: seq<Contact>, key: string) {
    exists i :: 0 <= i < |cs| && Matches(cs[i], key)
  }

  /** No two records carry names that differ only in case. */
  predicate CaseUnique(cs: seq<Contact>) {
    forall i, j :: 0 <= i < j < |cs| ==> Lower(cs[i].name) != Lower(cs[j].name)
  }

  /** A record as the handlers store it: a name, and no field with whitespace
      at either end. */
  predicate Stored(c: Contact) {
    c.name != "" && IsStripped(c.name) && IsStripped(c.phone) && IsStripped(c.email)
  }

  predicate AllStored(cs: seq<Contact>) {
    forall i :: 0 <= i < |cs| ==> Stored(cs[i])
  }

  /** A record the CSV file carries back: no field with whitespace at either
      end, and some field non-empty (a row of empty values is skipped on
      loading). A record loaded from a hand-edited row may have a blank name. */
  predicate Saveable(c: Contact) {
    && IsStripped(c.name) && IsStripped(c.phone) && IsStripped(c.email)
    && (c.name != "" || c.phone != "" || c.email != "")
  }

  predicate AllSaveable(cs: seq<Contact>) {
    forall i :: 0 <= i < |cs| ==> Saveable(cs[i])
  }

  /** What a handler did: `Done` is the only outcome that saves. */
  datatype Outcome = Done | EmptyInput | Duplicate | NoMatch

  datatype Change = Change(contacts: seq<Contact>, outcome: Outcome)

  // ---------------------------------------------------------------------------
  // add_contact
  // ---------------------------------------------------------------------------

  /** A blank name is refused before anything is loaded, a name already
      present under any capitalisation is refused, and otherwise the stripped
      record is appended. */
  function AddContact(cs: seq<Contact>, rawName: string, rawPhone: string, rawEmail: string): (r: Change)
    ensures r.outcome == EmptyInput <==> Strip(rawName) == ""
    ensures r.outcome == Duplicate <==> Strip(rawName) != "" && Known(cs, Strip(rawName))
    ensures r.outcome != NoMatch
    ensures r.outcome != Done ==> r.contacts == cs
    ensures r.outcome == Done ==> && |r.contacts| == |cs| + 1 && r.contacts[..|cs|] == cs
                                  && r.contacts[|cs|].name == Strip(rawName)
                                  && r.contacts[|cs|].phone == Strip(rawPhone)
                                  && r.contacts[|cs|].email == Strip(rawEmail)
  {
    var name := Strip(rawName);
    if name == "" then Change(cs, EmptyInput)
    else if Known(cs, name) then Change(cs, Duplicate)
    else Change(cs + [Contact(name, Strip(rawPhone), Strip(rawEmail))], Done)
  }

  /** Adding keeps names apart under any capitalisation and keeps every
      record stored as the handlers store it. */
  lemma AddKeeps(cs: seq<Contact>, rawName: string, rawPhone: string, rawEmail: string)
    requires CaseUnique(cs) && AllStored(cs)
    ensures CaseUnique(AddContact(cs, rawName, rawPhone, rawEmail).contacts)
    ensures AllStored(AddContact(cs, rawName, rawPhone, rawEmail).contacts)
  {
    var r := AddContact(cs, rawName, rawPhone, rawEmail);
    if r.outcome == Done {
      var n := r.contacts;
      forall i, j | 0 <= i < j < |n|
        ensures Lower(n[i].name) != Lower(n[j].name)
      {
        if j == |cs| {
          assert n[i] == cs[i];
          assert !Matches(cs[i], Strip(rawName));
        } else {
          assert n[i] == cs[i] && n[j] == cs[j];
        }
      }
      forall i | 0 <= i < |n|
        ensures Stored(n[i])
      {
        if i < |cs| {
          assert n[i] == cs[i];
        }
      }
    }
  }

  /** Once added, a search for the name finds exactly the new record. */
  lemma AddThenSearch(cs: seq<Contact>, rawName: string, rawPhone: string, rawEmail: string)
    requires AddContact(cs, rawName, rawPhone, rawEmail).outcome == Done
    ensures Search(AddContact(cs, rawName, rawPhone, rawEmail).contacts, rawName)
         == [Contact(Strip(rawName), Strip(rawPhone), Strip(rawEmail))]
  {
    var key := Strip(rawName);
    var c := Contact(key, Strip(rawPhone), Strip(rawEmail));
    assert AddContact(cs, rawName, rawPhone, rawEmail).contacts == cs + [c];
    MatchingAdded(cs, c, key);
  }

  // ---------------------------------------------------------------------------
  // search_contact
  // ---------------------------------------------------------------------------

  /** `[c for c in cs if c["name"].lower() == key.lower()]`. */
  function Matching(cs: seq<Contact>, key: string): (r: seq<Contact>)
    ensures |r| <= |cs|
    ensures forall c :: c in r <==> c in cs && Matches(c, key)
    decreases |cs|
  {
    if |cs| == 0 then []
    else (if Matches(cs[0], key) then [cs[0]] else []) + Matching(cs[1..], key)
  }

  /** The filter keeps list order: the matches of a concatenation are the
      matches of each part, in turn. */
  lemma {:induction false} MatchingAppend(a: seq<Contact>, b: seq<Contact>, key: string)
    ensures Matching(a + b, key) == Matching(a, key) + Matching(b, key)
    decreases |a|
  {
    if |a| > 0 {
      assert (a + b)[0] == a[0];
      assert (a + b)[1..] == a[1..] + b;
      MatchingAppend(a[1..], b, key);
      var h := if Matches(a[0], key) then [a[0]] else [];
      assert Matching(a + b, key) == h + Matching(a[1..] + b, key);
      assert Matching(a, key) == h + Matching(a[1..], key);
    } else {
      assert a + b == b;
    }
  }

  /** No record carries the name: nothing matches. */
  lemma {:induction false} MatchingNone(cs: seq<Contact>, key: string)
    requires !Known(cs, key)
    ensures Matching(cs, key) == []
    decreases |cs|
  {
    if |cs| > 0 {
      assert !Matches(cs[0], key);
      var t := cs[1..];
      assert !Known(t, key) by {
        forall j | 0 <= j < |t|
          ensures !Matches(t[j], key)
        {
          assert t[j] == cs[j + 1];
        }
      }
      MatchingNone(t, key);
    }
  }

  /** Appending a record that carries the name to a list where none does
      leaves exactly that record to be found. */
  lemma MatchingAdded(cs: seq<Contact>, c: Contact, key: string)
    requires !Known(cs, key) && Matches(c, key)
    ensures Matching(cs + [c], key) == [c]
  {
    MatchingAppend(cs, [c], key);
    MatchingNone(cs, key);
    assert [c][1..] == [];
  }

  /** A blank search term finds nothing; otherwise the records whose name
      equals the term without regard to case, in list order. */
  function Search(cs: seq<Contact>, rawKey: string): (r: seq<Contact>)
    ensures Strip(rawKey) == "" ==> r == []
    ensures forall c :: c in r <==> Strip(rawKey) != "" && c in cs && Matches(c, Strip(rawKey))
    ensures Strip(rawKey) != "" ==> r == Matching(cs, Strip(rawKey))
  {
    var key := Strip(rawKey);
    if key == "" then [] else Matching(cs, key)
  }

  /** Under unique names a search finds at most one record. */
  lemma {:induction false} UniqueSearch(cs: seq<Contact>, key: string)
    requires CaseUnique(cs)
    ensures |Matching(cs, key)| <= 1
    decreases |cs|
  {
    if |cs| > 0 {
      var t := cs[1..];
      assert CaseUnique(t) by {
        forall i, j | 0 <= i < j < |t|
          ensures Lower(t[i].name) != Lower(t[j].name)
        {
          assert t[i] == cs[i + 1] && t[j] == cs[j + 1];
        }
      }
      UniqueSearch(t, key);
      if Matches(cs[0], key) {
        assert !Known(t, key) by {
          forall j | 0 <= j < |t|
            ensures !Matches(t[j], key)
          {
            assert t[j] == cs[j + 1];
          }
        }
        MatchingNone(t, key);
      }
    }
  }

  // ---------------------------------------------------------------------------
  // update_contact
  // ---------------------------------------------------------------------------

  /** Where the loop over the records stops: the first match, if any. */
  function FirstMatch(cs: seq<Contact>, key: string): (r: Option<nat>)
    ensures r.None? <==> !Known(cs, key)
    ensures r.Some? ==> && r.value < |cs| && Matches(cs[r.value], key)
                        && forall j :: 0 <= j < r.value ==> !Matches(cs[j], key)
    decreases |cs|
  {
    if |cs| == 0 then None
    else if Matches(cs[0], key) then Some(0)
    else
      match FirstMatch(cs[1..], key)
      case None => None
      case Some(i) => Some(i + 1)
  }

  /** The matched record after the two prompts: a blank answer keeps the
      field, any other answer replaces it; the name is never touched. */
  function Revise(c: Contact, phone: string, email: string): (r: Contact)
    ensures r.name == c.name
    ensures phone == "" ==> r.phone == c.phone
    ensures phone != "" ==> r.phone == phone
    ensures email == "" ==> r.email == c.email
    ensures email != "" ==> r.email == email
  {
    Contact(c.name, if phone != "" then phone else c.phone, if email != "" then email else c.email)
  }

  /** `i` is where the loop over the records stops for `key`. */
  predicate FirstAt(cs: seq<Contact>, key: string, i: nat) {
    i < |cs| && Matches(cs[i], key) && forall j :: 0 <= j < i ==> !Matches(cs[j], key)
  }

  /** `after` is `before` with only the `i`-th record revised. */
  predicate RevisedAt(before: seq<Contact>, after: seq<Contact>, i: nat, phone: string, email: string) {
    && |after| == |before| && i < |before|
    && after[i] == Revise(before[i], phone, email)
    && forall j :: 0 <= j < |before| && j != i ==> after[j] == before[j]
  }

  /** A blank name is refused, a name no record carries saves nothing, and
      otherwise only the first matching record has its phone and email
      revised. */
  function UpdateContact(cs: seq<Contact>, rawKey: string, rawPhone: string, rawEmail: string): (r: Change)
    ensures r.outcome == EmptyInput <==> Strip(rawKey) == ""
    ensures r.outcome == NoMatch <==> Strip(rawKey) != "" && !Known(cs, Strip(rawKey))
    ensures r.outcome != Duplicate
    ensures r.outcome != Done ==> r.contacts == cs
    ensures |r.contacts| == |cs|
    ensures forall j :: 0 <= j < |cs| ==> r.contacts[j].name == cs[j].name
    ensures r.outcome == Done ==>
      exists i :: FirstAt(cs, Strip(rawKey), i) && RevisedAt(cs, r.contacts, i, Strip(rawPhone), Strip(rawEmail))
  {
    var key := Strip(rawKey);
    if key == "" then Change(cs, EmptyInput) else ReviseFirst(cs, key, Strip(rawPhone), Strip(rawEmail))
  }

  /** The loop of `update_contact` for a non-blank name. */
  function ReviseFirst(cs: seq<Contact>, key: string, phone: string, email: string): (r: Change)
    ensures r.outcome == NoMatch <==> !Known(cs, key)
    ensures r.outcome == Done || r.outcome == NoMatch
    ensures r.outcome == NoMatch ==> r.contacts == cs
    ensures |r.contacts| == |cs|
    ensures forall j :: 0 <= j < |cs| ==> r.contacts[j].name == cs[j].name
    ensures r.outcome == Done ==> exists i :: FirstAt(cs, key, i) && RevisedAt(cs, r.contacts, i, phone, email)
  {
    match FirstMatch(cs, key)
    case None => Change(cs, NoMatch)
    case Some(i) =>
      var n := cs[i := Revise(cs[i], phone, email)];
      assert FirstAt(cs, key, i) && RevisedAt(cs, n, i, phone, email);
      Change(n, Done)
  }

  /** Updating keeps names apart and keeps every record stored as the
      handlers store it. */
  lemma UpdateKeeps(cs: seq<Contact>, rawKey: string, rawPhone: string, rawEmail: string)
    requires CaseUnique(cs) && AllStored(cs)
    ensures CaseUnique(UpdateContact(cs, rawKey, rawPhone, rawEmail).contacts)
    ensures AllStored(UpdateContact(cs, rawKey, rawPhone, rawEmail).contacts)
  {
    var r := UpdateContact(cs, rawKey, rawPhone, rawEmail);
    if r.outcome == Done {
      var n := r.contacts;
      forall i | 0 <= i < |n|
        ensures Stored(n[i])
      {
        if n[i] != cs[i] {
          assert Stored(cs[i]);
          assert n[i] == Revise(cs[i], Strip(rawPhone), Strip(rawEmail));
        }
      }
    }
  }

  // ---------------------------------------------------------------------------
  // delete_contact
  // ---------------------------------------------------------------------------

  /** `[c for c in cs if c["name"].lower() != key.lower()]`. */
  function Without(cs: seq<Contact>, key: string): (r: seq<Contact>)
    ensures |r| + |Matching(cs, key)| == |cs|
    ensures forall c :: c in r <==> c in cs && !Matches(c, key)
    decreases |cs|
  {
    if |cs| == 0 then []
    else (if Matches(cs[0], key) then [] else [cs[0]]) + Without(cs[1..], key)
  }

  /** Deleting keeps the order of the records it keeps. */
  lemma {:induction false} WithoutAppend(a: seq<Contact>, b: seq<Contact>, key: string)
    ensures Without(a + b, key) == Without(a, key) + Without(b, key)
    decreases |a|
  {
    if |a| > 0 {
      assert (a + b)[0] == a[0];
      assert (a + b)[1..] == a[1..] + b;
      WithoutAppend(a[1..], b, key);
      var h := if Matches(a[0], key) then [] else [a[0]];
      assert Without(a + b, key) == h + Without(a[1..] + b, key);
      assert Without(a, key) == h + Without(a[1..], key);
    } else {
      assert a + b == b;
    }
  }

  /** A blank name is refused; every record carrying the name is removed,
      and when none does nothing is saved. */
  function DeleteContact(cs: seq<Contact>, rawKey: string): (r: Change)
    ensures r.outcome == EmptyInput <==> Strip(rawKey) == ""
    ensures r.outcome == NoMatch <==> Strip(rawKey) != "" && !Known(cs, Strip(rawKey))
    ensures r.outcome != Duplicate
    ensures r.outcome != Done ==> r.contacts == cs
    ensures r.outcome == Done ==> && |r.contacts| < |cs|
                                  && forall c :: c in r.contacts <==> c in cs && !Matches(c, Strip(rawKey))
    ensures r.outcome == Done ==> r.contacts == Without(cs, Strip(rawKey))
  {
    var key := Strip(rawKey);
    if key == "" then Change(cs, EmptyInput)
    else
      var kept := Without(cs, key);
      MatchCount(cs, key);
      if |kept| == |cs| then Change(cs, NoMatch) else Change(kept, Done)
  }

  /** Some record matches exactly when the filter finds one. */
  lemma MatchCount(cs: seq<Contact>, key: string)
    ensures |Matching(cs, key)| > 0 <==> Known(cs, key)
  {
    if Known(cs, key) {
      var i :| 0 <= i < |cs| && Matches(cs[i], key);
      assert cs[i] in Matching(cs, key);
    } else {
      MatchingNone(cs, key);
    }
  }

  /** After a delete that saved, a search for the name finds nothing. */
  lemma DeleteThenSearch(cs: seq<Contact>, rawKey: string)
    requires DeleteContact(cs, rawKey).outcome == Done
    ensures Search(DeleteContact(cs, rawKey).contacts, rawKey) == []
  {
    var key := Strip(rawKey);
    var n := DeleteContact(cs, rawKey).contacts;
    assert !Known(n, key) by {
      forall i | 0 <= i < |n|
        ensures !Matches(n[i], key)
      {
        assert n[i] in n;
      }
    }
    MatchingNone(n, key);
  }

  /** Deleting keeps names apart and keeps every record stored as the
      handlers store it. */
  lemma DeleteKeeps(cs: seq<Contact>, rawKey: string)
    requires CaseUnique(cs) && AllStored(cs)
    ensures CaseUnique(DeleteContact(cs, rawKey).contacts)
    ensures AllStored(DeleteContact(cs, rawKey).contacts)
  {
    var r := DeleteContact(cs, rawKey);
    if r.outcome == Done {
      WithoutUnique(cs, Strip(rawKey));
      forall i | 0 <= i < |r.contacts|
        ensures Stored(r.contacts[i])
      {
        assert r.contacts[i] in cs;
      }
    }
  }

  lemma {:induction false} WithoutUnique(cs: seq<Contact>, key: string)
    requires CaseUnique(cs)
    ensures CaseUnique(Without(cs, key))
    decreases |cs|
  {
    if |cs| > 0 {
      var t := cs[1..];
      assert CaseUnique(t) by {
        forall i, j | 0 <= i < j < |t|
          ensures Lower(t[i].name) != Lower(t[j].name)
        {
          assert t[i] == cs[i + 1] && t[j] == cs[j + 1];
        }
      }
      WithoutUnique(t, key);
      var w := Without(t, key);
      if !Matches(cs[0], key) {
        var n := [cs[0]] + w;
        forall i, j | 0 <= i < j < |n|
          ensures Lower(n[i].name) != Lower(n[j].name)
        {
          if i == 0 {
            assert n[j] == w[j - 1] && w[j - 1] in t;
            var k :| 0 <= k < |t| && t[k] == w[j - 1];
            assert t[k] == cs[k + 1];
          } else {
            assert n[i] == w[i - 1] && n[j] == w[j - 1];
          }
        }
      }
    }
  }

  // ---------------------------------------------------------------------------
  // The CSV file
  // ---------------------------------------------------------------------------

  /** A loaded record: `csv.DictReader`'s row with its values stripped. */
  type Record = map<string, string>

  /** A row as `csv.DictReader` yields it: a value is missing (`None`) when
      the line has fewer fields than the header. */
  type RawRow = map<string, Option<string>>

  /** `v or ""`. */
  function OrEmpty(v: Option<string>): string {
    if v.Some? then v.value else ""
  }

  /** `any(row.values())`: some value is a non-empty string. */
  predicate AnyValue(row: RawRow) {
    exists k :: k in row && OrEmpty(row[k]) != ""
  }

  /** `{k: (v or "").strip() for k, v in row.items()}`. */
  function StripValues(row: RawRow): (r: Record)
    ensures r.Keys == row.Keys
  {
    map k | k in row :: Strip(OrEmpty(row[k]))
  }

  /** One row of `load_contacts_from_csv`: a row whose values are all empty
      is dropped, any other is kept with every value stripped. A value of
      spaces only counts as non-empty here, before stripping. */
  function LoadRow(row: RawRow): (r: Option<Record>)
    ensures r.Some? <==> AnyValue(row)
    ensures r.Some? ==> r.value.Keys == row.Keys
  {
    if AnyValue(row) then Some(StripValues(row)) else None
  }

  /** A kept row's values come out stripped, each from its own column. */
  lemma LoadRowValues(row: RawRow, k: string)
    requires k in row
    ensures LoadRow(row).Some? ==> IsStripped(LoadRow(row).value[k])
    ensures LoadRow(row).Some? ==> |LoadRow(row).value[k]| <= |OrEmpty(row[k])|
    ensures LoadRow(row).Some? && IsStripped(OrEmpty(row[k])) ==> LoadRow(row).value[k] == OrEmpty(row[k])
  {
    if IsStripped(OrEmpty(row[k])) {
      StripOfStripped(OrEmpty(row[k]));
    }
  }

  /** The list of a kept row, or nothing. */
  function Kept(row: RawRow): (rs: seq<Record>)
    ensures |rs| <= 1
  {
    match LoadRow(row)
    case None => []
    case Some(r) => [r]
  }

  /** The rows' lists of kept records, one after the other. */
  function Gather(rows: seq<RawRow>, keep: RawRow -> seq<Record>): (rs: seq<Record>)
    ensures (forall row :: |keep(row)| <= 1) ==> |rs| <= |rows|
    decreases |rows|
  {
    if |rows| == 0 then [] else keep(rows[0]) + Gather(rows[1..], keep)
  }

  /** `load_contacts_from_csv` on the rows the reader yields. */
  function LoadRecords(rows: seq<RawRow>): (rs: seq<Record>)
    ensures |rs| <= |rows|
  {
    Gather(rows, Kept)
  }

  /** Gathering keeps the order of the rows. */
  lemma {:induction false} GatherAppend(a: seq<RawRow>, b: seq<RawRow>, keep: RawRow -> seq<Record>)
    ensures Gather(a + b, keep) == Gather(a, keep) + Gather(b, keep)
    decreases |a|
  {
    if |a| > 0 {
      assert (a + b)[0] == a[0];
      assert (a + b)[1..] == a[1..] + b;
      GatherAppend(a[1..], b, keep);
    } else {
      assert a + b == b;
    }
  }

  /** Loading keeps the order of the rows it keeps. */
  lemma LoadAppend(a: seq<RawRow>, b: seq<RawRow>)
    ensures LoadRecords(a + b) == LoadRecords(a) + LoadRecords(b)
  {
    GatherAppend(a, b, Kept);
  }

  /** The columns the program writes. */
  const FieldSet: set<string> := {"name", "phone", "email"}

  /** `c.get(k, "")`. */
  function Get(c: Record, k: string): string {
    if k in c then c[k] else ""
  }

  /** The row `save_contacts_to_csv` writes for one record: the three
      columns and nothing else, blank where the record has no such key. */
  function SaveRow(c: Record): (w: Record)
    ensures w.Keys == FieldSet
    ensures forall k :: k in w ==> (k in c ==> w[k] == c[k]) && (k !in c ==> w[k] == "")
  {
    map k | k in FieldSet :: Get(c, k)
  }

  /** The record of a contact, under the three column names. */
  function RecordOf(c: Contact): (r: Record)
    ensures r.Keys == FieldSet
  {
    map["name" := c.name, "phone" := c.phone, "email" := c.email]
  }

  /** The contact a record with the three columns describes. */
  function ContactOf(r: Record): (c: Contact)
    requires FieldSet <= r.Keys
    ensures RecordOf(c) == SaveRow(r)
  {
    Contact(r["name"], r["phone"], r["email"])
  }

  /** The records of a list of contacts. */
  function RecordsOf(cs: seq<Contact>): (rs: seq<Record>)
    ensures |rs| == |cs| && forall i :: 0 <= i < |cs| ==> rs[i] == RecordOf(cs[i])
  {
    seq(|cs|, i requires 0 <= i < |cs| => RecordOf(cs[i]))
  }

  /** A written row as the reader yields it back under the header row. */
  function Reread(w: Record): (row: RawRow)
    ensures row.Keys == w.Keys
    ensures forall k :: k in w ==> row[k] == Some(w[k])
  {
    map k | k in w :: Some(w[k])
  }

  /** The rows the file holds after `save_contacts_to_csv(cs)`. */
  function Written(cs: seq<Contact>): (rows: seq<RawRow>)
    ensures |rows| == |cs|
  {
    seq(|cs|, i requires 0 <= i < |cs| => Reread(SaveRow(RecordOf(cs[i]))))
  }

  /** Saving writes a contact's record unchanged, and the record gives the
      contact back. */
  lemma SaveOfRecord(c: Contact)
    ensures SaveRow(RecordOf(c)) == RecordOf(c)
    ensures ContactOf(RecordOf(c)) == c
  {
    assert SaveRow(RecordOf(c)).Keys == RecordOf(c).Keys;
  }

  /** What a handler saves loads back as the same records, in the same
      order, so the next handler starts from the list the last one left. */
  lemma SaveLoadRoundTrip(cs: seq<Contact>)
    requires AllSaveable(cs)
    ensures LoadRecords(Written(cs)) == RecordsOf(cs)
    ensures forall i :: 0 <= i < |cs| ==> ContactOf(RecordsOf(cs)[i]) == cs[i]
  {
    var w := Written(cs);
    forall i | 0 <= i < |cs|
      ensures Kept(w[i]) == [RecordsOf(cs)[i]]
    {
      LoadOne(cs[i]);
    }
    GatherEach(w, Kept, RecordsOf(cs));
    forall i | 0 <= i < |cs|
      ensures ContactOf(RecordsOf(cs)[i]) == cs[i]
    {
      SaveOfRecord(cs[i]);
    }
  }

  /** When every row yields exactly its own record, gathering yields the
      records in row order. */
  lemma {:induction false} GatherEach(rows: seq<RawRow>, keep: RawRow -> seq<Record>, rs: seq<Record>)
    requires |rows| == |rs|
    requires forall i :: 0 <= i < |rows| ==> keep(rows[i]) == [rs[i]]
    ensures Gather(rows, keep) == rs
    decreases |rows|
  {
    if |rows| > 0 {
      GatherEach(rows[1..], keep, rs[1..]);
      assert rs == [rs[0]] + rs[1..];
    }
  }

  /** A stored contact's written row loads back as its record. */
  lemma LoadOne(c: Contact)
    requires Saveable(c)
    ensures Kept(Reread(SaveRow(RecordOf(c)))) == [RecordOf(c)]
  {
    SaveOfRecord(c);
    var r := RecordOf(c);
    assert r["name"] == c.name && r["phone"] == c.phone && r["email"] == c.email;
    var k := if c.name != "" then "name" else if c.phone != "" then "phone" else "email";
    KeptBack(r, k);
  }

  /** A record with stripped values, one of them non-empty, is kept as it
      was written. */
  lemma KeptBack(r: Record, k: string)
    requires forall j :: j in r ==> IsStripped(r[j])
    requires k in r && r[k] != ""
    ensures Kept(Reread(r)) == [r]
  {
    assert OrEmpty(Reread(r)[k]) != "";
    StrippedBack(r);
  }

  /** Reading back a record whose values are all stripped gives it again. */
  lemma StrippedBack(r: Record)
    requires forall k :: k in r ==> IsStripped(r[k])
    ensures StripValues(Reread(r)) == r
  {
    var row := Reread(r);
    var m := StripValues(row);
    forall k | k in r
      ensures m[k] == r[k]
    {
      var v := r[k];
      assert OrEmpty(row[k]) == v;
      StripOfStripped(v);
    }
    assert m.Keys == r.Keys;
  }

  // ---------------------------------------------------------------------------
  // display_contacts
  // ---------------------------------------------------------------------------

  /** `max(len(header), *(len(field) for each record))`. */
  predicate IsWidth(w: nat, header: string, lens: seq<nat>) {
    && |header| <= w
    && (forall i :: 0 <= i < |lens| ==> lens[i] <= w)
    && (w == |header| || exists i :: 0 <= i < |lens| && lens[i] == w)
  }

  function NameLengths(cs: seq<Contact>): (ls: seq<nat>)
    ensures |ls| == |cs| && forall i :: 0 <= i < |cs| ==> ls[i] == |cs[i].name|
  {
    seq(|cs|, i requires 0 <= i < |cs| => |cs[i].name|)
  }

  function PhoneLengths(cs: seq<Contact>): (ls: seq<nat>)
    ensures |ls| == |cs| && forall i :: 0 <= i < |cs| ==> ls[i] == |cs[i].phone|
  {
    seq(|cs|, i requires 0 <= i < |cs| => |cs[i].phone|)
  }

  function EmailLengths(cs: seq<Contact>): (ls: seq<nat>)
    ensures |ls| == |cs| && forall i :: 0 <= i < |cs| ==> ls[i] == |cs[i].email|
  {
    seq(|cs|, i requires 0 <= i < |cs| => |cs[i].email|)
  }

  /** The column widths of the table `display_contacts` prints; the empty
      list prints "No contacts found." instead. */
  method ColumnWidths(cs: seq<Contact>) returns (r: Option<(nat, nat, nat)>)
    ensures r.None? <==> |cs| == 0
    ensures r.Some? ==> && IsWidth(r.value.0, "Name", NameLengths(cs))
                        && IsWidth(r.value.1, "Phone", PhoneLengths(cs))
                        && IsWidth(r.value.2, "Email", EmailLengths(cs))
  {
    if |cs| == 0 {
      return None;
    }
    var nameW := Widest("Name", NameLengths(cs));
    var phoneW := Widest("Phone", PhoneLengths(cs));
    var emailW := Widest("Email", EmailLengths(cs));
    return Some((nameW, phoneW, emailW));
  }

  /** `max(len(header), *lens)`. */
  method Widest(header: string, lens: seq<nat>) returns (w: nat)
    ensures IsWidth(w, header, lens)
  {
    w := |header|;
    var k := 0;
    while k < |lens|
      invariant 0 <= k <= |lens|
      invariant IsWidth(w, header, lens[..k])
    {
      if lens[k] > w {
        w := lens[k];
      }
      assert lens[..k + 1][k] == lens[k];
      k := k + 1;
    }
    assert lens[..k] == lens;
  }

  /** One printed line: the three fields left-justified to their widths,
      separated by tabs. */
  function TableLine(a: string, b: string, c: string, nameW: nat, phoneW: nat, emailW: nat): string {
    LJust(a, nameW) + "\t" + LJust(b, phoneW) + "\t" + LJust(c, emailW)
  }

  /** With the widths `display_contacts` computes, the header and every
      record's line have the same length, so the columns line up. */
  lemma ColumnsAlign(cs: seq<Contact>, nameW: nat, phoneW: nat, emailW: nat, i: nat)
    requires i < |cs|
    requires IsWidth(nameW, "Name", NameLengths(cs))
    requires IsWidth(phoneW, "Phone", PhoneLengths(cs))
    requires IsWidth(emailW, "Email", EmailLengths(cs))
    ensures |TableLine(cs[i].name, cs[i].phone, cs[i].email, nameW, phoneW, emailW)|
         == |TableLine("Name", "Phone", "Email", nameW, phoneW, emailW)|
         == nameW + phoneW + emailW + 2
  {
    assert NameLengths(cs)[i] <= nameW && PhoneLengths(cs)[i] <= phoneW && EmailLengths(cs)[i] <= emailW;
  }
}

=== FILE: log_roundtrip.dfy ===
/** The CSV log read back: the rows `append_csv_rows` logs, read by
    `read_from_csv`, give back every run's items, and for archivable runs the
    two readers the report draws on agree. */
module LogRoundTrip {
  import opened Text
  import opened Archive
  import opened ArchiveReader
  import opened ArchiveLines
  import opened ArchiveSections

  /** An item `read_from_csv` keeps as it is: a name `strip().title()` leaves
      alone and a time `strip()` leaves alone. */
  predicate Loggable(e: Entry) {
    e.name != "" && IsStripped(e.name) && Title(e.name) == e.name && IsStripped(e.time)
  }

  predicate AllLoggable(es: seq<Entry>) {
    forall i :: 0 <= i < |es| ==> Loggable(es[i])
  }

  predicate LoggableRun(r: Run) {
    ValidDate(r.date) && AllLoggable(r.att) && DistinctNames(r.att)
  }

  predicate AllLoggableRuns(runs: seq<Run>) {
    forall i :: 0 <= i < |runs| ==> LoggableRun(runs[i])
  }

  /** The log after the runs, oldest first, starting from no file. */
  function LogAll(runs: seq<Run>): (rows: seq<CsvRow>)
    requires ValidRuns(runs)
    decreases |runs|
  {
    if |runs| == 0 then []
    else LogRows(runs[0].date, runs[0].stamp, runs[0].att) + LogAll(runs[1..])
  }

  lemma IsoIsStripped(d: Date)
    requires ValidDate(d)
    ensures Iso(d) != "" && Strip(Iso(d)) == Iso(d)
  {
    assert IsDigit(Iso(d)[0]) && IsDigit(Iso(d)[9]);
    StripOfStripped(Iso(d));
  }

  /** A logged row of a loggable item stores that item under the ISO date. */
  lemma ReadLogRow(acc: PerDate, d: Date, stamp: string, e: Entry)
    requires ValidDate(d) && Loggable(e)
    ensures ReadRow(acc, LogRow(d, stamp, e)) == Put(acc, Iso(d), e.name, e.time)
  {
    var r := LogRow(d, stamp, e);
    assert Field(r, "date") == Iso(d);
    assert Field(r, "student_name") == e.name;
    assert Field(r, "check_in_time") == e.time;
    IsoIsStripped(d);
    StripOfStripped(e.name);
    StripOfStripped(e.time);
  }

  lemma ReadRowsStep(acc: PerDate, rows: seq<CsvRow>)
    requires |rows| > 0
    ensures ReadRows(acc, rows) == ReadRows(ReadRow(acc, rows[0]), rows[1..])
  {
  }

  lemma AllLoggableTail(es: seq<Entry>)
    requires AllLoggable(es) && |es| > 0
    ensures AllLoggable(es[1..])
  {
    forall i | 0 <= i < |es[1..]|
      ensures Loggable(es[1..][i])
    {
      assert es[1..][i] == es[i + 1];
    }
  }

  /** The rows of distinct loggable items store exactly those items, before
      whatever rows follow are read. */
  lemma {:induction false} ReadLoggedRows(acc: PerDate, d: Date, stamp: string, es: seq<Entry>,
                                          more: seq<CsvRow>)
    requires ValidDate(d) && AllLoggable(es) && DistinctNames(es)
    ensures ReadRows(acc, LoggedRows(d, stamp, es) + more) == ReadRows(Merge(acc, Iso(d), es), more)
    decreases |es|
  {
    if |es| == 0 {
      assert LoggedRows(d, stamp, es) + more == more;
    } else {
      var next := Put(acc, Iso(d), es[0].name, es[0].time);
      LoggedRowsCons(d, stamp, es, more);
      ReadLoggedStep(acc, d, stamp, es[0], LoggedRows(d, stamp, es[1..]) + more);
      AllLoggableTail(es);
      HeadNameFresh(es);
      ReadLoggedRows(next, d, stamp, es[1..], more);
      MergeCons(acc, Iso(d), es);
    }
  }

  lemma LoggedRowsCons(d: Date, stamp: string, es: seq<Entry>, more: seq<CsvRow>)
    requires ValidDate(d) && |es| > 0
    ensures LoggedRows(d, stamp, es) + more
         == [LogRow(d, stamp, es[0])] + (LoggedRows(d, stamp, es[1..]) + more)
  {
    var rows := LoggedRows(d, stamp, es) + more;
    assert rows[0] == LogRow(d, stamp, es[0]);
    assert rows[1..] == LoggedRows(d, stamp, es[1..]) + more;
  }

  /** Reading a logged row of a loggable item stores that item. */
  lemma ReadLoggedStep(acc: PerDate, d: Date, stamp: string, e: Entry, rest: seq<CsvRow>)
    requires ValidDate(d) && Loggable(e)
    ensures ReadRows(acc, [LogRow(d, stamp, e)] + rest)
         == ReadRows(Put(acc, Iso(d), e.name, e.time), rest)
  {
    ReadRowsStep(acc, [LogRow(d, stamp, e)] + rest);
    assert ([LogRow(d, stamp, e)] + rest)[1..] == rest;
    ReadLogRow(acc, d, stamp, e);
  }

  lemma ByNameLoggable(att: seq<Entry>)
    requires AllLoggable(att)
    ensures AllLoggable(ByName(att))
  {
    var order := ByName(att);
    forall i | 0 <= i < |order|
      ensures Loggable(order[i])
    {
      assert order[i] in multiset(att);
      var j :| 0 <= j < |att| && att[j] == order[i];
    }
  }

  /** One run's rows merge that run's items under its date. */
  lemma ReadRunRows(acc: PerDate, r: Run, more: seq<CsvRow>)
    requires LoggableRun(r)
    ensures ReadRows(acc, LogRows(r.date, r.stamp, r.att) + more)
         == ReadRows(Merge(acc, Iso(r.date), r.att), more)
  {
    ByNameLoggable(r.att);
    MergeByName(acc, Iso(r.date), r.att);
    ReadLoggedRows(acc, r.date, r.stamp, ByName(r.att), more);
  }

  lemma LoggableRunsTail(runs: seq<Run>)
    requires AllLoggableRuns(runs) && |runs| > 0
    ensures AllLoggableRuns(runs[1..]) && ValidRuns(runs[1..])
  {
    forall i | 0 <= i < |runs[1..]|
      ensures LoggableRun(runs[1..][i])
    {
      assert runs[1..][i] == runs[i + 1];
    }
  }

  lemma {:induction false} ReadLogAll(acc: PerDate, runs: seq<Run>)
    requires AllLoggableRuns(runs)
    ensures ReadRows(acc, LogAll(runs)) == RecordAll(acc, runs)
    decreases |runs|
  {
    if |runs| > 0 {
      var r := runs[0];
      LoggableRunsTail(runs);
      ReadRunRows(acc, r, LogAll(runs[1..]));
      ReadLogAll(Merge(acc, Iso(r.date), r.att), runs[1..]);
    }
  }

  /** `read_from_csv` on the log of loggable runs gives back every run's
      items under its date, later runs overwriting earlier ones. */
  lemma LogRoundTrip(runs: seq<Run>)
    requires AllLoggableRuns(runs)
    ensures ReadCsv(LogAll(runs)) == RecordAll(map[], runs)
  {
    ReadLogAll(map[], runs);
  }

  /** Every item the archive carries, the log carries as well. */
  lemma ArchivableIsLoggable(layout: Layout, r: Run)
    requires ArchivableRun(layout, r)
    ensures LoggableRun(r)
  {
    forall i | 0 <= i < |r.att|
      ensures Loggable(r.att[i])
    {
      assert Archivable(layout, r.att[i]);
    }
  }

  /** For archivable runs the report reads the same map from either file. */
  lemma ReadersAgree(layout: Layout, runs: seq<Run>)
    requires AllArchivableRuns(layout, runs)
    ensures ReadArchive(ArchiveText(layout, runs)) == ReadCsv(LogAll(runs))
  {
    forall i | 0 <= i < |runs|
      ensures LoggableRun(runs[i])
    {
      ArchivableIsLoggable(layout, runs[i]);
    }
    ArchiveRoundTrip(layout, runs);
    LogRoundTrip(runs);
  }
}

=== FILE: ordering.dfy ===
/** Python's string order and the list operations built on it: `sorted(xs, key=...)`
    (a permutation ordered by the key), `list(dict.fromkeys(xs))` (each value
    once) and `sorted(some_set)`. */
module Ordering {

  // ---------------------------------------------------------------------------
  // The order on strings
  // ---------------------------------------------------------------------------

  /** Python's `a <= b` on `str`: code points compared left to right, and a
      proper prefix comes first. */
  predicate StrLe(a: string, b: string)
    decreases |a|
  {
    |a| == 0 || (|b| > 0 && (a[0] < b[0] || (a[0] == b[0] && StrLe(a[1..], b[1..]))))
  }

  lemma {:induction false} StrLeReflexive(a: string)
    ensures StrLe(a, a)
    decreases |a|
  {
    if |a| > 0 {
      StrLeReflexive(a[1..]);
    }
  }

  lemma {:induction false} StrLeTotal(a: string, b: string)
    ensures StrLe(a, b) || StrLe(b, a)
    decreases |a|
  {
    if |a| > 0 && |b| > 0 && a[0] == b[0] {
      StrLeTotal(a[1..], b[1..]);
    }
  }

  lemma {:induction false} StrLeTransitive(a: string, b: string, c: string)
    requires StrLe(a, b) && StrLe(b, c)
    ensures StrLe(a, c)
    decreases |a|
  {
    if |a| > 0 && a[0] == b[0] && b[0] == c[0] {
      StrLeTransitive(a[1..], b[1..], c[1..]);
    }
  }

  lemma {:induction false} StrLeAntisymmetric(a: string, b: string)
    requires StrLe(a, b) && StrLe(b, a)
    ensures a == b
    decreases |a|
  {
    if |a| > 0 {
      StrLeAntisymmetric(a[1..], b[1..]);
      assert a == [a[0]] + a[1..] && b == [b[0]] + b[1..];
    }
  }

  // ---------------------------------------------------------------------------
  // Sorting by a key
  // ---------------------------------------------------------------------------

  /** `xs` is in ascending order of `key`. */
  predicate SortedBy<T>(xs: seq<T>, key: T -> string) {
    forall i, j :: 0 <= i < j < |xs| ==> StrLe(key(xs[i]), key(xs[j]))
  }

  /** Putting a head in front of a sorted tail keeps it sorted when the head's
      key is at most every key in the tail. */
  lemma ConsSorted<T>(h: T, t: seq<T>, key: T -> string)
    requires SortedBy(t, key)
    requires forall k :: 0 <= k < |t| ==> StrLe(key(h), key(t[k]))
    ensures SortedBy([h] + t, key)
  {
    var r := [h] + t;
    forall i, j | 0 <= i < j < |r|
      ensures StrLe(key(r[i]), key(r[j]))
    {
      if i > 0 {
        assert r[i] == t[i - 1] && r[j] == t[j - 1];
      } else {
        assert r[j] == t[j - 1];
      }
    }
  }

  /** Insert `x` before the first element whose key is not smaller; an element
      with an equal key that is already there stays after `x`. */
  function Insert<T(==)>(x: T, xs: seq<T>, key: T -> string): (r: seq<T>)
    requires SortedBy(xs, key)
    ensures SortedBy(r, key)
    ensures multiset(r) == multiset(xs) + multiset{x}
    decreases |xs|
  {
    if |xs| == 0 || StrLe(key(x), key(xs[0])) then
      InsertFirst(x, xs, key);
      [x] + xs
    else
      var rest := Insert(x, xs[1..], key);
      assert xs == [xs[0]] + xs[1..];
      InsertLater(x, xs, rest, key);
      [xs[0]] + rest
  }

  lemma InsertFirst<T>(x: T, xs: seq<T>, key: T -> string)
    requires SortedBy(xs, key)
    requires |xs| == 0 || StrLe(key(x), key(xs[0]))
    ensures SortedBy([x] + xs, key)
  {
    forall k | 0 <= k < |xs|
      ensures StrLe(key(x), key(xs[k]))
    {
      if k > 0 {
        StrLeTransitive(key(x), key(xs[0]), key(xs[k]));
      }
    }
    ConsSorted(x, xs, key);
  }

  lemma InsertLater<T>(x: T, xs: seq<T>, rest: seq<T>, key: T -> string)
    requires SortedBy(xs, key) && |xs| > 0
    requires !StrLe(key(x), key(xs[0]))
    requires SortedBy(rest, key)
    requires multiset(rest) == multiset(xs[1..]) + multiset{x}
    ensures SortedBy([xs[0]] + rest, key)
  {
    StrLeTotal(key(x), key(xs[0]));
    forall k | 0 <= k < |rest|
      ensures StrLe(key(xs[0]), key(rest[k]))
    {
      assert rest[k] in multiset(rest);
      if rest[k] != x {
        assert rest[k] in multiset(xs[1..]);
        var j :| 0 <= j < |xs[1..]| && xs[1..][j] == rest[k];
        assert xs[j + 1] == rest[k];
      }
    }
    ConsSorted(xs[0], rest, key);
  }

  /** `sorted(xs, key=key)`: an ordering of `xs` by ascending key. */
  function SortBy<T(==)>(xs: seq<T>, key: T -> string): (r: seq<T>)
    ensures SortedBy(r, key)
    ensures multiset(r) == multiset(xs)
    decreases |xs|
  {
    if |xs| == 0 then []
    else
      assert xs == [xs[0]] + xs[1..];
      Insert(xs[0], SortBy(xs[1..], key), key)
  }

  /** Sorting an already sorted sequence changes nothing. */
  lemma {:induction false} SortOfSorted<T>(xs: seq<T>, key: T -> string)
    requires SortedBy(xs, key)
    ensures SortBy(xs, key) == xs
    decreases |xs|
  {
    if |xs| > 0 {
      var t := xs[1..];
      assert SortedBy(t, key) by {
        forall i, j | 0 <= i < j < |t|
          ensures StrLe(key(t[i]), key(t[j]))
        {
          assert t[i] == xs[i + 1] && t[j] == xs[j + 1];
        }
      }
      SortOfSorted(t, key);
      assert xs == [xs[0]] + t;
      if |t| > 0 {
        assert StrLe(key(xs[0]), key(t[0])) by {
          assert t[0] == xs[1];
        }
      }
    }
  }

  /** Elements of a sequence keep their membership under sorting. */
  lemma SortByMembers<T>(xs: seq<T>, key: T -> string)
    ensures forall x :: x in SortBy(xs, key) <==> x in xs
  {
    var r := SortBy(xs, key);
    forall x
      ensures x in r <==> x in xs
    {
      assert x in r <==> x in multiset(r);
      assert x in xs <==> x in multiset(xs);
    }
  }

  // ---------------------------------------------------------------------------
  // Removing repeats
  // ---------------------------------------------------------------------------

  /** No value occurs twice. */
  predicate Distinct<T(==)>(xs: seq<T>) {
    forall i, j :: 0 <= i < j < |xs| ==> xs[i] != xs[j]
  }

  /** `list(dict.fromkeys(xs))`: every value of `xs` exactly once. */
  function Dedup<T(==,!new)>(xs: seq<T>): (r: seq<T>)
    ensures Distinct(r)
    ensures forall x :: x in r <==> x in xs
    decreases |xs|
  {
    if |xs| == 0 then []
    else
      var d := Dedup(xs[..|xs| - 1]);
      var last := xs[|xs| - 1];
      assert forall x :: x in xs <==> x in xs[..|xs| - 1] || x == last by {
        assert xs == xs[..|xs| - 1] + [last];
      }
      if last in d then d else d + [last]
  }

  /** Inserting a new value into a sequence without repeats gives none. */
  lemma {:induction false} InsertDistinct<T>(x: T, xs: seq<T>, key: T -> string)
    requires SortedBy(xs, key) && Distinct(xs) && x !in xs
    ensures Distinct(Insert(x, xs, key))
    decreases |xs|
  {
    if |xs| > 0 && !StrLe(key(x), key(xs[0])) {
      var t := xs[1..];
      assert SortedBy(t, key) by {
        forall i, j | 0 <= i < j < |t|
          ensures StrLe(key(t[i]), key(t[j]))
        {
          assert t[i] == xs[i + 1] && t[j] == xs[j + 1];
        }
      }
      InsertDistinct(x, t, key);
      var rest := Insert(x, t, key);
      assert xs[0] !in rest by {
        assert xs[0] !in multiset(t) + multiset{x};
      }
      ConsDistinct(xs[0], rest);
    } else {
      ConsDistinct(x, xs);
    }
  }

  lemma ConsDistinct<T>(h: T, t: seq<T>)
    requires Distinct(t) && h !in t
    ensures Distinct([h] + t)
  {
    var r := [h] + t;
    forall i, j | 0 <= i < j < |r|
      ensures r[i] != r[j]
    {
      if i == 0 {
        assert r[j] == t[j - 1];
      } else {
        assert r[i] == t[i - 1] && r[j] == t[j - 1];
      }
    }
  }

  /** Sorting keeps a sequence free of repeats. */
  lemma {:induction false} SortByDistinct<T>(xs: seq<T>, key: T -> string)
    requires Distinct(xs)
    ensures Distinct(SortBy(xs, key))
    decreases |xs|
  {
    if |xs| > 0 {
      var t := xs[1..];
      assert Distinct(t) by {
        forall i, j | 0 <= i < j < |t|
          ensures t[i] != t[j]
        {
          assert t[i] == xs[i + 1] && t[j] == xs[j + 1];
        }
      }
      SortByDistinct(t, key);
      assert xs[0] !in SortBy(t, key) by {
        assert xs[0] !in multiset(t);
      }
      InsertDistinct(xs[0], SortBy(t, key), key);
    }
  }

  /** A sequence without repeats is its own `dict.fromkeys`. */
  lemma {:induction false} DedupOfDistinct<T(!new)>(xs: seq<T>)
    requires Distinct(xs)
    ensures Dedup(xs) == xs
    decreases |xs|
  {
    if |xs| > 0 {
      var init := xs[..|xs| - 1];
      assert Distinct(init);
      DedupOfDistinct(init);
      assert xs[|xs| - 1] !in init;
      assert xs == init + [xs[|xs| - 1]];
    }
  }

  // ---------------------------------------------------------------------------
  // Sorting a set
  // ---------------------------------------------------------------------------

  /** `xs` ascends without repeats. */
  predicate StrictlyAscending(xs: seq<string>) {
    forall i, j :: 0 <= i < j < |xs| ==> StrLe(xs[i], xs[j]) && xs[i] != xs[j]
  }

  predicate IsLeast(m: string, s: set<string>) {
    m in s && forall y :: y in s ==> StrLe(m, y)
  }

  lemma {:induction false} LeastExists(s: set<string>)
    requires s != {}
    ensures exists m :: IsLeast(m, s)
    decreases |s|
  {
    var x :| x in s;
    if s == {x} {
      StrLeReflexive(x);
      assert IsLeast(x, s);
    } else {
      var rest := s - {x};
      LeastExists(rest);
      var m :| IsLeast(m, rest);
      StrLeTotal(x, m);
      if StrLe(x, m) {
        forall y | y in s
          ensures StrLe(x, y)
        {
          if y == x {
            StrLeReflexive(x);
          } else {
            StrLeTransitive(x, m, y);
          }
        }
        assert IsLeast(x, s);
      } else {
        assert IsLeast(m, s);
      }
    }
  }

  lemma LeastUnique(m: string, m': string, s: set<string>)
    requires IsLeast(m, s) && IsLeast(m', s)
    ensures m == m'
  {
    StrLeAntisymmetric(m, m');
  }

  /** `sorted(s)` for a set of strings. */
  function SortedSet(s: set<string>): (r: seq<string>)
    ensures StrictlyAscending(r)
    ensures forall x :: x in r <==> x in s
    ensures |r| == |s|
    decreases |s|
  {
    if s == {} then []
    else
      LeastExists(s);
      assert forall m, m' :: IsLeast(m, s) && IsLeast(m', s) ==> m == m' by {
        forall m, m' | IsLeast(m, s) && IsLeast(m', s)
          ensures m == m'
        {
          LeastUnique(m, m', s);
        }
      }
      var m :| IsLeast(m, s);
      var rest := SortedSet(s - {m});
      assert StrictlyAscending([m] + rest) by {
        forall i, j | 0 <= i < j < |[m] + rest|
          ensures StrLe(([m] + rest)[i], ([m] + rest)[j]) && ([m] + rest)[i] != ([m] + rest)[j]
        {
          if i == 0 {
            assert ([m] + rest)[j] == rest[j - 1] && rest[j - 1] in s - {m};
          }
        }
      }
      [m] + rest
  }
}

=== FILE: recording.dfy ===
/** The checks `record_attendance_flow` makes on what the user types: a name
    is accepted when it is not blank and not already recorded under any
    capitalisation, a time when `parse_time` accepts it, and the class
    strength when it is an integer no smaller than the number present. */
module Recording {
  import opened Wrappers
  import opened Text
  import opened Clock
  import opened Archive
  import opened ArchiveReader
  import opened ArchiveLines
  import opened LogRoundTrip
  import Roster

  // ---------------------------------------------------------------------------
  // One item
  // ---------------------------------------------------------------------------

  /** Why the prompt is asked again. */
  datatype Rejection = EmptyName | AlreadyRecorded | EmptyTime | BadTime(error: TimeError)

  /** `name.lower() in (n.lower() for n in attendance.keys())`. */
  predicate Recorded(att: seq<Entry>, name: string) {
    exists i :: 0 <= i < |att| && Lower(att[i].name) == Lower(name)
  }

  /** No two recorded names differ only in case. */
  predicate CaseDistinct(att: seq<Entry>) {
    forall i, j :: 0 <= i < j < |att| ==> Lower(att[i].name) != Lower(att[j].name)
  }

  /** The name loop: a blank name and a name already recorded under any
      capitalisation are refused; otherwise the title-cased name is taken. */
  function AcceptName(att: seq<Entry>, raw: string): (r: Result<string, Rejection>)
    ensures r == Failure(EmptyName) <==> Strip(raw) == ""
    ensures r == Failure(AlreadyRecorded) <==> Strip(raw) != "" && Recorded(att, Title(Strip(raw)))
    ensures r.Success? ==> r.value == Title(Strip(raw)) && !Recorded(att, r.value)
  {
    var s := Strip(raw);
    if s == "" then Failure(EmptyName)
    else
      var name := Title(s);
      if Recorded(att, name) then Failure(AlreadyRecorded) else Success(name)
  }

  /** The time loop: a blank time is refused, otherwise `parse_time` decides. */
  function AcceptTime(raw: string): (r: Result<string, Rejection>)
    ensures Strip(raw) == "" ==> r == Failure(EmptyTime)
    ensures Strip(raw) != "" ==> (r.Success? <==> ParseTime(raw).Success?)
    ensures r.Success? ==> r.value == ParseTime(raw).value && IsCanonical(r.value)
  {
    var s := Strip(raw);
    if s == "" then Failure(EmptyTime)
    else
      match ParseTime(s)
      case Failure(e) => Failure(BadTime(e))
      case Success(t) =>
        StripOfStripped(s);
        assert ParseTime(s) == ParseTime(raw);
        Success(t)
  }

  /** `attendance[name] = check_in` for an accepted name and time; a refusal
      leaves the items as they were. */
  function RecordItem(att: seq<Entry>, rawName: string, rawTime: string): (r: Result<seq<Entry>, Rejection>)
    ensures r.Success? <==> AcceptName(att, rawName).Success? && AcceptTime(rawTime).Success?
    ensures r.Success? ==> |r.value| == |att| + 1 && r.value[..|att|] == att
  {
    Append(att, AcceptName(att, rawName), AcceptTime(rawTime))
  }

  function Append(att: seq<Entry>, name: Result<string, Rejection>, time: Result<string, Rejection>)
    : (r: Result<seq<Entry>, Rejection>)
    ensures r.Success? <==> name.Success? && time.Success?
    ensures r.Success? ==> r.value == att + [Entry(name.value, time.value)]
  {
    if name.Failure? then Failure(name.error)
    else if time.Failure? then Failure(time.error)
    else Success(att + [Entry(name.value, time.value)])
  }

  /** A recorded item is kept as the program meant: names stay apart under
      any capitalisation, the new item is loggable and its time canonical. */
  lemma RecordItemKeeps(att: seq<Entry>, rawName: string, rawTime: string)
    requires CaseDistinct(att) && AllLoggable(att)
    ensures var r := RecordItem(att, rawName, rawTime);
      r.Success? ==> && CaseDistinct(r.value) && DistinctNames(r.value)
                     && AllLoggable(r.value) && IsCanonical(r.value[|att|].time)
  {
    if RecordItem(att, rawName, rawTime).Success? {
      var name := AcceptName(att, rawName).value;
      var t := AcceptTime(rawTime).value;
      Roster.NormalizeGivesName(rawName);
      AppendKeeps(att, name, t);
    }
  }

  lemma AppendKeeps(att: seq<Entry>, name: string, t: string)
    requires CaseDistinct(att) && AllLoggable(att) && !Recorded(att, name)
    requires name != "" && IsStripped(name) && Title(name) == name && IsCanonical(t)
    ensures CaseDistinct(att + [Entry(name, t)]) && DistinctNames(att + [Entry(name, t)])
    ensures AllLoggable(att + [Entry(name, t)])
  {
    var r := att + [Entry(name, t)];
    forall i, j | 0 <= i < j < |r|
      ensures Lower(r[i].name) != Lower(r[j].name)
    {
      if j == |att| {
        assert r[i] == att[i];
      }
    }
    CanonicalStripped(t);
  }

  /** A canonical time has no whitespace at either end. */
  lemma CanonicalStripped(t: string)
    requires IsCanonical(t)
    ensures IsStripped(t)
  {
    assert IsDigit(t[..2][0]);
    assert t[6..][1] == 'M';
  }

  /** Every canonical time is one the archive reader keeps. */
  lemma CanonicalArchivable(t: string)
    requires IsCanonical(t)
    ensures ArchivableTime(t)
  {
    CanonicalStripped(t);
    assert IsDigit(t[..2][0]) && IsDigit(t[..2][1]) && IsDigit(t[3..5][0]) && IsDigit(t[3..5][1]);
    assert HasClockDigits(t);
    assert t[6..] == "AM" || t[6..] == "PM";
  }

  // ---------------------------------------------------------------------------
  // Class strength
  // ---------------------------------------------------------------------------

  datatype StrengthError = NotAnInteger | BelowPresent

  datatype Counts = Counts(present: nat, total: int, absent: int)

  /** `int(input(...))` and the guard `total < present_count`; the absent
      count is what the strength leaves over. */
  function ClassStrength(present: nat, typed: string): (r: Result<Counts, StrengthError>)
    ensures r == Failure(NotAnInteger) <==> ParseInt(Strip(typed)).None?
    ensures r == Failure(BelowPresent) <==> ParseInt(Strip(typed)).Some? && ParseInt(Strip(typed)).value < present
    ensures r.Success? ==> && r.value.present == present && r.value.total == ParseInt(Strip(typed)).value
                           && r.value.absent >= 0 && r.value.total == present + r.value.absent
  {
    match ParseInt(Strip(typed))
    case None => Failure(NotAnInteger)
    case Some(total) =>
      if total < present then Failure(BelowPresent)
      else Success(Counts(present, total, total - present))
  }

  /** Typing a strength in decimal is accepted exactly when it is at least
      the number present, and the footer then reports it back. */
  lemma StrengthOfDecimal(present: nat, total: int)
    ensures ClassStrength(present, IntToString(total)).Success? <==> total >= present
    ensures total >= present ==>
      ClassStrength(present, IntToString(total)) == Success(Counts(present, total, total - present))
  {
    ParseIntOfIntToString(total);
    DecimalStripped(total);
  }

  lemma DecimalStripped(i: int)
    ensures Strip(IntToString(i)) == IntToString(i)
  {
    var s := IntToString(i);
    ParseIntOfIntToString(i);
    assert |s| > 0;
    if s[0] == '-' {
      assert IsDigit(s[1..][0]) && IsDigit(s[1..][|s| - 2]);
    } else {
      assert IsDigit(s[0]) && IsDigit(s[|s| - 1]);
    }
    StripOfStripped(s);
  }
}

=== FILE: report.dfy ===
/** The date-wise report: `build_master` orders the dates and gathers the
    roster, and `make_colored_pdf` lays out one table per date with one row per
    roster member, marking who is present. Only the rows and the page breaks
    are modelled, not their rendering. */
module Report {
  import opened Wrappers
  import opened Text
  import opened Ordering
  import opened ArchiveReader
  import opened Roster

  // ---------------------------------------------------------------------------
  // Choosing the data
  // ---------------------------------------------------------------------------

  /** `generate_full_pdf_flow`: the log when it holds anything, the archive
      otherwise, and nothing when both are empty. */
  function ReportData(fromLog: PerDate, fromArchive: PerDate): (r: Option<PerDate>)
    ensures r.None? <==> fromLog == map[] && fromArchive == map[]
    ensures r.Some? ==> r.value != map[] && (r.value == fromLog || (fromLog == map[] && r.value == fromArchive))
  {
    if fromLog != map[] then Some(fromLog)
    else if fromArchive != map[] then Some(fromArchive)
    else None
  }

  // ---------------------------------------------------------------------------
  // build_master
  // ---------------------------------------------------------------------------

  /** Every name any date holds. */
  function RecordedNames(m: PerDate): set<string> {
    set d, n | d in m && n in m[d] :: n
  }

  datatype Master = Master(dates: seq<string>, roster: seq<string>, data: PerDate)

  /** The dates in ascending order; the roster is the set of every date's
      names and the roster file's names, in case-insensitive order (names equal
      under `lower` keep their code-point order). */
  function BuildMaster(m: PerDate, rosterFile: Option<string>): (r: Master)
    ensures StrictlyAscending(r.dates)
    ensures forall d :: d in r.dates <==> d in m
    ensures Distinct(r.roster) && SortedBy(r.roster, LowerKey)
    ensures forall n :: n in r.roster <==> n in RecordedNames(m) || n in LoadRoster(rosterFile)
    ensures r.data == m
  {
    Master(SortedSet(m.Keys), ArrangeNames(RecordedNames(m), LoadRoster(rosterFile)), m)
  }

  /** The union of the recorded names and the file's names, each once, in
      case-insensitive order. */
  function ArrangeNames(recorded: set<string>, fileNames: seq<string>): (r: seq<string>)
    ensures Distinct(r) && SortedBy(r, LowerKey)
    ensures forall n :: n in r <==> n in recorded || n in fileNames
  {
    var ordered := SortedSet(recorded + (set n | n in fileNames));
    SortByDistinct(ordered, LowerKey);
    SortByMembers(ordered, LowerKey);
    SortBy(ordered, LowerKey)
  }

  // ---------------------------------------------------------------------------
  // The rows of one date's table
  // ---------------------------------------------------------------------------

  datatype Status = Present | Absent

  datatype ReportRow = ReportRow(name: string, status: Status, checkIn: string)

  /** One roster member on one date: present when the date's map holds the
      name; the time shown is the stored one, or "-" when absent or empty. */
  function RowFor(entries: map<string, string>, name: string): (row: ReportRow)
    ensures row.name == name
    ensures row.status == Present <==> name in entries
    ensures row.checkIn == "-" || (name in entries && row.checkIn == entries[name])
    ensures name in entries && entries[name] != "" ==> row.checkIn == entries[name]
    ensures name in entries && entries[name] == "" ==> row.checkIn == "-"
  {
    if name in entries then
      var time := entries[name];
      ReportRow(name, Present, if time != "" then time else "-")
    else ReportRow(name, Absent, "-")
  }

  /** The table rows, one per roster member in roster order. */
  function Rows(entries: map<string, string>, roster: seq<string>): (rows: seq<ReportRow>)
    ensures |rows| == |roster|
    ensures forall i :: 0 <= i < |roster| ==> rows[i] == RowFor(entries, roster[i])
  {
    seq(|roster|, i requires 0 <= i < |roster| => RowFor(entries, roster[i]))
  }

  /** The row loop of `make_colored_pdf`. */
  method TableRows(entries: map<string, string>, roster: seq<string>) returns (rows: seq<ReportRow>)
    ensures rows == Rows(entries, roster)
  {
    rows := [];
    var k := 0;
    while k < |roster|
      invariant 0 <= k <= |roster|
      invariant |rows| == k
      invariant forall i :: 0 <= i < k ==> rows[i] == RowFor(entries, roster[i])
    {
      var name := roster[k];
      var row;
      if name in entries {
        var time := entries[name];
        row := ReportRow(name, Present, if time != "" then time else "-");
      } else {
        row := ReportRow(name, Absent, "-");
      }
      rows := rows + [row];
      k := k + 1;
    }
  }

  /** How many rows are marked present. */
  function CountPresent(rows: seq<ReportRow>): nat
    decreases |rows|
  {
    if |rows| == 0 then 0
    else (if rows[0].status == Present then 1 else 0) + CountPresent(rows[1..])
  }

  /** The present rows count the roster members the date's map holds. */
  lemma {:induction false} PresentCount(entries: map<string, string>, roster: seq<string>)
    requires Distinct(roster)
    ensures CountPresent(Rows(entries, roster)) == |(set n | n in roster && n in entries)|
    decreases |roster|
  {
    if |roster| > 0 {
      var t := roster[1..];
      assert Distinct(t) by {
        forall i, j | 0 <= i < j < |t|
          ensures t[i] != t[j]
        {
          assert t[i] == roster[i + 1] && t[j] == roster[j + 1];
        }
      }
      PresentCount(entries, t);
      RowsCons(entries, roster);
      var rest := set n | n in t && n in entries;
      var all := set n | n in roster && n in entries;
      assert roster[0] !in rest;
      if roster[0] in entries {
        assert all == rest + {roster[0]};
      } else {
        assert all == rest;
      }
    }
  }

  lemma RowsCons(entries: map<string, string>, roster: seq<string>)
    requires |roster| > 0
    ensures Rows(entries, roster)[0] == RowFor(entries, roster[0])
    ensures Rows(entries, roster)[1..] == Rows(entries, roster[1..])
  {
  }

  // ---------------------------------------------------------------------------
  // The whole report
  // ---------------------------------------------------------------------------

  /** One date's heading (`idx. Date: dt`), its rows, and whether a page
      break follows. */
  datatype DateTable = DateTable(index: nat, date: string, rows: seq<ReportRow>, pageBreakAfter: bool)

  datatype Report = NoData | Tables(tables: seq<DateTable>)

  /** The table of the `k`-th date, counting from 1. */
  function TableAt(master: Master, k: nat): (t: DateTable)
    requires 1 <= k <= |master.dates|
    ensures t.index == k && t.date == master.dates[k - 1]
    ensures t.rows == Rows(Day(master.data, master.dates[k - 1]), master.roster)
    ensures t.pageBreakAfter <==> k % 3 == 0
  {
    var dt := master.dates[k - 1];
    DateTable(k, dt, Rows(Day(master.data, dt), master.roster), k % 3 == 0)
  }

  /** `make_colored_pdf`: the no-data notice when there is no date or no
      roster member, otherwise one table per date in date order. */
  function MakeReport(master: Master): (r: Report)
    ensures r.NoData? <==> |master.dates| == 0 || |master.roster| == 0
    ensures r.Tables? ==> |r.tables| == |master.dates|
    ensures r.Tables? ==> forall i :: 0 <= i < |r.tables| ==> r.tables[i] == TableAt(master, i + 1)
  {
    if |master.dates| == 0 || |master.roster| == 0 then NoData
    else Tables(seq(|master.dates|, i requires 0 <= i < |master.dates| => TableAt(master, i + 1)))
  }

  /** How many tables a page break follows. */
  function Breaks(ts: seq<DateTable>): nat
    decreases |ts|
  {
    if |ts| == 0 then 0
    else Breaks(ts[..|ts| - 1]) + (if ts[|ts| - 1].pageBreakAfter then 1 else 0)
  }

  /** A page break follows every third table, and no other. */
  lemma PageBreaks(master: Master)
    requires MakeReport(master).Tables?
    ensures Breaks(MakeReport(master).tables) == |master.dates| / 3
  {
    var ts := MakeReport(master).tables;
    BreaksPrefix(master, ts, |ts|);
    assert ts[..|ts|] == ts;
  }

  lemma {:induction false} BreaksPrefix(master: Master, ts: seq<DateTable>, n: nat)
    requires n <= |ts| == |master.dates|
    requires forall i :: 0 <= i < |ts| ==> ts[i] == TableAt(master, i + 1)
    ensures Breaks(ts[..n]) == n / 3
    decreases n
  {
    if n > 0 {
      BreaksPrefix(master, ts, n - 1);
      assert ts[..n][..n - 1] == ts[..n - 1];
      assert ts[..n][n - 1] == TableAt(master, n);
    }
  }

  /** The row for `n` on a date that stores `time` for it. */
  predicate ShowsEntry(row: ReportRow, n: string, time: string) {
    row.name == n && row.status == Present && row.checkIn == (if time != "" then time else "-")
  }

  /** Nothing recorded is lost: on every date, every name the date holds has
      a present row showing its time, or "-" when the time is empty. */
  lemma EveryEntryShown(m: PerDate, rosterFile: Option<string>, k: nat, n: string)
    requires 1 <= k <= |BuildMaster(m, rosterFile).dates|
    requires n in Day(m, BuildMaster(m, rosterFile).dates[k - 1])
    ensures var master := BuildMaster(m, rosterFile);
      exists j :: (0 <= j < |master.roster|
        && ShowsEntry(TableAt(master, k).rows[j], n, m[master.dates[k - 1]][n]))
  {
    var master := BuildMaster(m, rosterFile);
    var d := master.dates[k - 1];
    assert d in m;
    assert n in RecordedNames(m);
    EntryShown(master, k, n);
  }

  /** A name the `k`-th date holds and the roster lists has a present row. */
  lemma EntryShown(master: Master, k: nat, n: string)
    requires 1 <= k <= |master.dates| && master.dates[k - 1] in master.data
    requires n in master.data[master.dates[k - 1]] && n in master.roster
    ensures exists j :: (0 <= j < |master.roster|
      && ShowsEntry(TableAt(master, k).rows[j], n, master.data[master.dates[k - 1]][n]))
  {
    var j :| 0 <= j < |master.roster| && master.roster[j] == n;
    RowShows(Day(master.data, master.dates[k - 1]), master.roster, j);
    assert ShowsEntry(TableAt(master, k).rows[j], n, master.data[master.dates[k - 1]][n]);
  }

  lemma RowShows(entries: map<string, string>, roster: seq<string>, j: nat)
    requires j < |roster| && roster[j] in entries
    ensures ShowsEntry(Rows(entries, roster)[j], roster[j], entries[roster[j]])
  {
  }
}

=== FILE: roster.dfy ===
/** The roster file (one student name per line) and the roster editor's add,
    remove and bulk-replace steps. A roster holds stripped, title-cased names,
    none twice, in case-insensitive order. */
module Roster {
  import opened Wrappers
  import opened Text
  import opened Ordering

  /** The sort key `lambda s: s.lower()`. */
  function LowerKey(s: string): string {
    Lower(s)
  }

  /** A name as the program keeps it: not empty, stripped and title-cased. */
  predicate IsRosterName(n: string) {
    n != "" && IsStripped(n) && Title(n) == n
  }

  /** What loading, adding, removing and replacing keep. */
  predicate WellFormed(r: seq<string>) {
    && Distinct(r)
    && SortedBy(r, LowerKey)
    && forall i :: 0 <= i < |r| ==> IsRosterName(r[i])
  }

  // ---------------------------------------------------------------------------
  // Normalising names
  // ---------------------------------------------------------------------------

  /** `s.strip().title()`. */
  function Normalize(s: string): string {
    Title(Strip(s))
  }

  /** Title casing moves no whitespace: only letters change. */
  lemma TitleKeepsSpace(s: string, i: nat)
    requires i < |s|
    ensures IsSpace(Title(s)[i]) <==> IsSpace(s[i])
  {
    TitleAt(s, i);
  }

  /** A line that is not blank normalises to a roster name. */
  lemma NormalizeGivesName(s: string)
    requires Strip(s) != ""
    ensures IsRosterName(Normalize(s))
  {
    var t := Strip(s);
    TitleKeepsSpace(t, 0);
    TitleKeepsSpace(t, |t| - 1);
    TitleIdempotent(t);
  }

  /** A roster name normalises to itself. */
  lemma NormalizeOfName(n: string)
    requires IsRosterName(n)
    ensures Normalize(n) == n
  {
    StripOfStripped(n);
  }

  /** The names of the lines that are not blank, in line order. */
  function LineNames(lines: seq<string>): (ns: seq<string>)
    ensures |ns| <= |lines|
    ensures forall i :: 0 <= i < |ns| ==> IsRosterName(ns[i])
    decreases |lines|
  {
    if |lines| == 0 then []
    else
      var rest := LineNames(lines[1..]);
      if Strip(lines[0]) == "" then rest
      else
        NormalizeGivesName(lines[0]);
        [Normalize(lines[0])] + rest
  }

  /** A line holds a name when it is not blank. */
  predicate NamedBy(lines: seq<string>, n: string) {
    exists i :: 0 <= i < |lines| && Strip(lines[i]) != "" && Normalize(lines[i]) == n
  }

  /** The names are exactly those of the lines that are not blank. */
  lemma {:induction false} LineNamesMembers(lines: seq<string>)
    ensures forall n :: n in LineNames(lines) <==> NamedBy(lines, n)
    decreases |lines|
  {
    if |lines| > 0 {
      var t := lines[1..];
      LineNamesMembers(t);
      forall n
        ensures n in LineNames(lines) <==> NamedBy(lines, n)
      {
        if NamedBy(t, n) {
          var i :| 0 <= i < |t| && Strip(t[i]) != "" && Normalize(t[i]) == n;
          assert lines[i + 1] == t[i];
        }
        if NamedBy(lines, n) {
          var i :| 0 <= i < |lines| && Strip(lines[i]) != "" && Normalize(lines[i]) == n;
          if i > 0 {
            assert t[i - 1] == lines[i];
          }
        }
      }
    }
  }

  /** Lines that are already roster names are their own names. */
  lemma {:induction false} LineNamesOfNames(ns: seq<string>)
    requires forall i :: 0 <= i < |ns| ==> IsRosterName(ns[i])
    ensures LineNames(ns) == ns
    decreases |ns|
  {
    if |ns| > 0 {
      StripOfStripped(ns[0]);
      NormalizeOfName(ns[0]);
      LineNamesOfNames(ns[1..]);
      assert ns == [ns[0]] + ns[1..];
    }
  }

  /** `sorted(list(dict.fromkeys(names)), key=str.lower)`. */
  function Arrange(names: seq<string>): (r: seq<string>)
    requires forall i :: 0 <= i < |names| ==> IsRosterName(names[i])
    ensures WellFormed(r)
    ensures forall n :: n in r <==> n in names
  {
    var d := Dedup(names);
    SortByDistinct(d, LowerKey);
    SortByMembers(d, LowerKey);
    NamesWithin(SortBy(d, LowerKey), names);
    SortBy(d, LowerKey)
  }

  /** Values drawn from a sequence of roster names are roster names. */
  lemma NamesWithin(xs: seq<string>, ys: seq<string>)
    requires forall i :: 0 <= i < |ys| ==> IsRosterName(ys[i])
    requires forall x :: x in xs ==> x in ys
    ensures forall i :: 0 <= i < |xs| ==> IsRosterName(xs[i])
  {
    forall i | 0 <= i < |xs|
      ensures IsRosterName(xs[i])
    {
      assert xs[i] in ys;
    }
  }

  /** A well-formed roster arranges to itself. */
  lemma ArrangeOfWellFormed(r: seq<string>)
    requires WellFormed(r)
    ensures Arrange(r) == r
  {
    DedupOfDistinct(r);
    SortOfSorted(r, LowerKey);
  }

  // ---------------------------------------------------------------------------
  // The roster file
  // ---------------------------------------------------------------------------

  /** `load_roster`: no file gives the empty roster; otherwise the names of
      the lines that are not blank, each kept once, in case-insensitive order. */
  function LoadRoster(file: Option<string>): (r: seq<string>)
    ensures WellFormed(r)
    ensures file.None? ==> r == []
    ensures file.Some? ==> forall n :: n in r <==> NamedBy(Lines(file.value), n)
  {
    match file
    case None => []
    case Some(text) =>
      LineNamesMembers(Lines(text));
      Arrange(LineNames(Lines(text)))
  }

  /** `save_roster`: the names joined by line breaks, so that the file's
      lines are the names again when none is empty or holds a line break. */
  function SaveRoster(r: seq<string>): (file: string)
    ensures (forall i :: 0 <= i < |r| ==> NoBreak(r[i]) && |r[i]| > 0) ==> Lines(file) == r
  {
    if forall i :: 0 <= i < |r| ==> NoBreak(r[i]) && |r[i]| > 0 then
      LinesOfJoinNonEmpty(r);
      Join(r, "\n")
    else
      Join(r, "\n")
  }

  /** Saving a roster and loading it back gives the same roster, as long as
      no name holds a line boundary. */
  lemma RosterRoundTrip(r: seq<string>)
    requires WellFormed(r)
    requires forall i :: 0 <= i < |r| ==> NoBreak(r[i])
    ensures LoadRoster(Some(SaveRoster(r))) == r
  {
    LinesOfJoinNonEmpty(r);
    LineNamesOfNames(r);
    ArrangeOfWellFormed(r);
  }

  // ---------------------------------------------------------------------------
  // The editor's steps
  // ---------------------------------------------------------------------------

  /** The message each step prints. */
  datatype Outcome = Added | EmptyIgnored | AlreadyExists | Removed | NotFound

  datatype Step = Step(roster: seq<string>, outcome: Outcome)

  /** Option 1: an empty name or one already on the roster changes nothing;
      any other name joins the roster, which is sorted again. */
  function AddName(r: seq<string>, input: string): (s: Step)
    ensures Normalize(input) == "" ==> s == Step(r, EmptyIgnored)
    ensures Normalize(input) != "" && Normalize(input) in r ==> s == Step(r, AlreadyExists)
    ensures Normalize(input) != "" && Normalize(input) !in r ==>
      && s.outcome == Added
      && multiset(s.roster) == multiset(r) + multiset{Normalize(input)}
      && SortedBy(s.roster, LowerKey)
  {
    var nm := Normalize(input);
    if nm == "" then Step(r, EmptyIgnored)
    else if nm in r then Step(r, AlreadyExists)
    else Step(SortBy(r + [nm], LowerKey), Added)
  }

  /** Adding keeps a roster well formed, and the added name is on it. */
  lemma AddKeepsWellFormed(r: seq<string>, input: string)
    requires WellFormed(r)
    ensures WellFormed(AddName(r, input).roster)
    ensures forall n :: n in AddName(r, input).roster <==>
      n in r || (Normalize(input) != "" && n == Normalize(input))
  {
    var nm := Normalize(input);
    if nm != "" && nm !in r {
      NormalizeGivesName(input);
      var xs := r + [nm];
      assert Distinct(xs) by {
        forall i, j | 0 <= i < j < |xs|
          ensures xs[i] != xs[j]
        {
          if j == |r| {
            assert xs[i] == r[i];
          }
        }
      }
      SortByDistinct(xs, LowerKey);
      SortByMembers(xs, LowerKey);
      var s := SortBy(xs, LowerKey);
      forall i | 0 <= i < |s|
        ensures IsRosterName(s[i])
      {
        assert s[i] in xs;
      }
    }
  }

  /** `list.remove`: the first occurrence of `x` is taken out. */
  function RemoveFirst(r: seq<string>, x: string): (s: seq<string>)
    requires x in r
    ensures |s| == |r| - 1
    ensures exists i :: 0 <= i < |r| && r[i] == x && x !in r[..i] && s == r[..i] + r[i + 1..]
  {
    var i := FirstIndex(r, x);
    r[..i] + r[i + 1..]
  }

  /** Where `list.remove` finds `x`: its first position. */
  function FirstIndex(r: seq<string>, x: string): (i: nat)
    requires x in r
    ensures i < |r| && r[i] == x && x !in r[..i]
    decreases |r|
  {
    if r[0] == x then 0
    else
      var j := FirstIndex(r[1..], x);
      assert r[..j + 1] == [r[0]] + r[1..][..j];
      j + 1
  }

  /** Option 2: a name on the roster is taken off; any other input changes
      nothing. */
  function RemoveName(r: seq<string>, input: string): (s: Step)
    ensures Normalize(input) !in r ==> s == Step(r, NotFound)
    ensures Normalize(input) in r ==> s.outcome == Removed && |s.roster| == |r| - 1
  {
    var nm := Normalize(input);
    if nm in r then Step(RemoveFirst(r, nm), Removed) else Step(r, NotFound)
  }

  /** Removing keeps a roster well formed: the name is gone and every other
      name stays. */
  lemma RemoveKeepsWellFormed(r: seq<string>, input: string)
    requires WellFormed(r)
    ensures WellFormed(RemoveName(r, input).roster)
    ensures forall n :: n in RemoveName(r, input).roster <==> n in r && n != Normalize(input)
  {
    var nm := Normalize(input);
    if nm in r {
      var s := RemoveFirst(r, nm);
      var i :| 0 <= i < |r| && r[i] == nm && nm !in r[..i] && s == r[..i] + r[i + 1..];
      DropOne(r, i);
    }
  }

  /** Leaving out one element of a well-formed roster gives a well-formed
      roster without that element. */
  lemma DropOne(r: seq<string>, i: nat)
    requires WellFormed(r) && i < |r|
    ensures WellFormed(r[..i] + r[i + 1..])
    ensures forall n :: n in r[..i] + r[i + 1..] <==> n in r && n != r[i]
  {
    var s := r[..i] + r[i + 1..];
    assert forall k :: 0 <= k < |s| ==> s[k] == r[if k < i then k else k + 1];
    forall n | n in r && n != r[i]
      ensures n in s
    {
      var k :| 0 <= k < |r| && r[k] == n;
      if k < i {
        assert s[k] == n;
      } else {
        assert s[k - 1] == n;
      }
    }
  }

  /** The lines typed for a bulk replace, up to the first blank one
      (`not line.strip()`, that is, all whitespace). */
  function UntilBlank(inputs: seq<string>): (ls: seq<string>)
    ensures |ls| <= |inputs| && ls == inputs[..|ls|]
    ensures forall i :: 0 <= i < |ls| ==> !AllSpace(ls[i])
    ensures |ls| < |inputs| ==> AllSpace(inputs[|ls|])
    decreases |inputs|
  {
    if |inputs| == 0 || AllSpace(inputs[0]) then []
    else [inputs[0]] + UntilBlank(inputs[1..])
  }

  /** Option 4: the typed names up to the first blank line, each once, in
      case-insensitive order. */
  function ReplaceRoster(inputs: seq<string>): (r: seq<string>)
    ensures WellFormed(r)
    ensures forall n :: n in r <==> NamedBy(UntilBlank(inputs), n)
  {
    LineNamesMembers(UntilBlank(inputs));
    Arrange(LineNames(UntilBlank(inputs)))
  }

  /** Bulk replace and the roster file agree: typing the lines of a file and
      then a blank line gives the roster loading that file gives. */
  lemma ReplaceAgreesWithLoad(lines: seq<string>)
    requires forall i :: 0 <= i < |lines| ==> Strip(lines[i]) != "" && NoBreak(lines[i])
    ensures ReplaceRoster(lines + [""]) == LoadRoster(Some(Join(lines, "\n")))
  {
    forall i | 0 <= i < |lines|
      ensures !AllSpace(lines[i]) && |lines[i]| > 0
    {
      StripEmpty(lines[i]);
    }
    UntilBlankStops(lines);
    LinesOfJoinNonEmpty(lines);
    assert ReplaceRoster(lines + [""]) == Arrange(LineNames(lines));
    assert LoadRoster(Some(Join(lines, "\n"))) == Arrange(LineNames(lines));
  }

  /** The blank line typed after the names ends the bulk replace there. */
  lemma UntilBlankStops(lines: seq<string>)
    requires forall i :: 0 <= i < |lines| ==> !AllSpace(lines[i])
    ensures UntilBlank(lines + [""]) == lines
  {
    var inputs := lines + [""];
    assert forall i :: 0 <= i < |lines| ==> inputs[i] == lines[i];
    assert AllSpace(inputs[|lines|]);
    UntilBlankAtLeast(inputs, |lines|);
    UntilBlankAtMost(inputs, |lines|);
    assert inputs[..|lines|] == lines;
  }

  /** The lines before the first blank one are all taken. */
  lemma {:induction false} UntilBlankAtLeast(inputs: seq<string>, k: nat)
    requires k <= |inputs|
    requires forall i :: 0 <= i < k ==> !AllSpace(inputs[i])
    ensures |UntilBlank(inputs)| >= k
    decreases k
  {
    if k > 0 {
      var t := inputs[1..];
      assert forall i :: 0 <= i < k - 1 ==> !AllSpace(t[i]) by {
        forall i | 0 <= i < k - 1
          ensures !AllSpace(t[i])
        {
          assert t[i] == inputs[i + 1];
        }
      }
      UntilBlankAtLeast(t, k - 1);
      assert inputs == [inputs[0]] + t;
      UntilBlankCons(inputs[0], t);
    }
  }

  /** A blank line is never taken. */
  lemma {:induction false} UntilBlankAtMost(inputs: seq<string>, k: nat)
    requires k < |inputs| && AllSpace(inputs[k])
    ensures |UntilBlank(inputs)| <= k
    decreases k
  {
    if !AllSpace(inputs[0]) {
      var t := inputs[1..];
      assert t[k - 1] == inputs[k];
      UntilBlankAtMost(t, k - 1);
      assert inputs == [inputs[0]] + t;
      UntilBlankCons(inputs[0], t);
    }
  }

  lemma UntilBlankCons(h: string, t: seq<string>)
    requires !AllSpace(h)
    ensures UntilBlank([h] + t) == [h] + UntilBlank(t)
  {
    assert ([h] + t)[0] == h && ([h] + t)[1..] == t;
  }
}

=== FILE: text.dfy ===
/** Python string operations the two programs rely on, stated over `seq<char>`:
    `str.strip`, `str.lower`, `str.title`, `str.ljust`, `str.join`, `str.splitlines`,
    `re.split(r"\s{2,}", ...)` and decimal `str(int)`.
    Case mapping covers ASCII letters only; whitespace is Python's `str.isspace` set. */
module Text {
  import opened Wrappers

  // ---------------------------------------------------------------------------
  // Character classes
  // ---------------------------------------------------------------------------

  /** The characters `str.isspace` (and the regex class `\s`) accept. */
  predicate IsSpace(c: char) {
    var n := c as int;
    (9 <= n <= 13) || (28 <= n <= 32) || n == 0x85 || n == 0xA0 || n == 0x1680
    || (0x2000 <= n <= 0x200A) || n == 0x2028 || n == 0x2029 || n == 0x202F
    || n == 0x205F || n == 0x3000
  }

  /** The line boundaries `str.splitlines` recognises ("\r\n" counts as one). */
  predicate IsLineBreak(c: char) {
    var n := c as int;
    (10 <= n <= 13) || (28 <= n <= 30) || n == 0x85 || n == 0x2028 || n == 0x2029
  }

  predicate IsDigit(c: char) { '0' <= c <= '9' }

  predicate IsUpper(c: char) { 'A' <= c <= 'Z' }

  predicate IsLower(c: char) { 'a' <= c <= 'z' }

  /** A cased character, in the sense `str.title` uses to find word starts. */
  predicate IsLetter(c: char) { IsUpper(c) || IsLower(c) }

  function LowerChar(c: char): char {
    if IsUpper(c) then (c as int + 32) as char else c
  }

  function UpperChar(c: char): char {
    if IsLower(c) then (c as int - 32) as char else c
  }

  predicate AllDigits(s: string) {
    forall i :: 0 <= i < |s| ==> IsDigit(s[i])
  }

  predicate AllSpace(s: string) {
    forall i :: 0 <= i < |s| ==> IsSpace(s[i])
  }

  /** No line boundary inside `s`: it stays one line when written out. */
  predicate NoBreak(s: string) {
    forall i :: 0 <= i < |s| ==> !IsLineBreak(s[i])
  }

  /** No run of two or more whitespace characters inside `s`. */
  predicate NoRun(s: string) {
    forall i :: 0 <= i < |s| - 1 ==> !(IsSpace(s[i]) && IsSpace(s[i + 1]))
  }

  /** Neither end of `s` is whitespace: `str.strip` leaves it alone. */
  predicate IsStripped(s: string) {
    |s| == 0 || (!IsSpace(s[0]) && !IsSpace(s[|s| - 1]))
  }

  lemma LineBreakIsSpace(c: char)
    ensures IsLineBreak(c) ==> IsSpace(c)
  {
  }

  // ---------------------------------------------------------------------------
  // Case mapping
  // ---------------------------------------------------------------------------

  /** `str.lower` on ASCII letters. */
  function Lower(s: string): string {
    seq(|s|, i requires 0 <= i < |s| => LowerChar(s[i]))
  }

  /** `str.title`: a letter that follows a letter is lowered, every other
      character is raised. */
  function Title(s: string): (r: string)
    ensures |r| == |s|
  {
    TitleAfter(s, false)
  }

  /** Title casing of `s` when the character before it is a letter
      (`afterLetter`) or is not. */
  function TitleAfter(s: string, afterLetter: bool): (r: string)
    ensures |r| == |s|
    decreases |s|
  {
    if |s| == 0 then []
    else [if afterLetter then LowerChar(s[0]) else UpperChar(s[0])] + TitleAfter(s[1..], IsLetter(s[0]))
  }

  /** Each character of the title-cased string is its own character lowered
      when a letter precedes it and raised otherwise. */
  lemma {:induction false} TitleAfterAt(s: string, afterLetter: bool, i: nat)
    requires i < |s|
    ensures TitleAfter(s, afterLetter)[i]
      == if (if i == 0 then afterLetter else IsLetter(s[i - 1])) then LowerChar(s[i]) else UpperChar(s[i])
    decreases i
  {
    if i > 0 {
      TitleAfterAt(s[1..], IsLetter(s[0]), i - 1);
      assert s[1..][i - 1] == s[i];
      if i > 1 {
        assert s[1..][i - 2] == s[i - 1];
      }
    }
  }

  /** `str.title` character by character. */
  lemma TitleAt(s: string, i: nat)
    requires i < |s|
    ensures Title(s)[i] == if i > 0 && IsLetter(s[i - 1]) then LowerChar(s[i]) else UpperChar(s[i])
  {
    TitleAfterAt(s, false, i);
  }

  /** Title casing is idempotent: a name read back from a file and title-cased
      again is unchanged. */
  lemma TitleIdempotent(s: string)
    ensures Title(Title(s)) == Title(s)
  {
    TitleAfterIdempotent(s, false);
  }

  lemma {:induction false} TitleAfterIdempotent(s: string, b: bool)
    ensures TitleAfter(TitleAfter(s, b), b) == TitleAfter(s, b)
    decreases |s|
  {
    if |s| > 0 {
      var t := TitleAfter(s, b);
      assert t[1..] == TitleAfter(s[1..], IsLetter(s[0]));
      assert IsLetter(t[0]) == IsLetter(s[0]);
      TitleAfterIdempotent(s[1..], IsLetter(s[0]));
    }
  }

  // ---------------------------------------------------------------------------
  // Stripping and padding
  // ---------------------------------------------------------------------------

  function StripLeft(s: string): (r: string)
    ensures |r| <= |s| && r == s[|s| - |r|..]
    ensures |r| == 0 || !IsSpace(r[0])
    ensures forall i :: 0 <= i < |s| - |r| ==> IsSpace(s[i])
    decreases |s|
  {
    if |s| > 0 && IsSpace(s[0]) then StripLeft(s[1..]) else s
  }

  function StripRight(s: string): (r: string)
    ensures |r| <= |s| && r == s[..|r|]
    ensures |r| == 0 || !IsSpace(r[|r| - 1])
    ensures forall i :: |r| <= i < |s| ==> IsSpace(s[i])
    decreases |s|
  {
    if |s| > 0 && IsSpace(s[|s| - 1]) then StripRight(s[..|s| - 1]) else s
  }

  /** `str.strip()`: the longest middle slice with no whitespace at either end. */
  function Strip(s: string): (r: string)
    ensures IsStripped(r)
    ensures |r| <= |s|
  {
    StripRight(StripLeft(s))
  }

  /** Stripping a string with no whitespace at either end returns it unchanged. */
  lemma StripOfStripped(s: string)
    requires IsStripped(s)
    ensures Strip(s) == s
  {
  }

  /** `not s.strip()` holds exactly for the strings of whitespace only. */
  lemma StripEmpty(s: string)
    ensures Strip(s) == "" <==> AllSpace(s)
  {
    if AllSpace(s) {
      StripLeftOfSpace(s);
    }
    if Strip(s) == "" {
      assert |StripLeft(s)| == 0;
    }
  }

  lemma {:induction false} StripLeftOfSpace(s: string)
    requires AllSpace(s)
    ensures StripLeft(s) == ""
    decreases |s|
  {
    if |s| > 0 {
      StripLeftOfSpace(s[1..]);
    }
  }

  /** Stripping only removes characters after a prefix whose ends are not
      whitespace, so the prefix survives. */
  lemma StripKeepsPrefix(p: string, s: string)
    requires |p| > 0 && !IsSpace(p[0]) && !IsSpace(p[|p| - 1])
    requires p <= s
    ensures p <= Strip(s)
  {
    assert StripLeft(s) == s;
    StripRightKeepsPrefix(p, s);
  }

  lemma StripRightKeepsPrefix(p: string, s: string)
    requires |p| > 0 && !IsSpace(p[|p| - 1])
    requires p <= s
    ensures p <= StripRight(s)
  {
  }

  function Repeat(c: char, n: nat): (r: string)
    ensures |r| == n && forall i :: 0 <= i < n ==> r[i] == c
  {
    seq(n, _ => c)
  }

  /** `str.ljust(width)`: pad with spaces on the right up to `width`. */
  function LJust(s: string, width: nat): (r: string)
    ensures |r| == if |s| >= width then |s| else width
    ensures s <= r
    ensures forall i :: |s| <= i < |r| ==> r[i] == ' '
  {
    if |s| >= width then s else s + Repeat(' ', width - |s|)
  }

  // ---------------------------------------------------------------------------
  // Joining and splitting lines
  // ---------------------------------------------------------------------------

  /** `sep.join(parts)`. */
  function Join(parts: seq<string>, sep: string): string
    decreases |parts|
  {
    if |parts| == 0 then ""
    else if |parts| == 1 then parts[0]
    else parts[0] + sep + Join(parts[1..], sep)
  }

  /** Number of characters before the first line boundary. */
  function LineLength(s: string): (n: nat)
    ensures n <= |s|
    ensures forall i :: 0 <= i < n ==> !IsLineBreak(s[i])
    ensures n < |s| ==> IsLineBreak(s[n])
    decreases |s|
  {
    if |s| == 0 || IsLineBreak(s[0]) then 0 else 1 + LineLength(s[1..])
  }

  /** `str.splitlines()`: a final boundary does not start an empty line, and
      no line holds a line boundary. */
  function Lines(s: string): (ls: seq<string>)
    ensures |ls| <= |s|
    ensures forall i :: 0 <= i < |ls| ==> NoBreak(ls[i])
    decreases |s|
  {
    if |s| == 0 then []
    else
      var n := LineLength(s);
      if n == |s| then [s]
      else
        var width := if s[n] == '\r' && n + 1 < |s| && s[n + 1] == '\n' then 2 else 1;
        [s[..n]] + Lines(s[n + width..])
  }

  /** A line followed by "\n" is split off whole. */
  lemma LinesCons(l: string, rest: string)
    requires NoBreak(l)
    ensures Lines(l + "\n" + rest) == [l] + Lines(rest)
  {
    var s := l + "\n" + rest;
    var n := LineLength(s);
    assert s[|l|] == '\n';
    assert IsLineBreak(s[|l|]);
    assert n == |l|;
    assert s[..n] == l;
    assert s[n + 1..] == rest;
  }

  /** Splitting the text `"\n".join(ls) + "\n"` gives the lines back. */
  lemma {:induction false} LinesOfJoin(ls: seq<string>)
    requires |ls| >= 1
    requires forall i :: 0 <= i < |ls| ==> NoBreak(ls[i])
    ensures Lines(Join(ls, "\n") + "\n") == ls
    decreases |ls|
  {
    if |ls| == 1 {
      LinesCons(ls[0], "");
      assert ls[0] + "\n" + "" == Join(ls, "\n") + "\n";
      assert Lines("") == [];
    } else {
      var tail := Join(ls[1..], "\n") + "\n";
      assert Join(ls, "\n") + "\n" == ls[0] + "\n" + tail;
      LinesCons(ls[0], tail);
      LinesOfJoin(ls[1..]);
      assert ls == [ls[0]] + ls[1..];
    }
  }

  /** Splitting `"\n".join(ls)` gives the lines back when no line is empty. */
  lemma {:induction false} LinesOfJoinNonEmpty(ls: seq<string>)
    requires forall i :: 0 <= i < |ls| ==> NoBreak(ls[i]) && |ls[i]| > 0
    ensures Lines(Join(ls, "\n")) == ls
    decreases |ls|
  {
    if |ls| == 1 {
      var n := LineLength(ls[0]);
      assert n == |ls[0]|;
    } else if |ls| > 1 {
      var tail := Join(ls[1..], "\n");
      LinesCons(ls[0], tail);
      LinesOfJoinNonEmpty(ls[1..]);
      assert ls == [ls[0]] + ls[1..];
    }
  }

  // ---------------------------------------------------------------------------
  // re.split(r"\s{2,}", s)
  // ---------------------------------------------------------------------------

  /** The pieces of `s` between runs of two or more whitespace characters,
      as `re.split(r"\s{2,}", s)` returns them (leftmost, greedy runs). */
  function SplitRuns(s: string): (parts: seq<string>)
    ensures |parts| >= 1
    ensures |parts[0]| > 0 ==> |s| > 0 && parts[0][0] == s[0]
    ensures forall i :: 0 <= i < |parts| ==> NoRun(parts[i])
    decreases |s|
  {
    if |s| < 2 then [s]
    else if IsSpace(s[0]) && IsSpace(s[1]) then
      [""] + SplitRuns(StripLeft(s))
    else
      var tail := SplitRuns(s[1..]);
      [[s[0]] + tail[0]] + tail[1..]
  }

  /** A string with no whitespace run is one piece. */
  lemma {:induction false} SplitRunsNoRun(s: string)
    requires NoRun(s)
    ensures SplitRuns(s) == [s]
    decreases |s|
  {
    if |s| >= 2 {
      assert !(IsSpace(s[0]) && IsSpace(s[1]));
      assert NoRun(s[1..]) by {
        forall i | 0 <= i < |s[1..]| - 1
          ensures !(IsSpace(s[1..][i]) && IsSpace(s[1..][i + 1]))
        {
          assert s[1..][i] == s[i + 1] && s[1..][i + 1] == s[i + 2];
        }
      }
      SplitRunsNoRun(s[1..]);
      assert [s[0]] + s[1..] == s;
    }
  }

  /** A field, a gap of at least two spaces and a second field split into the
      two fields. */
  lemma {:induction false} SplitRunsTwoFields(a: string, gap: nat, b: string)
    requires NoRun(a) && (|a| == 0 || !IsSpace(a[|a| - 1]))
    requires gap >= 2
    requires NoRun(b) && (|b| == 0 || !IsSpace(b[0]))
    ensures SplitRuns(a + Repeat(' ', gap) + b) == [a, b]
    decreases |a|
  {
    var s := a + Repeat(' ', gap) + b;
    if |a| == 0 {
      assert s == Repeat(' ', gap) + b;
      assert IsSpace(s[0]) && IsSpace(s[1]);
      StripLeftOfGap(gap, b);
      SplitRunsNoRun(b);
    } else {
      var a' := a[1..];
      var rest := a' + Repeat(' ', gap) + b;
      assert s == [a[0]] + rest;
      assert !(IsSpace(a[0]) && IsSpace(rest[0])) by {
        if |a'| > 0 {
          assert rest[0] == a[1];
        }
      }
      NoRunTail(a);
      SplitRunsTwoFields(a', gap, b);
      SplitRunsStep(a[0], rest);
      assert [a[0]] + a' == a;
    }
  }

  lemma NoRunTail(a: string)
    requires |a| > 0 && NoRun(a)
    ensures NoRun(a[1..])
  {
    forall i | 0 <= i < |a[1..]| - 1
      ensures !(IsSpace(a[1..][i]) && IsSpace(a[1..][i + 1]))
    {
      assert a[1..][i] == a[i + 1] && a[1..][i + 1] == a[i + 2];
    }
  }

  /** A character that does not open a run joins the first piece of the rest. */
  lemma SplitRunsStep(c: char, rest: string)
    requires |rest| > 0 && !(IsSpace(c) && IsSpace(rest[0]))
    ensures SplitRuns([c] + rest) == [[c] + SplitRuns(rest)[0]] + SplitRuns(rest)[1..]
  {
    assert ([c] + rest)[1..] == rest;
  }

  lemma {:induction false} StripLeftOfGap(gap: nat, b: string)
    requires |b| == 0 || !IsSpace(b[0])
    ensures StripLeft(Repeat(' ', gap) + b) == b
    decreases gap
  {
    var s := Repeat(' ', gap) + b;
    if gap == 0 {
      assert s == b;
    } else {
      assert s[0] == ' ' && IsSpace(s[0]);
      assert StripLeft(s) == StripLeft(s[1..]);
      assert s[1..] == Repeat(' ', gap - 1) + b;
      StripLeftOfGap(gap - 1, b);
    }
  }

  // ---------------------------------------------------------------------------
  // Decimal numbers
  // ---------------------------------------------------------------------------

  function DigitChar(d: nat): (c: char)
    requires d < 10
    ensures IsDigit(c)
  {
    ('0' as int + d) as char
  }

  function DigitValue(c: char): nat
    requires IsDigit(c)
  {
    c as int - '0' as int
  }

  /** The number an all-digit string denotes. */
  function DigitsValue(s: string): nat
    requires AllDigits(s)
    decreases |s|
  {
    if |s| == 0 then 0 else DigitsValue(s[..|s| - 1]) * 10 + DigitValue(s[|s| - 1])
  }

  /** `str(n)` for a natural number. */
  function NatToString(n: nat): (s: string)
    ensures |s| >= 1 && AllDigits(s)
    decreases n
  {
    if n < 10 then [DigitChar(n)] else NatToString(n / 10) + [DigitChar(n % 10)]
  }

  /** `str(i)` for any integer. */
  function IntToString(i: int): (s: string)
    ensures |s| >= 1
  {
    if i < 0 then "-" + NatToString(-i) else NatToString(i)
  }

  /** `int(s)` restricted to what `str` produces: an optional minus sign and
      at least one digit. */
  function ParseInt(s: string): Option<int> {
    if |s| > 0 && s[0] == '-' then
      if |s| > 1 && AllDigits(s[1..]) then
        var magnitude: int := DigitsValue(s[1..]);
        Some(-magnitude)
      else None
    else if |s| > 0 && AllDigits(s) then Some(DigitsValue(s))
    else None
  }

  lemma {:induction false} DigitsValueOfNatToString(n: nat)
    ensures DigitsValue(NatToString(n)) == n
    decreases n
  {
    if n >= 10 {
      var s := NatToString(n);
      assert s[..|s| - 1] == NatToString(n / 10);
      DigitsValueOfNatToString(n / 10);
    }
  }

  /** Reading back a printed integer gives the integer. */
  lemma ParseIntOfIntToString(i: int)
    ensures ParseInt(IntToString(i)) == Some(i)
  {
    var n: nat := if i < 0 then -i else i;
    DigitsValueOfNatToString(n);
    if i < 0 {
      ParseNegative(NatToString(n));
    } else {
      ParseDigits(NatToString(n));
    }
  }

  lemma ParseNegative(d: string)
    requires |d| >= 1 && AllDigits(d)
    ensures ParseInt("-" + d) == Some(-(DigitsValue(d) as int))
  {
    assert ("-" + d)[1..] == d;
  }

  lemma ParseDigits(d: string)
    requires |d| >= 1 && AllDigits(d)
    ensures ParseInt(d) == Some(DigitsValue(d))
  {
    assert IsDigit(d[0]);
  }

  /** Two-digit zero-padded rendering, as `%02d`. */
  function Pad2(n: nat): (s: string)
    requires n < 100
    ensures |s| == 2 && AllDigits(s) && DigitsValue(s) == n
  {
    var s := [DigitChar(n / 10), DigitChar(n % 10)];
    assert s[..1] == [DigitChar(n / 10)];
    assert s[..1][..0] == [];
    assert DigitsValue(s[..1]) == n / 10;
    s
  }

  /** Four-digit zero-padded rendering, as `%04d`. */
  function Pad4(n: nat): (s: string)
    requires n < 10000
    ensures |s| == 4 && AllDigits(s) && DigitsValue(s) == n
  {
    var s := Pad2(n / 100) + Pad2(n % 100);
    DigitsValueAppendPair(Pad2(n / 100), Pad2(n % 100));
    s
  }

  /** Appending two digits scales the number by a hundred. */
  lemma DigitsValueAppendPair(a: string, b: string)
    requires AllDigits(a) && |b| == 2 && AllDigits(b)
    ensures AllDigits(a + b) && DigitsValue(a + b) == DigitsValue(a) * 100 + DigitsValue(b)
  {
    var s := a + b;
    assert s[..|s| - 1] == a + [b[0]];
    assert (a + [b[0]])[..|a|] == a;
    assert b[..1] == [b[0]] && b[..1][..0] == [];
    assert DigitsValue(b[..1]) == DigitValue(b[0]);
  }

  /** A two-digit string is its own padded rendering. */
  lemma Pad2OfDigits(s: string)
    requires |s| == 2 && AllDigits(s)
    ensures DigitsValue(s) < 100 && Pad2(DigitsValue(s)) == s
  {
    assert s[..1][..0] == [];
    assert DigitsValue(s[..1]) == DigitValue(s[0]);
    assert DigitsValue(s) == DigitValue(s[0]) * 10 + DigitValue(s[1]);
    assert s == [DigitChar(DigitValue(s[0])), DigitChar(DigitValue(s[1]))];
  }
}

=== FILE: wrappers.dfy ===
/** Failure-carrying results shared by the model. */
module Wrappers {

  /** A value that may be missing. */
  datatype Option<+T> = None | Some(value: T)

  /** The outcome of an operation that either succeeds with a value or raises an error. */
  datatype Result<+R, +E> = Success(value: R) | Failure(error: E)
}
